=== FILE: README.md ===
# Projectify backend core, modelled in Dafny

Projectify is an Express/Mongoose backend. A user uploads a PDF; an AI model
turns its text into a project; the project is then managed as a tree:

- a project holds an ordered list of main tasks;
- each main task holds an ordered list of subtasks and a comment log;
- each subtask holds its own comment log.

The repository carries two generations of this code. The current one (`src/`)
has owner-scoped services, request validators, an auth layer and a uniform
response envelope. The legacy one (`routes/project.js`, `entities/Project.js`,
`services/projectService.js`) addresses the same tree through Express
handlers without an owner.

The model is a set of pure functions over immutable datatypes.

| file | module | what it models |
|---|---|---|
| `wrappers.dfy` | `Wrappers` | `Option` and `Result` |
| `constants.dfy` | `Constants` | status codes, the three enumerations, the error kinds |
| `text.dfy` | `Text` | `trim`, `includes`, the code-fence `replace`, `parseInt`, `isInt`, `split(' ')[1]` |
| `json.dfy` | `JsonValues` | untrusted JSON values with `undefined` and JavaScript truthiness |
| `project.dfy` | `ProjectModel` | the project tree of both schemas, defaults, save validation, the pre-save rule, `completionPercentage` |
| `addressing.dfy` | `Addressing` | how a route parameter becomes a tree index in each generation |
| `project_service.dfy` | `ProjectService` | the current project service, including the pagination arithmetic |
| `legacy_routes.dfy` | `LegacyRoutes` | the legacy task, subtask and comment handlers |
| `normalizer.dfy` | `Normalizer` | `normalizeProjectData` and the legacy `saveProject` reshape |
| `pdf.dfy` | `PdfPipeline` | the text check, answer guards, fence strip, required fields and error remapping of both PDF pipelines |
| `validators.dfy` | `Validators` | the request validators as error lists over field values |
| `api_response.dfy` | `ApiResponses` | the `ApiResponse` envelope |
| `user.dfy` | `Users` | the user record, its field rules, `toJSON`, token generation, credential lookup |
| `auth_middleware.dfy` | `AuthMiddleware` | `protect`, `requireEmailVerification`, `authorize`, `optionalAuth` |
| `auth_service.dfy` | `AuthService` | registration, login, e-mail verification, password-reset request, profile update |
| `arith.dfy` | `Arith` | small arithmetic lemmas used by the rounding and paging proofs |

Code outside the model enters as parameters:

- the database is a map from project id to project, or a sequence of users;
- the clock is an integer `now`;
- bcrypt is a `matches` predicate and a `hashPw` function;
- SHA-256 is a function `sha256`;
- random codes and tokens are string arguments;
- JWT verification is a function returning a `VerifyOutcome`;
- `JSON.parse` is a function returning a `Result`;
- the outcome of sending an e-mail is a boolean `mailOk`.

A store maps project ids to projects, and each save replaces a whole
document.

- **Saves.** A save is the schema validation Mongoose runs followed by the
  pre-save completion rule.
- **Indices.** Tree indices are `int`. The current service is reached only
  through the `isInt({min: 0})` validators, so its operations take the index
  that validator lets through.
- **Legacy handlers.** These take the raw route parameter and run
  `parseInt` themselves.

## Model

| member | source | states |
|---|---|---|
| Constants.ParseProjectStatus | src/utils/constants.js:17-21 | a string is read back as a project status exactly when it is one of the three values, and printing that status gives the string back |
| Constants.ParseTaskStatus | src/utils/constants.js:24-28 | the same for task status |
| Constants.ParsePriority | src/utils/constants.js:31-35 | the same for priority |
| Constants.EnumsAreExact | src/utils/constants.js:17-35 | each enumeration is exactly its value set: every member prints into the set, every string of the set is printed by exactly one member, and print-then-parse is the identity |
| Constants.IndexErrorsAreDistinct | src/utils/constants.js:51-55 | the invalid task index and invalid subtask index errors differ, by message, though both are 400 |
| ProjectModel.DefaultProjectStatus | entities/Project.js:13 | each schema's default project status is one of that schema's own status values |
| ProjectModel.ProjectStatusVocabularies | entities/Project.js:13 | the two schemas disagree on vocabulary: the legacy one cannot hold `completed` and the current one cannot hold `finished` |
| ProjectModel.SetString | src/models/Project.js:6-13 | the current schema stores name, title and comment strings trimmed; the legacy schema stores them as given |
| ProjectModel.NewComment | src/models/Project.js:4-19 | a new comment's timestamp is the one given, or the clock reading when none is given |
| ProjectModel.NewSubtask | src/models/Project.js:21-43 | an undefined description, status or priority becomes `''`, `not-started` or `medium`, and the comment log starts empty |
| ProjectModel.NewMainTask | src/models/Project.js:45-68 | a new main task has the same defaults plus empty subtask and comment lists |
| ProjectModel.NewProject | src/models/Project.js:70-103 | an undefined status becomes the schema's default and an undefined description `''`; the owner and the tasks are the given ones |
| ProjectModel.NewCommentValidIff | src/models/Project.js:4-19 | a cast comment passes validation exactly when author and content are present, where the current schema's trim makes white space alone count as missing |
| ProjectModel.NewSubtaskValidIff | src/models/Project.js:21-43 | a cast subtask passes validation exactly when its name is present and any status or priority given is in its enumeration; the defaults always pass |
| ProjectModel.NewMainTaskValidIff | src/models/Project.js:45-68 | a cast main task passes validation exactly when its name is present and any status or priority given is in its enumeration |
| ProjectModel.SubtaskFromBodyValidIff | src/models/Project.js:21-43 | a subtask cast from a whole body, its own `comments` array kept, passes validation exactly when its name is present, its enumerated fields are in range and every comment it carries is valid |
| ProjectModel.MainTaskFromBodyValidIff | src/models/Project.js:45-68 | the same for a main task cast from a whole body, whose own `comments` and `subtasks` arrays must hold only valid elements |
| ProjectModel.NewProjectValidIff | src/models/Project.js:70-98 | a new project passes validation exactly when its title is present, any status given is one of its schema's, the current schema has a creator, and every task passes |
| ProjectModel.BlankNameDiffers | entities/Project.js:23 | a subtask named by white space alone is refused by the current schema and stored by the legacy one, which has no trim |
| ProjectModel.PatchSubtask | src/services/project.service.js:262-266 | a partial update writes each field the request defines, the strings through the schema's trim setter and status, priority and comments as given, and leaves every other field unchanged |
| ProjectModel.PatchMainTask | src/services/project.service.js:171-175 | the same for a main task, with its comment and subtask lists written as given when defined |
| ProjectModel.PatchProject | src/services/project.service.js:96-100 | `Object.assign` writes every key the body defines, `mainTasks` and `createdBy` included, title and description through the trim setter, and keeps every other key |
| ProjectModel.EveryCompleted | src/models/Project.js:123-125 | `every(status === 'completed')` is true exactly when every task is completed |
| ProjectModel.CompletedCount | src/models/Project.js:113-115 | the filtered count never exceeds the number of tasks |
| ProjectModel.CompletedCountFull | src/models/Project.js:110-118 | the completed count equals the number of tasks exactly when every task is completed |
| ProjectModel.PreSave | src/models/Project.js:121-132 | a save with a non-empty, all-completed task list marks the project completed; otherwise the status is unchanged; no other field ever changes |
| ProjectModel.PreSaveMonotone | src/models/Project.js:121-132 | the rule only moves one way: a completed project stays completed, any change is to completed, and applying the rule twice equals applying it once |
| ProjectModel.PreSavePreservesValidity | src/models/Project.js:121-132 | the pre-save rule keeps a schema-valid project valid |
| ProjectModel.RoundPercent | src/models/Project.js:117 | the integer rounding lies within half a unit of 100·c/n; for a share it never exceeds 100 and is 100 exactly when the open share is at most half a percent |
| ProjectModel.CompletionPercentage | src/models/Project.js:110-118 | the virtual lies in [0,100], is 0 without tasks, and is otherwise within half a percent of the completed share |
| ProjectModel.CompletionPercentageSpec | src/models/Project.js:110-118 | the percentage is in [0,100], is 0 with no tasks, is the rounded completed share otherwise, is 100 when every task is completed, and below 200 tasks is 100 only then |
| ProjectModel.CompletionPercentageNotAll | src/models/Project.js:110-118 | with 199 of 200 tasks completed the percentage already reads 100 |
| Addressing.ServiceGuardRejects | src/services/project.service.js:167-169 | the service's guard rejects exactly the numbers outside 0..n-1, and never rejects NaN |
| Addressing.LegacyGuardRejects | routes/project.js:18-21 | the legacy guard rejects NaN and every number outside 0..n-1 |
| Addressing.NaNSlipsPastServiceGuard | src/services/project.service.js:167-169 | a non-numeric index passes the service's own guard but not the legacy one |
| Addressing.ValidatedIndex | src/validators/project.validator.js:126-134 | an index the validator admits is read by `parseInt` as a natural number equal to its integer value |
| Addressing.GuardsAgreeOnValidatedIndex | src/validators/project.validator.js:126-134 | behind the validator both guards agree and reject exactly the indices past the end |
| Addressing.TrailingJunkIsRead | routes/project.js:18-21 | the legacy routes read `1x` as index 1, which the validator would refuse |
| ProjectService.FindOwned | src/services/project.service.js:138-142 | the lookup succeeds exactly when the project exists and belongs to the caller; otherwise it is 404, so another user's project looks missing |
| ProjectService.CheckIndex | src/services/project.service.js:167-169 | an index is accepted exactly when 0 ≤ i < n, and the error is the one given |
| ProjectService.Save | src/models/Project.js:121-132 | a save succeeds exactly on a schema-valid document, and stores the pre-save image, which is valid again |
| ProjectService.SetTask | src/services/project.service.js:171-176 | replacing main task i changes that task only |
| ProjectService.SetSubtask | src/services/project.service.js:262-267 | replacing subtask j changes that subtask only |
| ProjectService.RemoveAt | src/services/project.service.js:203-207 | `splice(k, 1)` shortens by one, keeps the prefix and shifts the suffix down one place in order |
| ProjectService.RemoveAtReinsert | src/services/project.service.js:203-207 | putting the removed element back at k restores the sequence |
| ProjectService.GetProjectById | src/services/project.service.js:49-62 | the caller's project, or 404 for a missing or foreign one; the store is untouched |
| ProjectService.CreateProject | src/services/project.service.js:68-81 | the new document is owned by the caller whatever the body says, keeps the body's own `mainTasks`, is stored under the new id, and a schema failure is 400 with no change |
| ProjectService.UpdateProject | src/services/project.service.js:87-110 | an owned project is updated exactly when the body-patched project passes validation, and the stored and returned project is the pre-save of that patch: every defined body key, `mainTasks` and `createdBy` included, is written; failures leave the store unchanged |
| ProjectService.UpdateProjectCanTransferOwnership | src/services/project.service.js:96-100 | a body carrying `createdBy` hands the project to another user, after which the former owner gets 404 |
| ProjectService.DeleteProject | src/services/project.service.js:116-130 | exactly the caller's project is removed; a missing or foreign one is 404 and nothing changes |
| ProjectService.AddMainTask | src/services/project.service.js:136-153 | the task pushed is cast from the whole body, its own `comments` and `subtasks` arrays included; an owned project saves exactly when the extended project validates; the task list then grows by one at the end, earlier tasks are unchanged and the returned task is the new last one |
| ProjectService.UpdateMainTask | src/services/project.service.js:159-185 | ownership is checked before the index; task i gets the defined fields, sibling tasks are unchanged, and it is the returned task |
| ProjectService.DeleteMainTask | src/services/project.service.js:191-212 | task i is spliced out: one fewer task, earlier ones in place, later ones shifted down in order |
| ProjectService.AddSubtask | src/services/project.service.js:218-239 | the subtask pushed is cast from the whole body, its own `comments` array included; with an in-range index it saves exactly when the extended project validates; it is appended to task i only, and the reply is that task's whole subtask list |
| ProjectService.UpdateSubtask | src/services/project.service.js:245-276 | the main index is checked before the subtask index; subtask j gets the defined fields; every other subtask and task is unchanged |
| ProjectService.DeleteSubtask | src/services/project.service.js:282-308 | subtask j is spliced out of task i only, and the reply is the remaining subtasks |
| ProjectService.AddCommentToTask | src/services/project.service.js:314-335 | the comment is appended to task i's log only, and the reply is the whole log ending in the new comment |
| ProjectService.AddCommentToSubtask | src/services/project.service.js:341-367 | the same for subtask j's log, with both indices checked in order |
| ProjectService.GetTaskComments | src/services/project.service.js:373-390 | task i's log, with the same 404 and index errors, and no save |
| ProjectService.GetSubtaskComments | src/services/project.service.js:396-418 | subtask j's log, with the same errors in order, and no save |
| ProjectService.CommentRoundTrip | src/services/project.service.js:314-390 | the log a comment POST returns is the log the GET then reads: the earlier log followed by the new comment |
| ProjectService.TaskRequestsSave | src/services/project.service.js:136-212 | on a valid document, adding a task succeeds exactly when the task cast from the body is valid, and an in-range task update with valid content and any in-range task deletion succeed |
| ProjectService.TaskAppendsSave | src/services/project.service.js:218-239 | on a valid document, appending a subtask to an in-range task succeeds exactly when the subtask cast from the body is valid |
| ProjectService.TaskCommentAppendSaves | src/services/project.service.js:314-335 | on a valid document, appending a valid comment to an in-range task's log succeeds |
| ProjectService.SubtaskRequestsSave | src/services/project.service.js:245-367 | on a valid document, in-range subtask updates, deletions and comment appends with valid content succeed |
| ProjectService.TaskWritesPreserveStoreValidity | src/services/project.service.js:87-212 | every successful project or main-task write keeps a store of valid documents valid |
| ProjectService.SubtaskWritesPreserveStoreValidity | src/services/project.service.js:218-308 | every successful subtask write keeps the store valid |
| ProjectService.CommentWritesPreserveStoreValidity | src/services/project.service.js:314-367 | every successful comment write keeps the store valid |
| ProjectService.PlanPage | src/services/project.service.js:10-20 | page 1, limit 10, `createdAt` and `desc` when not given; the filter is owner plus the status when truthy; skip is (page − 1)·limit |
| ProjectService.PageCount | src/services/project.service.js:37 | `Math.ceil(total / limit)`: zero exactly when there are no results, otherwise the fewest pages of `limit` that hold every result |
| ProjectService.PageCountBounds | src/services/project.service.js:37 | the integer ceiling division gives a count whose pages of `limit` hold every result while one page fewer does not |
| ProjectService.GetPagination | src/services/project.service.js:30-40 | the reported page, limit, total and page count are those of the plan and the owner's matching documents |
| ProjectService.PagesTileResult | src/services/project.service.js:19-37 | result position x lies on page x / limit + 1, inside that page's skip window, and that page is within the page count |
| ProjectService.TotalCountsOwnProjectsOnly | src/services/project.service.js:14-24 | the total never exceeds the number of projects the caller owns |
| LegacyRoutes.MainIndex | routes/project.js:18-21 | a main index is accepted exactly when the legacy guard passes, and it is the parsed number, in range |
| LegacyRoutes.SubIndices | routes/project.js:41-48 | the main index is checked first and the subtask length is read only behind it; both must be in range |
| LegacyRoutes.Commit | routes/project.js:22-28 | a save stores the edited document and replies; a schema failure is a 500 with the store unchanged |
| LegacyRoutes.AddTaskComment | routes/project.js:10-30 | 404 before any index check, then 400 on a bad index; on 201 exactly `{author, content}` is appended to task i's log and the log is the reply |
| LegacyRoutes.AddSubtaskComment | routes/project.js:33-57 | the same for a subtask's log, with the single two-index 400 message |
| LegacyRoutes.GetTaskComments | routes/project.js:60-76 | task i's log, with the same 404 and 400, and the store never changes |
| LegacyRoutes.GetSubtaskComments | routes/project.js:79-99 | subtask j's log, with the same errors, and the store never changes |
| LegacyRoutes.RouteDefaults | routes/project.js:113-121 | the route fills a missing or empty description, status and priority with `''`, `not-started` and `medium`, and keeps given ones |
| LegacyRoutes.AddSubtask | routes/project.js:101-126 | the defaulted subtask is appended to task i only, and the reply is its whole subtask list |
| LegacyRoutes.UpdateSubtask | routes/project.js:179-205 | only `name`, `description`, `status` and `priority` are assigned when defined; every other key is ignored |
| LegacyRoutes.DeleteSubtask | routes/project.js:129-151 | subtask j is spliced out of task i and the remaining subtasks are the reply |
| LegacyRoutes.UpdateMainTask | routes/project.js:154-176 | the four whitelisted fields of task i are assigned when defined, and nothing else |
| LegacyRoutes.DeleteMainTask | routes/project.js:208-226 | task i is spliced out and the reply is a message |
| LegacyRoutes.GetProject | routes/project.js:269-280 | the project by id alone, with no owner check, or 404 |
| LegacyRoutes.LegacyUpdateMainTaskSaves | routes/project.js:154-176 | on a valid legacy document an in-range update with valid content replies 200 |
| LegacyRoutes.DeleteMainTaskAgrees | routes/project.js:208-226 | behind the validator, the legacy delete and the service delete leave the same task list |
| LegacyRoutes.IndexRejectionAgrees | routes/project.js:60-76 | for a validated index past the end, both generations reject the comment read |
| LegacyRoutes.EmptyStatusParts | routes/project.js:113-121 | an empty status is replaced by the legacy route, while the current schema refuses it |
| LegacyRoutes.RouteDefaultsMatchSchema | entities/Project.js:21-28 | without empty strings, the route's defaults give the same subtask as the legacy schema's defaults |
| Normalizer.MapAllFixed | src/services/pdf.service.js:146 | a map whose elements are all fixed points returns its input |
| Normalizer.NormSubtask | src/services/pdf.service.js:153-166 | a string becomes a full record with that name; any other value keeps exactly the four fields, defaulted with `\|\|`; null or undefined throws |
| Normalizer.NormSubtasks | src/services/pdf.service.js:152-167 | a non-array `subtasks` becomes `[]`; an array keeps its length and order |
| Normalizer.NormTask | src/services/pdf.service.js:146-170 | a task keeps its name, has its other fields defaulted, and emits `comments` only in the current variant |
| Normalizer.Normalize | src/services/pdf.service.js:143-174 | a structure whose `mainTasks` is not an array is returned unchanged |
| Normalizer.NormalizeRewritesOnlyTasks | src/services/pdf.service.js:143-174 | only `mainTasks` is rewritten: every other key passes through, and the tasks keep their number and order |
| Normalizer.NullTaskThrows | src/services/pdf.service.js:147 | a null or undefined task makes the whole rewrite throw |
| Normalizer.NormalizeIdempotent | src/services/pdf.service.js:143-174 | normalising a normalised structure changes nothing |
| Normalizer.LegacyTaskDropsOnlyComments | services/projectService.js:92-114 | the legacy task is the current one without its `comments` key, and fails on the same inputs |
| Normalizer.LegacyNormalizeDropsOnlyComments | services/projectService.js:88-123 | the two normalisers fail alike and lay out the same tasks up to `comments` |
| Normalizer.BareStringSubtaskExpands | services/projectService.js:98-105 | a bare-string subtask expands to its name and the three defaults, and an empty description is defaulted like a missing one |
| Normalizer.SubtaskCommentsDropped | src/services/pdf.service.js:161-166 | comments carried by an object subtask are dropped |
| PdfPipeline.ProcessPdf | src/services/pdf.service.js:18-53 | the text is returned exactly when it holds a non-space character; otherwise a 400 with the no-text message for a parsed file, the not-a-PDF message for a named parser error and the parsing-failed message for any other |
| PdfPipeline.CurrentCandidateText | src/services/pdf.service.js:101-107 | the guard succeeds exactly when `candidates[0].content.parts[0].text` is truthy and then yields that text; a falsy text is the invalid-response failure and a nullish `data` a TypeError |
| PdfPipeline.LegacyCandidateText | services/projectService.js:54-57 | the legacy guard succeeds exactly when the same text is truthy and yields it; a nullish `data` or `candidates` is a TypeError |
| PdfPipeline.CandidateGuardsAgree | services/projectService.js:54-57 | any answer that passes one guard passes the other and yields the same text |
| PdfPipeline.MissingCandidatesDiffer | services/projectService.js:54-57 | an answer without `candidates` is an invalid response to one guard and a TypeError to the other |
| PdfPipeline.CleanReplyUnwrapsBlock | src/services/pdf.service.js:111 | an answer wrapped in a json code fence reaches the parser as its trimmed body |
| PdfPipeline.CleanReply | src/services/pdf.service.js:111 | the cleaned text holds no triple backtick and starts and ends with no white space |
| PdfPipeline.CleanReplyIdempotent | src/services/pdf.service.js:111 | cleaning a cleaned text changes nothing |
| PdfPipeline.StructureFrom | src/services/pdf.service.js:111-120 | a structure is accepted exactly when the cleaned text parses and has a truthy `title` and `mainTasks` |
| PdfPipeline.Extract | src/services/pdf.service.js:58-139 | extraction succeeds exactly when the call was answered, the candidate text is truthy and the cleaned text parses to a value with a truthy title and `mainTasks`, and then returns that value; a failed call and a falsy text are reported as such |
| PdfPipeline.ExtractionsAgree | services/projectService.js:7-85 | both generations accept the same answers and return the same structure |
| PdfPipeline.CurrentError | src/services/pdf.service.js:124-138 | every extraction failure is a 500; the invalid-response message is used exactly for a missing answer text and the missing-fields message exactly for missing fields |
| PdfPipeline.ExtractProjectStructure | src/services/pdf.service.js:58-139 | a structure is returned exactly when the answer text is a non-empty string whose cleaned form parses to a value with the required fields, and it is that value; a failed call or parse is the AI-service error, a falsy text the invalid-response error, missing fields their own message; every error is a 500 |
| PdfPipeline.ProcessAndExtract | src/services/pdf.service.js:179-195 | text check, then extraction, then normalisation: the result is the normalised structure when all three succeed, and otherwise the error of the first step that fails, a normaliser TypeError included |
| PdfPipeline.PipelineOutputIsNormal | src/services/pdf.service.js:179-195 | the pipeline's output keeps a truthy title and `mainTasks`, and normalising it again changes nothing |
| PdfPipeline.LegacyRemap | services/projectService.js:73-83 | a message naming a PDF problem becomes the not-a-valid-PDF error; everything else is rethrown as it was |
| PdfPipeline.LegacyProcessPdf | services/projectService.js:7-85 | the legacy pipeline returns the structure exactly when the text check and the extraction pass, and text and parser failures go through the remap |
| PdfPipeline.GenerationsAcceptAlike | services/projectService.js:7-85 | both generations accept the same uploads and extract the same structure |
| PdfPipeline.LegacySaveShape | services/projectService.js:88-123 | the legacy reshape keeps the required fields and is a fixed point of the legacy normaliser |
| Validators.RequiredText | src/validators/project.validator.js:6-11 | no error exactly when the value is present, non-empty after trim and within the length bounds |
| Validators.OptionalText | src/validators/project.validator.js:35-39 | no error exactly when the value is absent or its trimmed length is within bounds |
| Validators.OptionalIn | src/validators/project.validator.js:19-22 | no error exactly when the value is absent or in the enumeration |
| Validators.IntAtLeast | src/validators/project.validator.js:126-134 | no error exactly when the parameter is an integer string of at least the minimum |
| Validators.Trimmed | src/validators/project.validator.js:6-11 | sanitising trims a present value and keeps an absent one absent |
| Validators.CreateProjectErrors | src/validators/project.validator.js:5-28 | a create body passes exactly when the title is 3..200 after trim, the description at most 2000 and the status in the enumeration |
| Validators.UpdateProjectErrors | src/validators/project.validator.js:30-56 | an update body passes under the same rules with every field optional |
| Validators.ValidatedProjectCreates | src/validators/project.validator.js:5-28 | the fields of a body the validator accepts always pass the schema, so the service creates the project exactly when every task in the body's own `mainTasks` array, which the validator does not check, is valid |
| Validators.SanitizedProjectCastsAlike | src/validators/project.validator.js:5-28 | the schema's trim makes the sanitised and the raw body cast to the same document |
| Validators.SanitizeProject | src/validators/project.validator.js:5-56 | the sanitised title and description have nothing left to trim, the other fields are kept, and both project validators pass the sanitised body exactly when they pass the raw one |
| Validators.CreateTaskErrors | src/validators/project.validator.js:65-92 | a task body passes exactly when the name is 3..200, the description at most 1000, and status and priority are in their enumerations |
| Validators.TaskIndexErrors | src/validators/project.validator.js:126-134 | the task index passes exactly when it is an integer ≥ 0 |
| Validators.UpdateTaskErrors | src/validators/project.validator.js:94-124 | an update passes exactly when the index is an integer ≥ 0 and every given field meets the create rules |
| Validators.SanitizedTaskCastsAlike | src/validators/project.validator.js:65-92 | sanitised and raw task bodies cast to the same main task and subtask |
| Validators.SanitizeTask | src/validators/project.validator.js:65-204 | the same for task bodies: nothing left to trim, status and priority kept, and the task-create, task-update and subtask-create validators give the same verdict |
| Validators.ValidatedTaskAdds | src/validators/project.validator.js:65-92 | the fields of a validated task body make a valid task, and the service appends the body exactly when every element of its own `comments` and `subtasks` arrays, which the validator does not check, is valid |
| Validators.ValidatedTaskWithBlankSubtaskFails | src/validators/project.validator.js:65-92 | `{name: "Plan", subtasks: [{}]}` passes the create validator, and adding it fails with 400 "Failed to add task" |
| Validators.ValidatedTaskPatchKeepsValid | src/validators/project.validator.js:94-124 | a validated update keeps a valid task valid |
| Validators.CreateSubtaskErrors | src/validators/project.validator.js:137-168 | a subtask body passes exactly when the index is an integer ≥ 0, the name is 3..200, the description at most 500, and the enumerations hold |
| Validators.SubtaskIndexErrors | src/validators/project.validator.js:206-218 | both indices pass exactly when both are integers ≥ 0 |
| Validators.UpdateSubtaskErrors | src/validators/project.validator.js:170-204 | a subtask update passes exactly when both indices are valid and every given field meets the create rules |
| Validators.ValidatedSubtaskIsValid | src/validators/project.validator.js:137-168 | the fields of a validated subtask body cast to a valid subtask, and the whole body is valid exactly when every comment in its own `comments` array is |
| Validators.ValidatedSubtaskPatchKeepsValid | src/validators/project.validator.js:170-204 | a validated update keeps a valid subtask valid |
| Validators.CreateCommentErrors | src/validators/project.validator.js:221-235 | a comment passes exactly when the author is 2..100 and the content 1..1000 after trim |
| Validators.ValidatedCommentIsValid | src/validators/project.validator.js:221-235 | a validated comment casts to a valid comment |
| Validators.RequiredTextTooShort | src/validators/project.validator.js:222-227 | a present, non-blank value shorter than the minimum draws the length message and not the "required" one |
| Validators.RequiredTextAccepts | src/validators/project.validator.js:229-234 | a present value whose trimmed length is within the bounds draws no message |
| Validators.OneLetterAuthorRefused | src/validators/project.validator.js:221-235 | any author that trims to one character (with acceptable content) draws the author length message and nothing else |
| Validators.OneLetterAuthorStorable | src/models/Project.js:4-15 | the same comment passes the schema, which asks only for a non-empty trimmed author and content |
| Validators.PaginationErrors | src/validators/project.validator.js:238-248 | the query passes exactly when the page is an integer ≥ 1 and the limit an integer in 1..100 |
| Validators.PaginationBlamesTheRightField | src/validators/project.validator.js:238-248 | an error is reported on `page` exactly when the page is bad, and on `limit` exactly when the limit is bad |
| ApiResponses.MakeEnvelope | src/utils/ApiResponse.js:7-14 | `success` holds exactly for a 2xx status, and `data` is present exactly when the argument is neither null nor undefined |
| ApiResponses.ToJson | src/utils/ApiResponse.js:7-14 | the wire object has `success`, `statusCode` and `message`, and `data` only when present |
| ApiResponses.Success | src/utils/ApiResponse.js:16-18 | the status defaults to 200 |
| ApiResponses.Created | src/utils/ApiResponse.js:20-24 | the status is always 201 and the reply reports success |
| ApiResponses.Error | src/utils/ApiResponse.js:26-28 | never any data; the status defaults to 500 |
| ApiResponses.SuccessFlagFollowsStatus | src/utils/ApiResponse.js:7-28 | for every helper the flag follows the status class, so an error sent with 200 claims success |
| ApiResponses.ErrorKindsFail | src/utils/ApiResponse.js:26-28 | every error status the core uses reports failure |
| ApiResponses.ErrorReply | src/utils/ApiResponse.js:26-28 | an `ApiError` is sent with its own status and message and no data |
| ApiResponses.EnvelopeRoundTrip | src/utils/ApiResponse.js:7-14 | a client reading the sent JSON back gets exactly the envelope, `data` included, and an absent `data` stays absent |
| Users.MatchEmail | src/models/User.js:13-21 | the loop decides `^\S+@\S+\.\S+$`: a non-empty run before `@`, and a dot with text on both sides after it |
| Users.NormalizeEmailIdempotent | src/models/User.js:13-21 | lower-casing and trimming a stored email changes nothing |
| Users.NormalizedEmailIsNormal | src/models/User.js:13-21 | the normalised email is already lower case and trimmed, and no longer than the input |
| Users.PasswordRule | src/models/User.js:23-30 | a password of six or more characters passes, a shorter one never does, and leaving it out passes only for an account linked to Google |
| Users.ProfileOkFrame | src/models/User.js:6-35 | the name, email and role rules read nothing else, so saves that change tokens, flags or the password cannot newly fail them |
| Users.CreateUser | src/models/User.js:6-56 | a user is created exactly when the trimmed name is 2..100, the normalised email matches, and a password of at least 6 is given; the defaults are role `user`, unverified and active, and the password is stored hashed |
| Users.ToJson | src/models/User.js:59-69 | the view has exactly the non-secret paths with their values: the password and the four token fields are removed and nothing else |
| Users.ToJsonIgnoresSecrets | src/models/User.js:59-69 | users that differ only in their secrets have the same view |
| Users.ComparePassword | src/models/User.js:94-97 | false when no password is stored; otherwise the hash comparison's verdict |
| Users.GenerateEmailVerificationToken | src/models/User.js:100-111 | the stored hash is that of the returned token, the expiry is now + 10 minutes, and nothing else changes |
| Users.GeneratePasswordResetToken | src/models/User.js:114-125 | the same with an expiry of now + 30 minutes |
| Users.FindByEmail | src/models/User.js:128-134 | the first user whose email equals the normalised query, or none when no user has it |
| Users.FindById | src/middlewares/auth.js:32 | a user with that id, or none when there is none |
| Users.FindByCredentials | src/models/User.js:128-149 | null for an unknown email or a wrong password, the user otherwise |
| AuthMiddleware.ExtractToken | src/middlewares/auth.js:15-17 | a token is read only from a header that starts with `Bearer`, and it is the header's second space-separated segment; whenever that segment exists and is non-empty it is read |
| AuthMiddleware.BearerRoundTrip | src/middlewares/auth.js:15-17 | a `Bearer <token>` header gives its token back |
| AuthMiddleware.LooseSchemeAccepted | src/middlewares/auth.js:15 | the prefix test is looser than the scheme of section 2.1 of RFC 6750: `Bearerx abc` is read |
| AuthMiddleware.Protect | src/middlewares/auth.js:11-61 | no token is 401 before any verification; a bad or expired token is 401; a missing user is 401 and an inactive one 403; other errors are rethrown; it passes exactly for an existing active user, which it attaches loaded without its password hash (`select('-password')`) |
| AuthMiddleware.RequireEmailVerification | src/middlewares/auth.js:66-74 | passes exactly when the email is verified, otherwise 403 |
| AuthMiddleware.Authorize | src/middlewares/auth.js:79-89 | passes exactly when the role is allowed, otherwise 403 naming the role |
| AuthMiddleware.GuardChain | src/middlewares/auth.js:11-89 | the three guards in a row pass exactly when the token names an existing user that is active, verified and in a permitted role |
| AuthMiddleware.TokenUser | src/middlewares/auth.js:27-51 | a verified token names a user exactly when one with that id exists; `protect` lets the request through exactly when that user is active, and attaches that user without its password hash |
| AuthMiddleware.OptionalAuth | src/middlewares/auth.js:94-114 | never rejects, and attaches exactly the user `protect` would let through |
| AuthService.Register | src/services/auth.service.js:13-60 | an email in use is 400 with no change; otherwise the user is appended exactly when its fields pass, with the code's hash and an expiry 10 minutes ahead |
| AuthService.RegisterKeepsEmailsUnique | src/services/auth.service.js:17-20 | registration keeps every email unique |
| AuthService.Login | src/services/auth.service.js:65-107 | bad credentials are 401 before an inactive account is 403; success records the login time and changes nothing else |
| AuthService.WrongPasswordLooksLikeUnknownEmail | src/services/auth.service.js:71-76 | a wrong password gets the same reply as an unknown email |
| AuthService.VerifyEmail | src/services/auth.service.js:112-167 | 404, already verified, no code, expired (expiry strictly before now), wrong code, in that order; success sets verified and clears the code and expiry only |
| AuthService.ResendVerificationEmail | src/services/auth.service.js:172-201 | 404, then already verified; otherwise a new code hash with expiry now + 10 minutes is stored, even when the mail then fails |
| AuthService.RegisterThenVerify | src/services/auth.service.js:13-167 | the code sent at registration verifies the new account until its expiry, the expiry instant included |
| AuthService.ResendThenVerify | src/services/auth.service.js:112-201 | a resent code verifies the account within its window, even when the resend reported a mail failure |
| AuthService.ResendThenVerifyTooLate | src/services/auth.service.js:112-201 | one millisecond after its window a resent code is refused as expired and nothing changes |
| AuthService.VerifiedIsFinal | src/services/auth.service.js:112-201 | once verified, every further verification and every resend is refused as already verified, with no change |
| AuthService.ForgotPasswordAsWritten | src/services/auth.service.js:206-247 | the reply is the same for known and unknown emails; for a known email only that user changes: the stored hash is sha256 of the token, or unset after a mail failure, and the 30-minute expiry is stored either way; the link carries `undefined`; a mail failure is a 500 |
| AuthService.ForgotLinkHasNoToken | src/services/auth.service.js:218-224 | the reset link sent never carries the token whose hash was stored |
| AuthService.ForgotFailureKeepsExpiry | src/services/auth.service.js:231-240 | after a mail failure the reset expiry is still stored |
| AuthService.ForgotPassword | src/services/auth.service.js:206-247 | the corrected request: only the known user changes; the link carries the token whose hash is stored with a 30-minute expiry, and a mail failure unsets both reset fields |
| AuthService.ForgotLinkRedeemsStoredHash | src/services/auth.service.js:218-224 | the link's token hashes to the stored reset hash, which expires 30 minutes later |
| AuthService.ForgotFailureClearsResetState | src/services/auth.service.js:231-240 | after a mail failure both reset fields are unset, so a reset pending from an earlier request is dropped too, and nothing else changes |
| AuthService.ForgotReplyRevealsNothing | src/services/auth.service.js:209-215 | the reply does not tell whether the email is registered |
| AuthService.UpdateProfileAsWritten | src/services/auth.service.js:366-389 | 404 for an unknown user; a truthy name is stored trimmed when its length is valid and the save fails otherwise; nothing else is stored; the reply echoes a truthy picture |
| AuthService.ProfilePictureNotStored | src/services/auth.service.js:377 | a picture-only update replies with the picture but stores the user unchanged |
| AuthService.UpdateProfile | src/services/auth.service.js:366-389 | the corrected update stores a truthy picture as the avatar and replies with the stored avatar |
| AuthService.ProfilePictureStored | src/services/auth.service.js:376-388 | the reply's picture is the stored avatar, which is the given picture when truthy and the old avatar otherwise |
| Text.Trim | src/services/pdf.service.js:111 | `trim` returns a slice of the input that neither starts nor ends with white space, and only white space was dropped |
| Text.TrimEmptyIff | src/services/pdf.service.js:25 | a text trims to empty exactly when it is all white space |
| Text.StripFencesIdempotent | src/services/pdf.service.js:111 | removing fences twice is the same as once |
| Text.StripFences | src/services/pdf.service.js:111 | the fence removal never lengthens the text and leaves a text without backticks as it is |
| Text.StripFencesUnwrapsBlock | src/services/pdf.service.js:111 | a fence-free body survives being wrapped in a json fence and stripped |
| Text.ParseInt | routes/project.js:18 | `parseInt` gives a number exactly when a digit follows the leading white space and optional sign, NaN otherwise |
| Text.ParseIntAgreesWithIsInt | src/validators/project.validator.js:99-101 | a string `isInt` admits is read by `parseInt` as the same integer |
| Text.ParseIntShowNat | routes/project.js:18 | `parseInt` reads back the decimal form of every natural number |
| Text.SecondSegment | src/middlewares/auth.js:16 | `split(' ')[1]` is undefined exactly when there is no space, and otherwise is the space-free run that follows the first space up to the next space or the end |
| Text.ToLower | src/models/User.js:17 | lower-casing keeps the length, leaves no ASCII capital behind and changes no other character |

## Left out

- Mongoose persistence is not modelled: `find`, `countDocuments`, and the execution of sort, skip and limit. Storage is a map with whole-document replacement, and pagination is modelled only as the plan and its arithmetic.
- Sorting by an arbitrary `sortBy` key is left out, because the order is the database's.
- Concurrency is not modelled: there is no synchronisation in the code, so each operation is a single pure transition.
- Parsing the PDF, the AI HTTP call, `JSON.parse` and file cleanup are not modelled; they enter as a parse result, an answer value and a parse function.
- JWT signing and verification, bcrypt, SHA-256, `Math.random` and the clock are not modelled; they are function or value parameters.
- Sending email, email templates and logging are I/O. Only whether a mail was sent enters the model, as a boolean.
- `resetPassword`, `changePassword`, `refreshToken` and `getProfile` are outside the modelled core. `resetPassword` queries `passwordResetExpiry` where the schema field is `passwordResetExpires`, and what that query matches depends on Mongoose query semantics not visible here.
- Controllers, route wiring, `validate.js`, the error handler, server bootstrap and config are glue and are left out. The validators are stated as predicates that the service's inputs satisfy.
- ApiError.js is not part of this model. Its errors are assumed to be rethrown by `protect` as they are, and never to carry a JWT error name.
- `models/Project.js` (the unused schema), the legacy upload route's error mapping (routes/project.js:228-255) and the legacy project list, update and delete handlers are left out, because they are wiring around modelled operations.
- Mongoose casting of the normalised JSON into a document is not modelled. The pipeline ends at the normalised JSON value.
- Request values other than strings are not modelled, except the array-valued keys a body may carry: `mainTasks` on a project, `subtasks` and `comments` on a task, `comments` on a subtask. Their elements are taken as already-cast documents, so an element that fails Mongoose's cast (a string where an object is expected) is not modelled. A JSON `null` in a body is not modelled either. Absent fields are `None`, and a missing required string is `""`.
- `dueDate` ISO 8601 validation and `isMongoId` are not modelled: ids are opaque values.
- LegacyRoutes: an id that does not cast to an ObjectId (`GET /projects/abc`) makes `findById` throw a CastError, which each legacy handler's `catch` answers with 500 "Internal server error" (routes/project.js:26-28, 53-55, 72-74, 95-97, 122-124, 147-149, 172-174, 201-203, 222-224, 276-278). Ids are opaque in the model, so every id absent from the store is answered 404 "Project not found"; the 500 for a malformed id is not modelled.
- Timestamps (`createdAt`, `updatedAt`) are not modelled beyond comments' own timestamp.
- Unique-index races on user email are left out. Uniqueness is stated as an invariant of registration.
- Saves of a user after registration are assumed to pass schema validation, except the profile name check that `updateProfile` can violate.
- ProjectModel.CompletionPercentageSpec: computes `Math.round((c/n)*100)` exactly over the integers as ⌊(200c + n) / 2n⌋, leaving out binary floating-point rounding; "100 exactly when all tasks are completed" is stated only below 200 tasks, since 199 of 200 already rounds to 100.
- JSON numbers are integers in the model. Fractions, `NaN` and the infinities are left out: no modelled rule compares numbers beyond truthiness, and the integer 0 is the only falsy number kept.
- Users.ProfileOk: string lengths are counted in code points (Dafny `char`s), while Mongoose's `minlength`/`maxlength` count UTF-16 code units (src/models/User.js:10-11 for the name, 27 for the password) and validator.js `isLength` counts code points without U+FE0E and U+FE0F. So a name made of one emoji passes Mongoose's minimum of 2 but fails here. The same holds for PasswordOk and the validators' length rules.
- ProjectModel.CompletionPercentage: the same exact integer rounding as CompletionPercentageSpec, through ProjectModel.RoundPercent; floating-point rounding of `c/n*100` before `Math.round` is left out.
- Text.ToLower: lower-cases ASCII letters only, not the full Unicode case mapping of `toLowerCase`.
- Users.FindByEmail: assumes the schema's lower-case and trim setters are applied to the query value, as Mongoose does for queries on a path with setters.

## Findings

| source | as written | input that shows it | evidently intended | confidence | as-written member | corrected member |
|---|---|---|---|---|---|---|
| src/services/auth.service.js:218 | `const { resetToken } = user.generatePasswordResetToken()` destructures a property of the returned string, so the reset URL carries `undefined` | any registered email | the URL carries the plain token whose hash was stored | high, not executed | AuthService.ForgotLinkHasNoToken | AuthService.ForgotLinkRedeemsStoredHash |
| src/services/auth.service.js:233 | the mail-failure path clears `passwordResetExpiry`, which is not a schema path, so `passwordResetExpires` stays stored | a registered email and a failing mailer | both reset fields are cleared | high, not executed | AuthService.ForgotFailureKeepsExpiry | AuthService.ForgotFailureClearsResetState |
| src/services/auth.service.js:377 | `updateProfile` assigns `profilePicture`, which is not a schema path (the field is `avatar`), so the reply echoes a picture that is never stored | a profile update with only a picture | the picture is stored as the avatar | medium, not executed | AuthService.ProfilePictureNotStored | AuthService.ProfilePictureStored |

=== FILE: addressing.dfy ===
/** How a positional index reaches the task tree: the raw route parameter, the
    `isInt({min: 0})` validator in front of the current service, the
    `parseInt` both variants apply, and the two bounds guards. */
module Addressing {
  import opened Text

  /** The guard `i < 0 || i >= n` over an integer index. */
  predicate OutOfRange(i: int, n: int) {
    i < 0 || i >= n
  }

  /** The current service's guard evaluated on what `parseInt` returns: every
      comparison with NaN is false, so NaN is never rejected. */
  function ServiceGuardRejects(x: ParsedInt, n: int): (r: bool)
    ensures x.Num? ==> (r <==> OutOfRange(x.n, n))
    ensures x.NaN? ==> !r
  {
    match x
    case NaN => false
    case Num(i) => OutOfRange(i, n)
  }

  /** The legacy routes' guard `isNaN(i) || i < 0 || i >= n`. */
  function LegacyGuardRejects(x: ParsedInt, n: int): (r: bool)
    ensures r <==> x.NaN? || OutOfRange(x.n, n)
  {
    match x
    case NaN => true
    case Num(i) => OutOfRange(i, n)
  }

  /** A non-numeric index slips past the service's own guard but not past the
      legacy one; only the validator keeps it away from the service. */
  lemma NaNSlipsPastServiceGuard(n: int)
    ensures !ServiceGuardRejects(ParseInt("x"), n)
    ensures LegacyGuardRejects(ParseInt("x"), n)
    ensures !IsIntMin("x", 0)
  {
    var x := "x";
    assert x[0] == 'x' && !IsSpace(x[0]) && !IsDigit(x[0]);
    assert TrimStart(x) == x;
    assert DropSign(x) == x;
    assert DigitPrefixLength(x) == 0;
  }

  /** The index the current service receives: `parseInt` of a parameter the
      validator admitted, which is a natural number. */
  function ValidatedIndex(raw: string): (i: nat)
    requires IsIntMin(raw, 0)
    ensures ParseInt(raw) == Num(i)
  {
    ParseIntAgreesWithIsInt(raw);
    IntValue(raw)
  }

  /** Behind the validator the two guards agree, and both reject exactly the
      indices past the end of the collection. */
  lemma GuardsAgreeOnValidatedIndex(raw: string, n: int)
    requires IsIntMin(raw, 0)
    ensures ServiceGuardRejects(ParseInt(raw), n) == LegacyGuardRejects(ParseInt(raw), n)
    ensures LegacyGuardRejects(ParseInt(raw), n) <==> ValidatedIndex(raw) >= n
  {
  }

  /** `parseInt` stops at the first non-digit: the legacy routes read "1x" as
      index 1, while the validator rejects that parameter. */
  lemma TrailingJunkIsRead()
    ensures ParseInt("1x") == Num(1)
    ensures !IsIntMin("1x", 0)
  {
    var s := "1x";
    assert s[0] == '1' && s[1] == 'x' && !IsSpace(s[0]) && !IsDigit(s[1]);
    assert TrimStart(s) == s;
    assert DropSign(s) == s;
    assert DigitPrefixLength("1x") == 1 by {
      assert DigitPrefixLength("x") == 0;
      assert "1x"[1..] == "x";
    }
    assert "1x"[..1] == "1";
    assert DigitsValue("1") == 1;
  }
}

=== FILE: api_response.dfy ===
/** The response envelope every current handler sends: `success`,
    `statusCode`, `message`, and `data` only when there is some. */
module ApiResponses {
  import opened Wrappers
  import opened Constants
  import opened JsonValues

  datatype Envelope = Envelope(success: bool, statusCode: int, message: string, data: Option<Json>)

  /** What goes on the wire: the HTTP status and the envelope. */
  datatype Reply = Reply(status: int, body: Envelope)

  /** The 2xx class, "Successful", of section 15.3 of RFC 9110. */
  predicate Successful(code: int) {
    200 <= code < 300
  }

  /** The constructor. The `data` argument defaults to `null` when it is
      `undefined`, and the key is left out exactly when it is `null`. */
  function MakeEnvelope(statusCode: int, message: string, data: Json): (e: Envelope)
    ensures e.success <==> Successful(statusCode)
    ensures e.statusCode == statusCode && e.message == message
    ensures e.data.Some? <==> !Nullish(data)
    ensures e.data.Some? ==> e.data.value == data
  {
    Envelope(200 <= statusCode && statusCode < 300, statusCode, message,
             if data == JNull || data == JUndefined then None else Some(data))
  }

  /** The envelope as the JSON object the client receives. */
  function ToJson(e: Envelope): (j: Json)
    ensures j.JObj?
    ensures j.fields.Keys == {"success", "statusCode", "message"} + (if e.data.Some? then {"data"} else {})
    ensures j.fields["success"] == JBool(e.success) && j.fields["message"] == JStr(e.message)
  {
    var base := map["success" := JBool(e.success), "statusCode" := JNum(e.statusCode), "message" := JStr(e.message)];
    JObj(if e.data.Some? then base["data" := e.data.value] else base)
  }

  /** How a client reads an envelope back from the JSON it receives: the
      three fixed keys with their types, and `data` when the key is there. */
  function ReadEnvelope(j: Json): Option<Envelope> {
    if !j.JObj? then None
    else
      var f := j.fields;
      if && "success" in f && f["success"].JBool?
         && "statusCode" in f && f["statusCode"].JNum?
         && "message" in f && f["message"].JStr?
      then Some(Envelope(f["success"].b, f["statusCode"].n, f["message"].s,
                         if "data" in f then Some(f["data"]) else None))
      else None
  }

  /** The client reads back exactly the envelope that was sent, `data`
      included, and an absent `data` stays absent. */
  lemma EnvelopeRoundTrip(e: Envelope)
    ensures ReadEnvelope(ToJson(e)) == Some(e)
  {
  }

  /** `ApiResponse.success`: the status defaults to 200 when not given. */
  function Success(message: string, data: Json, statusCode: Option<int>): (r: Reply)
    ensures statusCode.None? ==> r.status == OK && r.body.success
    ensures statusCode.Some? ==> r.status == statusCode.value
    ensures r.body.statusCode == r.status && r.body.message == message
    ensures r.body.data.Some? <==> !Nullish(data)
  {
    var code := statusCode.GetOr(OK);
    Reply(code, MakeEnvelope(code, message, data))
  }

  /** `ApiResponse.created`: always 201. */
  function Created(message: string, data: Json): (r: Reply)
    ensures r.status == CREATED && r.body.statusCode == CREATED && r.body.success
    ensures r.body.data.Some? <==> !Nullish(data)
  {
    Reply(CREATED, MakeEnvelope(CREATED, message, data))
  }

  /** `ApiResponse.error`: never any data; the status defaults to 500. */
  function Error(message: string, statusCode: Option<int>): (r: Reply)
    ensures r.body.data.None?
    ensures statusCode.None? ==> r.status == INTERNAL_SERVER_ERROR && !r.body.success
    ensures statusCode.Some? ==> r.status == statusCode.value
    ensures r.body.statusCode == r.status && r.body.message == message
  {
    var code := statusCode.GetOr(INTERNAL_SERVER_ERROR);
    Reply(code, MakeEnvelope(code, message, JNull))
  }

  /** Whatever the helper, `success` tells the status class: the body agrees
      with the HTTP status line. The error helper's envelope carries the
      flag of its code, so an error sent with a 2xx code claims success. */
  lemma SuccessFlagFollowsStatus(message: string, data: Json, code: Option<int>)
    ensures Success(message, data, code).body.success <==> Successful(Success(message, data, code).status)
    ensures Error(message, code).body.success <==> Successful(Error(message, code).status)
    ensures Created(message, data).body.success
    ensures Error(message, Some(OK)).body.success
  {
  }

  /** The error statuses the core sends. */
  const ERROR_CODES: set<int> := {BAD_REQUEST, UNAUTHORIZED, FORBIDDEN, NOT_FOUND, CONFLICT, INTERNAL_SERVER_ERROR}

  /** Every error status the core sends reports failure. */
  lemma ErrorKindsFail(message: string)
    ensures forall code :: code in ERROR_CODES ==> !Error(message, Some(code)).body.success
  {
  }

  /** An `ApiError` as the error helper sends it. */
  function ErrorReply(e: ApiError): (r: Reply)
    ensures r.status == e.statusCode && r.body.message == e.message && r.body.data.None?
  {
    Error(e.message, Some(e.statusCode))
  }
}

=== FILE: arith.dfy ===
/** Integer facts behind the rounding and page-count formulas. */
module Arith {

  lemma MulNonNegative(x: int, y: int)
    requires x >= 0 && y >= 0
    ensures x * y >= 0
  {
  }

  lemma MulCancelLess(x: int, y: int, b: int)
    requires b > 0
    ensures x * b < y * b ==> x < y
  {
  }

  /** a < k·b bounds the quotient a / b below k. */
  lemma DivBelow(a: int, b: int, k: int)
    requires b > 0 && 0 <= a < k * b
    ensures a / b < k
  {
    MulCancelLess(a / b, k, b);
  }

  /** k·b <= a bounds the quotient a / b from below by k. */
  lemma DivAtLeast(a: int, b: int, k: int)
    requires b > 0 && k * b <= a
    ensures k <= a / b
  {
    assert a == (a / b) * b + a % b;
    MulCancelLess(k - 1, a / b, b);
    assert (k - 1) * b == k * b - b;
  }
}

=== FILE: auth_middleware.dfy ===
/** The request guards: reading a bearer token, `protect`, the e-mail
    verification and role checks, and `optionalAuth`. Verifying the JWT is a
    parameter: what it gives back is a `VerifyOutcome`. */
module AuthMiddleware {
  import opened Wrappers
  import opened Constants
  import opened Text
  import opened Users

  const MSG_NO_TOKEN: string := "Not authorized to access this route. Please login."
  const MSG_USER_GONE: string := "User not found. Please login again."
  const MSG_DEACTIVATED: string := "Your account has been deactivated. Please contact support."
  const MSG_INVALID_TOKEN: string := "Invalid token. Please login again."
  const MSG_TOKEN_EXPIRED: string := "Token expired. Please login again."
  const MSG_VERIFY_EMAIL: string := "Please verify your email to access this resource."

  const BEARER: string := "Bearer"

  /** What verifying the token gives: the payload's user id, or the error
      the JWT library throws, told apart by its `name`. */
  datatype VerifyOutcome =
    | Verified(id: UserId)
    | JsonWebTokenError
    | TokenExpiredError
    | OtherError(name: string)

  /** How a guard ends: the request goes on (with the user it attached, if
      any), an `ApiError` is thrown, or a foreign error is rethrown as is. */
  datatype Guard =
    | Next(user: Option<User>)
    | Rejected(error: ApiError)
    | Rethrown(name: string)

  /** The token of an `Authorization` header: the header must start with
      `Bearer`, and the token is what `split(' ')[1]` yields. An empty
      segment is falsy, so it counts as no token. */
  function ExtractToken(header: Option<string>): (r: Option<string>)
    ensures r.Some? ==> header.Some? && StartsWith(header.value, BEARER)
    ensures r.Some? ==> r.value != "" && forall k :: 0 <= k < |r.value| ==> r.value[k] != ' '
    ensures header.Some? && StartsWith(header.value, BEARER) && r.None? ==>
      SecondSegment(header.value) == None || SecondSegment(header.value) == Some("")
    ensures r.Some? ==> SecondSegment(header.value) == Some(r.value)
    ensures (&& header.Some? && StartsWith(header.value, BEARER)
             && SecondSegment(header.value).Some? && SecondSegment(header.value).value != "") ==>
      r == SecondSegment(header.value)
  {
    if header.None? || header.value == "" || !StartsWith(header.value, BEARER) then None
    else match SecondSegment(header.value)
      case None => None
      case Some(t) => if t == "" then None else Some(t)
  }

  /** The header a client builds, `Bearer <token>`, gives its token back. */
  lemma {:induction false} BearerRoundTrip(token: string)
    requires token != "" && forall k :: 0 <= k < |token| ==> token[k] != ' '
    ensures ExtractToken(Some(BEARER + " " + token)) == Some(token)
  {
    var h := BEARER + " " + token;
    assert h[..|BEARER|] == BEARER;
    SecondOfJoin(BEARER, token);
  }

  /** Splitting `a + " " + t` on spaces gives `t` second when neither part
      holds a space. */
  lemma SecondOfJoin(a: string, t: string)
    requires forall k :: 0 <= k < |a| ==> a[k] != ' '
    requires forall k :: 0 <= k < |t| ==> t[k] != ' '
    ensures SecondSegment(a + " " + t) == Some(t)
  {
    var h := a + " " + t;
    assert h[|a|] == ' ';
    assert forall k :: 0 <= k < |a| ==> h[k] == a[k];
    assert IndexOf(h, ' ') == Some(|a|);
    var rest := h[|a| + 1..];
    assert rest == t;
  }

  /** The prefix test is looser than the `Bearer` scheme of section 2.1 of
      RFC 6750: any header starting with the six letters is read. */
  lemma LooseSchemeAccepted()
    ensures ExtractToken(Some("Bearerx abc")) == Some("abc")
  {
    var scheme, token := "Bearerx", "abc";
    var h := scheme + " " + token;
    assert h == "Bearerx abc";
    assert StartsWith(h, BEARER) by {
      assert h[..|BEARER|] == scheme[..|BEARER|] == BEARER;
    }
    SecondOfJoin(scheme, token);
  }

  /** `protect`: no token is 401; then the verdict on the token, the user
      lookup and the active flag, with the JWT errors mapped to 401 and any
      other error passed on. The user is loaded without its password hash,
      which none of the checks reads. */
  function Protect(header: Option<string>, verify: string -> VerifyOutcome, users: seq<User>): (r: Guard)
    ensures ExtractToken(header).None? <==> r == Rejected(ApiError(UNAUTHORIZED, MSG_NO_TOKEN))
    ensures r.Next? <==>
      && ExtractToken(header).Some?
      && verify(ExtractToken(header).value).Verified?
      && FindById(users, verify(ExtractToken(header).value).id).Some?
      && users[FindById(users, verify(ExtractToken(header).value).id).value].isActive
    ensures r.Next? ==>
      && r.user.Some? && r.user.value.isActive && r.user.value.password.None?
      && r.user.value.id == verify(ExtractToken(header).value).id
      && r.user == Some(WithoutPassword(users[FindById(users, verify(ExtractToken(header).value).id).value]))
    ensures r.Rethrown? <==> ExtractToken(header).Some? && verify(ExtractToken(header).value).OtherError?
    ensures r.Rejected? ==> r.error.statusCode in {UNAUTHORIZED, FORBIDDEN}
    ensures ExtractToken(header).Some? ==> match verify(ExtractToken(header).value)
      case JsonWebTokenError => r == Rejected(ApiError(UNAUTHORIZED, MSG_INVALID_TOKEN))
      case TokenExpiredError => r == Rejected(ApiError(UNAUTHORIZED, MSG_TOKEN_EXPIRED))
      case OtherError(name) => r == Rethrown(name)
      case Verified(id) =>
        && (FindById(users, id).None? ==> r == Rejected(ApiError(UNAUTHORIZED, MSG_USER_GONE)))
        && (FindById(users, id).Some? && !users[FindById(users, id).value].isActive ==>
              r == Rejected(ApiError(FORBIDDEN, MSG_DEACTIVATED)))
  {
    match ExtractToken(header)
    case None => Rejected(ApiError(UNAUTHORIZED, MSG_NO_TOKEN))
    case Some(token) =>
      match verify(token)
      case JsonWebTokenError => Rejected(ApiError(UNAUTHORIZED, MSG_INVALID_TOKEN))
      case TokenExpiredError => Rejected(ApiError(UNAUTHORIZED, MSG_TOKEN_EXPIRED))
      case OtherError(name) => Rethrown(name)
      case Verified(id) =>
        match FindById(users, id)
        case None => Rejected(ApiError(UNAUTHORIZED, MSG_USER_GONE))
        case Some(k) =>
          if !users[k].isActive then Rejected(ApiError(FORBIDDEN, MSG_DEACTIVATED))
          else Next(Some(WithoutPassword(users[k])))
  }

  /** `requireEmailVerification`, run after `protect`. */
  function RequireEmailVerification(user: User): (r: Guard)
    ensures r.Next? <==> user.isEmailVerified
    ensures r.Next? ==> r.user == Some(user)
    ensures !r.Next? ==> r == Rejected(ApiError(FORBIDDEN, MSG_VERIFY_EMAIL))
  {
    if !user.isEmailVerified then Rejected(ApiError(FORBIDDEN, MSG_VERIFY_EMAIL)) else Next(Some(user))
  }

  /** `authorize(...roles)`: the refusal names the user's role. */
  function Authorize(roles: seq<string>, user: User): (r: Guard)
    ensures r.Next? <==> user.role in roles
    ensures r.Next? ==> r.user == Some(user)
    ensures !r.Next? ==> r == Rejected(ApiError(FORBIDDEN, "User role '" + user.role + "' is not authorized to access this route"))
  {
    if user.role !in roles then
      Rejected(ApiError(FORBIDDEN, "User role '" + user.role + "' is not authorized to access this route"))
    else Next(Some(user))
  }

  /** The user a verified token names, when it exists. */
  function TokenUser(header: Option<string>, verify: string -> VerifyOutcome, users: seq<User>): (r: Option<User>)
    ensures r.Some? <==>
      && ExtractToken(header).Some?
      && verify(ExtractToken(header).value).Verified?
      && exists u :: u in users && u.id == verify(ExtractToken(header).value).id
    ensures r.Some? ==> r.value in users && r.value.id == verify(ExtractToken(header).value).id
    ensures Protect(header, verify, users).Next? <==> r.Some? && r.value.isActive
    ensures Protect(header, verify, users).Next? ==> Protect(header, verify, users).user == Some(WithoutPassword(r.value))
  {
    match ExtractToken(header)
    case None => None
    case Some(token) =>
      match verify(token)
      case Verified(id) => (match FindById(users, id) case Some(k) => Some(users[k]) case None => None)
      case _ => None
  }

  /** `protect`, `requireEmailVerification` and `authorize(roles)` in a row
      let a request through exactly when its token names an existing user
      that is active, verified and holds one of the roles. */
  lemma GuardChain(header: Option<string>, verify: string -> VerifyOutcome, users: seq<User>, roles: seq<string>)
    ensures var p := Protect(header, verify, users);
      (p.Next? && RequireEmailVerification(p.user.value).Next? && Authorize(roles, p.user.value).Next?)
      <==> (var t := TokenUser(header, verify, users);
            t.Some? && t.value.isActive && t.value.isEmailVerified && t.value.role in roles)
  {
  }

  /** `optionalAuth`: never stops a request, and attaches exactly the user
      `protect` would have let through. */
  function OptionalAuth(header: Option<string>, verify: string -> VerifyOutcome, users: seq<User>): (r: Guard)
    ensures r.Next?
    ensures r.user.Some? <==> Protect(header, verify, users).Next?
    ensures r.user.Some? ==> r.user == Protect(header, verify, users).user
  {
    match ExtractToken(header)
    case None => Next(None)
    case Some(token) =>
      match verify(token)
      case Verified(id) =>
        (match FindById(users, id)
         case Some(k) => if users[k].isActive then Next(Some(WithoutPassword(users[k]))) else Next(None)
         case None => Next(None))
      case _ => Next(None)
  }
}

=== FILE: auth_service.dfy ===
/** The account operations over the user collection: registration, login,
    the e-mail verification state machine, password-reset requests and
    profile updates. The collection is a sequence searched front to back;
    the clock, the random codes, SHA-256, bcrypt and the mailer's verdict
    are parameters. */
module AuthService {
  import opened Wrappers
  import opened Constants
  import opened Text
  import opened Users

  const MSG_EMAIL_IN_USE: string := "Email already in use"
  const MSG_BAD_CREDENTIALS: string := "Invalid email or password"
  const MSG_DEACTIVATED: string := "Your account has been deactivated. Please contact support."
  const MSG_USER_NOT_FOUND: string := "User not found"
  const MSG_ALREADY_VERIFIED: string := "Email already verified"
  const MSG_NO_CODE: string := "No verification code found. Please request a new one."
  const MSG_CODE_EXPIRED: string := "Verification code has expired. Please request a new one."
  const MSG_BAD_CODE: string := "Invalid verification code"
  const MSG_RESENT: string := "Verification email sent successfully"
  const MSG_RESET_SENT: string := "If an account with that email exists, a password reset link has been sent."
  const MSG_RESET_MAIL_FAILED: string := "Failed to send password reset email. Please try again."

  /** Why an operation failed: an `ApiError`, a schema validation error, or
      the mailer's own error passed through. */
  datatype Failure = Api(error: ApiError) | ValidationFailed | MailFailed

  /** The collection after the call, and what the call returned. A failed
      call may still have saved changes. */
  datatype Outcome<T> = Outcome(users: seq<User>, result: Result<T, Failure>)

  function Fail<T>(users: seq<User>, status: int, message: string): Outcome<T> {
    Outcome(users, Err(Api(ApiError(status, message))))
  }

  /** The unique index on `email`: no two users share one. */
  predicate EmailsUnique(users: seq<User>) {
    forall i, j :: 0 <= i < j < |users| ==> users[i].email != users[j].email
  }

  /** JavaScript truthiness of a request string: given and not "". The model
      keeps request strings apart from JSON values, so this is the string case
      of `JsonValues.Truthy` rather than a second definition of it. */
  predicate GivenNonEmpty(s: Option<string>) {
    s.Some? && s.value != ""
  }

  // ------------------------------------------------------------- register

  /** `register`: an email already in use is 400; otherwise the new user is
      stored unverified with the hash of `code`, valid for ten minutes.
      A failed verification mail is ignored. */
  function Register(users: seq<User>, id: UserId, f: NewUserFields, code: string, now: int,
                    sha256: string -> string, hashPw: string -> string): (r: Outcome<User>)
    ensures FindByEmail(users, f.email).Some? ==> r == Fail(users, BAD_REQUEST, MSG_EMAIL_IN_USE)
    ensures r.result.Ok? <==>
      FindByEmail(users, f.email).None? && CreateUser(id, f, sha256(code), now + VERIFICATION_WINDOW, hashPw).Some?
    ensures r.result.Ok? ==>
      && r.users == users + [r.result.value]
      && r.result.value.email == NormalizeEmail(f.email)
      && !r.result.value.isEmailVerified
      && r.result.value.emailVerificationToken == Some(sha256(code))
      && r.result.value.emailVerificationExpires == Some(now + 600000)
    ensures r.result.Err? ==> r.users == users
  {
    if FindByEmail(users, f.email).Some? then Fail(users, BAD_REQUEST, MSG_EMAIL_IN_USE)
    else match CreateUser(id, f, sha256(code), now + VERIFICATION_WINDOW, hashPw)
      case None => Outcome(users, Err(ValidationFailed))
      case Some(u) => Outcome(users + [u], Ok(u))
  }

  /** Registration keeps emails unique: the duplicate check and the stored
      email see the same normalised value. */
  lemma RegisterKeepsEmailsUnique(users: seq<User>, id: UserId, f: NewUserFields, code: string, now: int,
                                  sha256: string -> string, hashPw: string -> string)
    requires EmailsUnique(users)
    ensures EmailsUnique(Register(users, id, f, code, now, sha256, hashPw).users)
  {
    var r := Register(users, id, f, code, now, sha256, hashPw);
    if r.result.Ok? {
      AppendKeepsEmailsUnique(users, r.result.value);
    }
  }

  /** Appending a user whose email nobody has keeps emails unique. */
  lemma AppendKeepsEmailsUnique(users: seq<User>, u: User)
    requires EmailsUnique(users) && forall k :: 0 <= k < |users| ==> users[k].email != u.email
    ensures EmailsUnique(users + [u])
  {
    var us := users + [u];
    forall i, j | 0 <= i < j < |us| ensures us[i].email != us[j].email {
      assert us[i] == users[i];
    }
  }

  // ---------------------------------------------------------------- login

  /** `login`: bad credentials are 401 before a deactivated account is 403,
      so a wrong password never reveals that an account is deactivated.
      Success records the login time. */
  function Login(users: seq<User>, email: string, password: string, matches: (string, string) -> bool, now: int)
    : (r: Outcome<User>)
    ensures FindByCredentials(users, email, password, matches).None? ==>
      r == Fail(users, UNAUTHORIZED, MSG_BAD_CREDENTIALS)
    ensures FindByCredentials(users, email, password, matches).Some? ==>
      var k := FindByCredentials(users, email, password, matches).value;
      && (!users[k].isActive <==> r == Fail(users, FORBIDDEN, MSG_DEACTIVATED))
      && (users[k].isActive <==> r.result.Ok?)
      && (r.result.Ok? ==>
            && r.users == users[k := users[k].(lastLogin := Some(now))]
            && r.result.value == r.users[k])
    ensures r.result.Err? ==> r.users == users
  {
    match FindByCredentials(users, email, password, matches)
    case None => Fail(users, UNAUTHORIZED, MSG_BAD_CREDENTIALS)
    case Some(k) =>
      if !users[k].isActive then Fail(users, FORBIDDEN, MSG_DEACTIVATED)
      else
        var u := users[k].(lastLogin := Some(now));
        Outcome(users[k := u], Ok(u))
  }

  /** Whatever the state of the account, a wrong password gets the same
      answer as an unknown email. */
  lemma WrongPasswordLooksLikeUnknownEmail(users: seq<User>, email: string, password: string,
                                           matches: (string, string) -> bool, now: int)
    requires FindByEmail(users, email).Some?
    requires !ComparePassword(users[FindByEmail(users, email).value], password, matches)
    ensures Login(users, email, password, matches, now) == Fail(users, UNAUTHORIZED, MSG_BAD_CREDENTIALS)
  {
  }

  // --------------------------------------------------------- verification

  /** The stored code exists: a non-empty hash and an expiry. */
  predicate HasCode(u: User) {
    GivenNonEmpty(u.emailVerificationToken) && u.emailVerificationExpires.Some?
  }

  /** An unverified user whose code has run out. */
  predicate CodeExpired(u: User, now: int) {
    !u.isEmailVerified && HasCode(u) && u.emailVerificationExpires.value < now
  }

  /** An unverified user whose code is still valid at `now`. */
  predicate CodeLive(u: User, now: int) {
    !u.isEmailVerified && HasCode(u) && now <= u.emailVerificationExpires.value
  }

  /** `verifyEmail`. The checks run in order: unknown email 404, already
      verified 400, no code 400, expired code 400, wrong code 400. An expiry
      equal to `now` still passes. Success marks the user verified and
      clears the code and its expiry. */
  function VerifyEmail(users: seq<User>, email: string, code: string, now: int, sha256: string -> string)
    : (r: Outcome<User>)
    ensures FindByEmail(users, email).None? <==> r == Fail(users, NOT_FOUND, MSG_USER_NOT_FOUND)
    ensures FindByEmail(users, email).Some? ==>
      var k := FindByEmail(users, email).value;
      var u := users[k];
      && (u.isEmailVerified <==> r == Fail(users, BAD_REQUEST, MSG_ALREADY_VERIFIED))
      && (!u.isEmailVerified && !HasCode(u) <==> r == Fail(users, BAD_REQUEST, MSG_NO_CODE))
      && (CodeExpired(u, now) <==> r == Fail(users, BAD_REQUEST, MSG_CODE_EXPIRED))
      && (CodeLive(u, now) && u.emailVerificationToken.value != sha256(code) <==> r == Fail(users, BAD_REQUEST, MSG_BAD_CODE))
      && (r.result.Ok? <==> CodeLive(u, now) && u.emailVerificationToken.value == sha256(code))
      && (r.result.Ok? ==>
            && r.users == users[k := r.result.value]
            && r.result.value.isEmailVerified
            && r.result.value.emailVerificationToken.None?
            && r.result.value.emailVerificationExpires.None?
            && r.result.value.(isEmailVerified := u.isEmailVerified,
                               emailVerificationToken := u.emailVerificationToken,
                               emailVerificationExpires := u.emailVerificationExpires) == u)
    ensures r.result.Err? ==> r.users == users
  {
    match FindByEmail(users, email)
    case None => Fail(users, NOT_FOUND, MSG_USER_NOT_FOUND)
    case Some(k) =>
      var u := users[k];
      if u.isEmailVerified then Fail(users, BAD_REQUEST, MSG_ALREADY_VERIFIED)
      else if !HasCode(u) then Fail(users, BAD_REQUEST, MSG_NO_CODE)
      else if u.emailVerificationExpires.value < now then Fail(users, BAD_REQUEST, MSG_CODE_EXPIRED)
      else if u.emailVerificationToken.value != sha256(code) then Fail(users, BAD_REQUEST, MSG_BAD_CODE)
      else
        var v := u.(isEmailVerified := true, emailVerificationToken := None, emailVerificationExpires := None);
        Outcome(users[k := v], Ok(v))
  }

  /** `resendVerificationEmail`: unknown email 404, already verified 400;
      otherwise a fresh code valid for ten minutes replaces the old one and
      is saved before the mail goes out, so a mailer failure leaves the new
      code stored. */
  function ResendVerificationEmail(users: seq<User>, email: string, code: string, now: int,
                                   sha256: string -> string, mailOk: bool): (r: Outcome<string>)
    ensures FindByEmail(users, email).None? <==> r == Fail(users, NOT_FOUND, MSG_USER_NOT_FOUND)
    ensures FindByEmail(users, email).Some? ==>
      var k := FindByEmail(users, email).value;
      && (users[k].isEmailVerified <==> r == Fail(users, BAD_REQUEST, MSG_ALREADY_VERIFIED))
      && (!users[k].isEmailVerified ==>
            && r.users == users[k := users[k].(emailVerificationToken := Some(sha256(code)),
                                               emailVerificationExpires := Some(now + 600000))]
            && r.result == (if mailOk then Ok(MSG_RESENT) else Err(MailFailed)))
  {
    match FindByEmail(users, email)
    case None => Fail(users, NOT_FOUND, MSG_USER_NOT_FOUND)
    case Some(k) =>
      var u := users[k];
      if u.isEmailVerified then Fail(users, BAD_REQUEST, MSG_ALREADY_VERIFIED)
      else
        var v := u.(emailVerificationToken := Some(sha256(code)),
                    emailVerificationExpires := Some(now + VERIFICATION_WINDOW));
        Outcome(users[k := v], if mailOk then Ok(MSG_RESENT) else Err(MailFailed))
  }

  /** A code the user just received is accepted for ten minutes, boundary
      included, however the mail went: register then verify. */
  lemma {:induction false} RegisterThenVerify(users: seq<User>, id: UserId, f: NewUserFields, code: string,
                                              now: int, later: int, sha256: string -> string, hashPw: string -> string)
    requires Register(users, id, f, code, now, sha256, hashPw).result.Ok?
    requires now <= later <= now + VERIFICATION_WINDOW && sha256(code) != ""
    ensures var us := Register(users, id, f, code, now, sha256, hashPw).users;
      && VerifyEmail(us, f.email, code, later, sha256).result.Ok?
      && VerifyEmail(us, f.email, code, later, sha256).users[|users|].isEmailVerified
  {
    var r := Register(users, id, f, code, now, sha256, hashPw);
    var u := r.result.value;
    FoundAtEnd(users, u, f.email);
    assert CodeLive(u, later) && u.emailVerificationToken.value == sha256(code);
  }

  /** A user appended with an email nobody else has is the one found. */
  lemma FoundAtEnd(users: seq<User>, u: User, email: string)
    requires FindByEmail(users, email).None? && u.email == NormalizeEmail(email)
    ensures FindByEmail(users + [u], email) == Some(|users|)
  {
    var us := users + [u];
    assert forall k :: 0 <= k < |users| ==> us[k] == users[k];
    assert forall k :: 0 <= k < |users| ==> us[k].email != NormalizeEmail(email);
    assert us[|users|].email == NormalizeEmail(email);
  }

  /** Replacing a user by one with the same email keeps the lookup where
      it was. */
  lemma FoundAfterUpdate(users: seq<User>, k: nat, v: User, email: string)
    requires FindByEmail(users, email) == Some(k) && v.email == users[k].email
    ensures FindByEmail(users[k := v], email) == Some(k)
  {
    var us, e := users[k := v], NormalizeEmail(email);
    var r := FindByEmail(us, email);
    assert us[k].email == e;
    assert r.Some? && r.value <= k;
    assert us[r.value].email == users[r.value].email;
  }

  /** Resend then verify: the fresh code works for ten minutes even when
      the resend reported a mailer failure. */
  lemma ResendThenVerify(users: seq<User>, email: string, code: string, now: int, later: int,
                         sha256: string -> string, mailOk: bool)
    requires FindByEmail(users, email).Some? && !users[FindByEmail(users, email).value].isEmailVerified
    requires now <= later <= now + VERIFICATION_WINDOW && sha256(code) != ""
    ensures var us := ResendVerificationEmail(users, email, code, now, sha256, mailOk).users;
      VerifyEmail(us, email, code, later, sha256).result.Ok?
  {
    var k := FindByEmail(users, email).value;
    var us := ResendVerificationEmail(users, email, code, now, sha256, mailOk).users;
    FoundAfterUpdate(users, k, us[k], email);
    assert CodeLive(us[k], later) && us[k].emailVerificationToken.value == sha256(code);
  }

  /** One tick after the window the same code is refused as expired. */
  lemma {:induction false} ResendThenVerifyTooLate(users: seq<User>, email: string, code: string, now: int,
                                                   sha256: string -> string, mailOk: bool)
    requires FindByEmail(users, email).Some? && !users[FindByEmail(users, email).value].isEmailVerified
    requires sha256(code) != ""
    ensures var us := ResendVerificationEmail(users, email, code, now, sha256, mailOk).users;
      VerifyEmail(us, email, code, now + VERIFICATION_WINDOW + 1, sha256) == Fail(us, BAD_REQUEST, MSG_CODE_EXPIRED)
  {
    var k := FindByEmail(users, email).value;
    var us := ResendVerificationEmail(users, email, code, now, sha256, mailOk).users;
    FoundAfterUpdate(users, k, us[k], email);
    assert CodeExpired(us[k], now + VERIFICATION_WINDOW + 1);
  }

  /** Verified is final: once `verifyEmail` succeeds, verifying again and
      asking for a new code are both refused and change nothing. */
  lemma {:induction false} VerifiedIsFinal(users: seq<User>, email: string, code: string, code2: string, now: int,
                                           later: int, sha256: string -> string, mailOk: bool)
    requires VerifyEmail(users, email, code, now, sha256).result.Ok?
    ensures var us := VerifyEmail(users, email, code, now, sha256).users;
      && VerifyEmail(us, email, code2, later, sha256) == Fail(us, BAD_REQUEST, MSG_ALREADY_VERIFIED)
      && ResendVerificationEmail(us, email, code2, later, sha256, mailOk) == Fail(us, BAD_REQUEST, MSG_ALREADY_VERIFIED)
  {
    var k := FindByEmail(users, email).value;
    var us := VerifyEmail(users, email, code, now, sha256).users;
    FoundAfterUpdate(users, k, us[k], email);
    assert us[k].isEmailVerified;
  }

  // --------------------------------------------------------- reset request

  /** What the reset link carries after `?token=`: the token, or the text
      `undefined` when the value interpolated is `undefined`. */
  datatype LinkToken = Undefined | Token(value: string)

  /** The collection, the reply, and the link mailed, if a mail was sent. */
  datatype ResetRequest = ResetRequest(users: seq<User>, result: Result<string, Failure>, link: Option<LinkToken>)

  /** `forgotPassword` as written. The model method returns the token as a
      string, and destructuring `{ resetToken }` from a string reads a
      property that does not exist, so the link says `token=undefined`. On
      a mailer failure it clears `passwordResetToken` and assigns
      `passwordResetExpiry`, which is not a schema path, so the stored
      expiry stays. */
  function ForgotPasswordAsWritten(users: seq<User>, email: string, token: string, now: int,
                                   sha256: string -> string, mailOk: bool): (r: ResetRequest)
    ensures FindByEmail(users, email).None? ==> r == ResetRequest(users, Ok(MSG_RESET_SENT), None)
    ensures FindByEmail(users, email).Some? ==> r.link == Some(Undefined)
    ensures FindByEmail(users, email).Some? && !mailOk ==>
      r.result == Err(Api(ApiError(INTERNAL_SERVER_ERROR, MSG_RESET_MAIL_FAILED)))
    ensures mailOk ==> r.result == Ok(MSG_RESET_SENT)
    ensures FindByEmail(users, email).Some? ==>
      var k := FindByEmail(users, email).value;
      r.users == users[k := users[k].(passwordResetToken := if mailOk then Some(sha256(token)) else None,
                                      passwordResetExpires := Some(now + RESET_WINDOW))]
  {
    match FindByEmail(users, email)
    case None => ResetRequest(users, Ok(MSG_RESET_SENT), None)
    case Some(k) =>
      var (u, _) := GeneratePasswordResetToken(users[k], token, now, sha256);
      if mailOk then ResetRequest(users[k := u], Ok(MSG_RESET_SENT), Some(Undefined))
      else
        var v := u.(passwordResetToken := None);
        ResetRequest(users[k := v], Err(Api(ApiError(INTERNAL_SERVER_ERROR, MSG_RESET_MAIL_FAILED))), Some(Undefined))
  }

  /** As written, the mailed link never carries the token whose hash was
      stored: the user receives `token=undefined`. */
  lemma ForgotLinkHasNoToken(users: seq<User>, email: string, token: string, now: int, sha256: string -> string)
    requires FindByEmail(users, email).Some?
    ensures var r := ForgotPasswordAsWritten(users, email, token, now, sha256, true);
      && r.users[FindByEmail(users, email).value].passwordResetToken == Some(sha256(token))
      && r.link == Some(Undefined)
  {
  }

  /** As written, a mailer failure leaves the thirty-minute expiry stored
      next to a cleared token. */
  lemma ForgotFailureKeepsExpiry(users: seq<User>, email: string, token: string, now: int, sha256: string -> string)
    requires FindByEmail(users, email).Some?
    ensures var r := ForgotPasswordAsWritten(users, email, token, now, sha256, false);
      && r.users[FindByEmail(users, email).value].passwordResetToken.None?
      && r.users[FindByEmail(users, email).value].passwordResetExpires == Some(now + RESET_WINDOW)
  {
  }

  /** `forgotPassword` as intended: the link carries the returned token and
      a mailer failure clears both reset fields. The reply is the same
      whether or not the email is known. */
  function ForgotPassword(users: seq<User>, email: string, token: string, now: int,
                          sha256: string -> string, mailOk: bool): (r: ResetRequest)
    ensures mailOk ==> r.result == Ok(MSG_RESET_SENT)
    ensures FindByEmail(users, email).None? ==> r == ResetRequest(users, Ok(MSG_RESET_SENT), None)
    ensures FindByEmail(users, email).Some? ==>
      var k := FindByEmail(users, email).value;
      && |r.users| == |users|
      && (forall j :: 0 <= j < |users| && j != k ==> r.users[j] == users[j])
      && r.users[k].(passwordResetToken := users[k].passwordResetToken,
                     passwordResetExpires := users[k].passwordResetExpires) == users[k]
      && (!mailOk ==> r.result == Err(Api(ApiError(INTERNAL_SERVER_ERROR, MSG_RESET_MAIL_FAILED))))
    ensures FindByEmail(users, email).Some? ==>
      var k := FindByEmail(users, email).value;
      r.users == users[k := users[k].(passwordResetToken := if mailOk then Some(sha256(token)) else None,
                                      passwordResetExpires := if mailOk then Some(now + RESET_WINDOW) else None)]
  {
    match FindByEmail(users, email)
    case None => ResetRequest(users, Ok(MSG_RESET_SENT), None)
    case Some(k) =>
      var (u, resetToken) := GeneratePasswordResetToken(users[k], token, now, sha256);
      if mailOk then ResetRequest(users[k := u], Ok(MSG_RESET_SENT), Some(Token(resetToken)))
      else
        var v := u.(passwordResetToken := None, passwordResetExpires := None);
        ResetRequest(users[k := v], Err(Api(ApiError(INTERNAL_SERVER_ERROR, MSG_RESET_MAIL_FAILED))), Some(Token(resetToken)))
  }

  /** Corrected: the mailed token hashes to the stored one, and stays
      redeemable for thirty minutes. */
  lemma ForgotLinkRedeemsStoredHash(users: seq<User>, email: string, token: string, now: int, sha256: string -> string)
    requires FindByEmail(users, email).Some?
    ensures var r := ForgotPassword(users, email, token, now, sha256, true);
      var u := r.users[FindByEmail(users, email).value];
      && r.link.Some? && r.link.value.Token?
      && u.passwordResetToken == Some(sha256(r.link.value.value))
      && u.passwordResetExpires == Some(now + RESET_WINDOW)
  {
  }

  /** Corrected: after a mailer failure no reset state is left behind; the
      user is as before the call apart from both reset fields being unset. */
  lemma ForgotFailureClearsResetState(users: seq<User>, email: string, token: string, now: int, sha256: string -> string)
    requires FindByEmail(users, email).Some?
    ensures var r := ForgotPassword(users, email, token, now, sha256, false);
      var k := FindByEmail(users, email).value;
      && r.users == users[k := users[k].(passwordResetToken := None, passwordResetExpires := None)]
  {
  }

  /** Both versions answer an unknown and a known email alike when the mail
      goes out, so the reply does not reveal which emails exist. */
  lemma ForgotReplyRevealsNothing(users: seq<User>, email: string, other: string, token: string, now: int,
                                  sha256: string -> string)
    ensures ForgotPassword(users, email, token, now, sha256, true).result
         == ForgotPassword(users, other, token, now, sha256, true).result
    ensures ForgotPasswordAsWritten(users, email, token, now, sha256, true).result
         == ForgotPasswordAsWritten(users, other, token, now, sha256, true).result
  {
  }

  // --------------------------------------------------------------- profile

  /** The reply of `updateProfile`. */
  datatype ProfileView = ProfileView(id: UserId, name: string, email: string, profilePicture: Option<string>)

  /** The name rule the save checks: 2..100 characters after the trim. */
  predicate NameOk(name: string) {
    2 <= |Trim(name)| <= 100
  }

  /** `updateProfile` as written: a truthy name is set (the schema trims and
      checks it); a truthy `profilePicture` is assigned to a property that
      is not a schema path, so the reply echoes it but nothing is stored. */
  function UpdateProfileAsWritten(users: seq<User>, id: UserId, name: Option<string>, picture: Option<string>)
    : (r: Outcome<ProfileView>)
    ensures FindById(users, id).None? <==> r == Fail(users, NOT_FOUND, MSG_USER_NOT_FOUND)
    ensures FindById(users, id).Some? ==>
      var k := FindById(users, id).value;
      && (r.result.Ok? <==> !GivenNonEmpty(name) || NameOk(name.value))
      && (r.result.Ok? ==>
            && r.users == users[k := users[k].(name := if GivenNonEmpty(name) then Trim(name.value) else users[k].name)]
            && r.result.value.profilePicture == (if GivenNonEmpty(picture) then picture else None))
    ensures r.result.Err? ==> r.users == users
  {
    match FindById(users, id)
    case None => Fail(users, NOT_FOUND, MSG_USER_NOT_FOUND)
    case Some(k) =>
      var u := users[k];
      if GivenNonEmpty(name) && !NameOk(name.value) then Outcome(users, Err(ValidationFailed))
      else
        var v := u.(name := if GivenNonEmpty(name) then Trim(name.value) else u.name);
        Outcome(users[k := v], Ok(ProfileView(v.id, v.name, v.email, if GivenNonEmpty(picture) then picture else None)))
  }

  /** As written, a new picture is reported back yet the stored avatar is
      unchanged, so the next read of the user has lost it. */
  lemma ProfilePictureNotStored(users: seq<User>, id: UserId, picture: string)
    requires FindById(users, id).Some? && picture != ""
    ensures var r := UpdateProfileAsWritten(users, id, None, Some(picture));
      var k := FindById(users, id).value;
      && r.result.Ok?
      && r.result.value.profilePicture == Some(picture)
      && r.users[k].avatar == users[k].avatar
  {
  }

  /** `updateProfile` as intended: the picture is stored in the schema's
      `avatar` path and the reply shows what was stored. */
  function UpdateProfile(users: seq<User>, id: UserId, name: Option<string>, picture: Option<string>)
    : (r: Outcome<ProfileView>)
    ensures FindById(users, id).None? <==> r == Fail(users, NOT_FOUND, MSG_USER_NOT_FOUND)
    ensures FindById(users, id).Some? ==>
      var k := FindById(users, id).value;
      && (r.result.Ok? <==> !GivenNonEmpty(name) || NameOk(name.value))
      && (r.result.Ok? ==>
            && |r.users| == |users|
            && (forall j :: 0 <= j < |users| && j != k ==> r.users[j] == users[j])
            && r.users[k].(name := users[k].name, avatar := users[k].avatar) == users[k]
            && (GivenNonEmpty(name) ==> r.users[k].name == Trim(name.value))
            && (!GivenNonEmpty(name) ==> r.users[k].name == users[k].name))
    ensures r.result.Err? ==> r.users == users
  {
    match FindById(users, id)
    case None => Fail(users, NOT_FOUND, MSG_USER_NOT_FOUND)
    case Some(k) =>
      var u := users[k];
      if GivenNonEmpty(name) && !NameOk(name.value) then Outcome(users, Err(ValidationFailed))
      else
        var v := u.(name := if GivenNonEmpty(name) then Trim(name.value) else u.name,
                    avatar := if GivenNonEmpty(picture) then picture.value else u.avatar);
        Outcome(users[k := v], Ok(ProfileView(v.id, v.name, v.email, Some(v.avatar))))
  }

  /** Corrected: the reply's picture is the stored one, and a truthy picture
      is what gets stored. */
  lemma ProfilePictureStored(users: seq<User>, id: UserId, name: Option<string>, picture: Option<string>)
    requires FindById(users, id).Some?
    requires UpdateProfile(users, id, name, picture).result.Ok?
    ensures var r := UpdateProfile(users, id, name, picture);
      var k := FindById(users, id).value;
      && r.result.value.profilePicture == Some(r.users[k].avatar)
      && (GivenNonEmpty(picture) ==> r.users[k].avatar == picture.value)
      && (!GivenNonEmpty(picture) ==> r.users[k].avatar == users[k].avatar)
  {
  }
}

=== FILE: constants.dfy ===
/** HTTP status codes, the three closed enumerations and the error messages
    shared by the services (src/utils/constants.js). */
module Constants {
  import opened Wrappers

  // HTTP status codes
  const OK: int := 200
  const CREATED: int := 201
  const NO_CONTENT: int := 204
  const BAD_REQUEST: int := 400
  const UNAUTHORIZED: int := 401
  const FORBIDDEN: int := 403
  const NOT_FOUND: int := 404
  const CONFLICT: int := 409
  const UNPROCESSABLE_ENTITY: int := 422
  const INTERNAL_SERVER_ERROR: int := 500
  const SERVICE_UNAVAILABLE: int := 503

  /** Project status: pending, in-progress or completed. */
  datatype ProjectStatus = PendingProject | InProgressProject | CompletedProject {
    function Str(): string {
      match this
      case PendingProject => "pending"
      case InProgressProject => "in-progress"
      case CompletedProject => "completed"
    }
  }

  /** Task (and subtask) status: not-started, in-progress or completed. */
  datatype TaskStatus = NotStarted | InProgressTask | CompletedTask {
    function Str(): string {
      match this
      case NotStarted => "not-started"
      case InProgressTask => "in-progress"
      case CompletedTask => "completed"
    }
  }

  /** Task (and subtask) priority: low, medium or high. */
  datatype Priority = Low | Medium | High {
    function Str(): string {
      match this
      case Low => "low"
      case Medium => "medium"
      case High => "high"
    }
  }

  /** `Object.values(PROJECT_STATUS)`, the strings the schema's enum rule admits. */
  const PROJECT_STATUS: set<string> := {"pending", "in-progress", "completed"}
  const TASK_STATUS: set<string> := {"not-started", "in-progress", "completed"}
  const PRIORITY: set<string> := {"low", "medium", "high"}

  /** Reads a project status string back into the enumeration. */
  function ParseProjectStatus(s: string): (r: Option<ProjectStatus>)
    ensures r.Some? <==> s in PROJECT_STATUS
    ensures r.Some? ==> r.value.Str() == s
  {
    if s == "pending" then Some(PendingProject)
    else if s == "in-progress" then Some(InProgressProject)
    else if s == "completed" then Some(CompletedProject)
    else None
  }

  function ParseTaskStatus(s: string): (r: Option<TaskStatus>)
    ensures r.Some? <==> s in TASK_STATUS
    ensures r.Some? ==> r.value.Str() == s
  {
    if s == "not-started" then Some(NotStarted)
    else if s == "in-progress" then Some(InProgressTask)
    else if s == "completed" then Some(CompletedTask)
    else None
  }

  function ParsePriority(s: string): (r: Option<Priority>)
    ensures r.Some? <==> s in PRIORITY
    ensures r.Some? ==> r.value.Str() == s
  {
    if s == "low" then Some(Low)
    else if s == "medium" then Some(Medium)
    else if s == "high" then Some(High)
    else None
  }

  /** Each enumeration is exactly its value set: every member prints into the
      set, each string of the set is printed by exactly one member, and
      printing then parsing gives the member back. */
  lemma EnumsAreExact()
    ensures |PROJECT_STATUS| == 3 && |TASK_STATUS| == 3 && |PRIORITY| == 3
    ensures forall st: ProjectStatus :: st.Str() in PROJECT_STATUS && ParseProjectStatus(st.Str()) == Some(st)
    ensures forall st: TaskStatus :: st.Str() in TASK_STATUS && ParseTaskStatus(st.Str()) == Some(st)
    ensures forall pr: Priority :: pr.Str() in PRIORITY && ParsePriority(pr.Str()) == Some(pr)
  {
    assert |PROJECT_STATUS| == 3 by {
      assert PROJECT_STATUS == {"pending"} + {"in-progress"} + {"completed"};
    }
    assert |TASK_STATUS| == 3 by {
      assert TASK_STATUS == {"not-started"} + {"in-progress"} + {"completed"};
    }
    assert |PRIORITY| == 3 by {
      assert PRIORITY == {"low"} + {"medium"} + {"high"};
    }
  }

  /** The error an `ApiError` carries: an HTTP status code and a message. */
  datatype ApiError = ApiError(statusCode: int, message: string)

  // ERROR_MESSAGES
  const MSG_INTERNAL_SERVER_ERROR: string := "Internal server error occurred"
  const MSG_VALIDATION_ERROR: string := "Validation error"
  const MSG_PROJECT_NOT_FOUND: string := "Project not found"
  const MSG_PROJECT_CREATION_FAILED: string := "Failed to create project"
  const MSG_PROJECT_UPDATE_FAILED: string := "Failed to update project"
  const MSG_PROJECT_DELETE_FAILED: string := "Failed to delete project"
  const MSG_INVALID_TASK_INDEX: string := "Invalid task index"
  const MSG_INVALID_SUBTASK_INDEX: string := "Invalid subtask index"
  const MSG_COMMENT_CREATION_FAILED: string := "Failed to create comment"
  const MSG_PDF_PARSING_FAILED: string := "Failed to parse PDF file"
  const MSG_PDF_NO_TEXT: string := "The PDF appears to be image-based or contains no extractable text"
  const MSG_AI_SERVICE_ERROR: string := "Error processing with AI service"
  const MSG_AI_INVALID_RESPONSE: string := "Invalid response from AI service"

  // SUCCESS_MESSAGES used by the project service
  const MSG_PROJECT_DELETED: string := "Project deleted successfully"
  const MSG_TASK_DELETED: string := "Task deleted successfully"

  /** The error kinds every project operation can report. */
  const ERR_PROJECT_NOT_FOUND: ApiError := ApiError(NOT_FOUND, MSG_PROJECT_NOT_FOUND)
  const ERR_INVALID_TASK_INDEX: ApiError := ApiError(BAD_REQUEST, MSG_INVALID_TASK_INDEX)
  const ERR_INVALID_SUBTASK_INDEX: ApiError := ApiError(BAD_REQUEST, MSG_INVALID_SUBTASK_INDEX)

  /** The index errors are told apart by their message, not their code. */
  lemma IndexErrorsAreDistinct()
    ensures ERR_INVALID_TASK_INDEX != ERR_INVALID_SUBTASK_INDEX
    ensures ERR_INVALID_TASK_INDEX.statusCode == ERR_INVALID_SUBTASK_INDEX.statusCode == BAD_REQUEST
    ensures ERR_PROJECT_NOT_FOUND.statusCode == 404
  {
    assert MSG_INVALID_TASK_INDEX[8] != MSG_INVALID_SUBTASK_INDEX[8];
  }
}

=== FILE: json.dfy ===
/** Untrusted JSON-like values as JavaScript code sees them: what `JSON.parse`
    returns, plus `undefined` for a missing property. */
module JsonValues {
  import opened Wrappers

  /** Numbers are integers here: fractions, `NaN` and the infinities are not
      modelled (README, "Left out"). */
  datatype Json =
    | JUndefined
    | JNull
    | JBool(b: bool)
    | JNum(n: int)
    | JStr(s: string)
    | JArr(items: seq<Json>)
    | JObj(fields: map<string, Json>)

  /** JavaScript truthiness: `undefined`, `null`, `false`, `0` and `''` are
      falsy, everything else (every array and object included) is truthy. */
  predicate Truthy(v: Json) {
    match v
    case JUndefined => false
    case JNull => false
    case JBool(b) => b
    case JNum(n) => n != 0
    case JStr(s) => s != ""
    case JArr(_) => true
    case JObj(_) => true
  }

  /** The error a property read on `null` or `undefined` raises. */
  datatype JsError = TypeError

  /** `v.key`: a TypeError on `null`/`undefined`, the field of an object or
      `undefined` when the object lacks it, and `undefined` on any other value
      (none of the keys the core reads is a property of strings, numbers,
      booleans or arrays). */
  function Get(v: Json, key: string): (r: Result<Json, JsError>)
    ensures r.Err? <==> v == JUndefined || v == JNull
    ensures r.Ok? && v.JObj? && key in v.fields ==> r.value == v.fields[key]
    ensures r.Ok? && !(v.JObj? && key in v.fields) ==> r.value == JUndefined
  {
    match v
    case JUndefined => Err(TypeError)
    case JNull => Err(TypeError)
    case JObj(m) => Ok(if key in m then m[key] else JUndefined)
    case _ => Ok(JUndefined)
  }

  /** `a || b`. */
  function Or(a: Json, b: Json): (r: Json)
    ensures Truthy(a) ==> r == a
    ensures !Truthy(a) ==> r == b
  {
    if Truthy(a) then a else b
  }

  predicate Nullish(v: Json) {
    v == JUndefined || v == JNull
  }

  /** `v.key` on a value that is neither `null` nor `undefined`. */
  function Field(v: Json, key: string): Json
    requires !Nullish(v)
  {
    Get(v, key).value
  }
}

=== FILE: legacy_routes.dfy ===
/** The older positional route handlers (routes/project.js) over the legacy
    schema (entities/Project.js): lookup by id alone, indices read with
    `parseInt` and rejected when NaN or out of range, a fixed whitelist of
    updatable fields, and a save that validates but has no completion rule.
    Every handler answers with a status code and a JSON body; a failed save
    answers 500 and leaves the store unchanged. */
module LegacyRoutes {
  import opened Wrappers
  import opened ProjectModel
  import opened Text
  import opened Addressing
  import ProjectService
  import Constants

  type ProjectId = ProjectService.ProjectId
  type Store = ProjectService.Store

  /** The JSON bodies the handlers send. */
  datatype Body =
    | Message(message: string)
    | TaskBody(task: MainTask)
    | SubtaskBody(subtask: Subtask)
    | SubtasksBody(subtasks: seq<Subtask>)
    | CommentsBody(comments: seq<Comment>)
    | ProjectBody(project: Project)

  /** The store after the handler and the reply it sends. */
  datatype Response = Response(store: Store, status: int, body: Body)

  const MSG_NOT_FOUND: string := "Project not found"
  const MSG_BAD_MAIN_INDEX: string := "Invalid mainTaskIndex"
  const MSG_BAD_INDICES: string := "Invalid mainTaskIndex or subtaskIndex"
  const MSG_SERVER_ERROR: string := "Internal server error"
  const MSG_MAIN_TASK_DELETED: string := "Main task deleted successfully"

  /** A reply that leaves the store as it was. */
  function Reject(store: Store, status: int, message: string): (r: Response)
    ensures r.store == store && r.status == status && r.body == Message(message)
  {
    Response(store, status, Message(message))
  }

  /** The main index a handler works on: `None` when the guard
      `isNaN(idx) || idx < 0 || idx >= mainTasks.length` fires. */
  function MainIndex(p: Project, raw: string): (r: Option<nat>)
    ensures r.None? <==> LegacyGuardRejects(ParseInt(raw), |p.mainTasks|)
    ensures r.Some? ==> ParseInt(raw) == Num(r.value) && r.value < |p.mainTasks|
  {
    match ParseInt(raw)
    case NaN => None
    case Num(i) => if i < 0 || i >= |p.mainTasks| then None else Some(i)
  }

  /** Both indices of a subtask route; the subtask list is consulted only once
      the main index is known to be good. */
  function SubIndices(p: Project, rawMain: string, rawSub: string): (r: Option<(nat, nat)>)
    ensures r.None? <==> MainIndex(p, rawMain).None?
                         || LegacyGuardRejects(ParseInt(rawSub), |p.mainTasks[MainIndex(p, rawMain).value].subtasks|)
    ensures r.Some? ==> && MainIndex(p, rawMain) == Some(r.value.0)
                        && ParseInt(rawSub) == Num(r.value.1)
                        && r.value.1 < |p.mainTasks[r.value.0].subtasks|
  {
    match MainIndex(p, rawMain)
    case None => None
    case Some(i) =>
      match ParseInt(rawSub)
      case NaN => None
      case Num(j) => if j < 0 || j >= |p.mainTasks[i].subtasks| then None else Some((i, j))
  }

  /** `project.save()` on the legacy schema: validation only. */
  predicate Saves(p: Project) {
    ValidProject(Legacy, p)
  }

  /** Save `edited` as document `pid` and answer `status` with `body`, or 500
      when validation fails. */
  function Commit(store: Store, pid: ProjectId, edited: Project, status: int, body: Body): (r: Response)
    ensures Saves(edited) ==> r == Response(store[pid := edited], status, body)
    ensures !Saves(edited) ==> r == Reject(store, 500, MSG_SERVER_ERROR)
  {
    if Saves(edited) then Response(store[pid := edited], status, body) else Reject(store, 500, MSG_SERVER_ERROR)
  }

  // ------------------------------------------------------------ comments

  /** POST .../mainTasks/:i/comments: push exactly `{author, content}`; the
      timestamp is the schema default. Answers 201 with the whole log. */
  function AddTaskComment(store: Store, pid: ProjectId, rawIndex: string, author: Option<string>, content: Option<string>, now: int)
    : (r: Response)
    ensures pid !in store ==> r == Reject(store, 404, MSG_NOT_FOUND)
    ensures pid in store && MainIndex(store[pid], rawIndex).None? ==> r == Reject(store, 400, MSG_BAD_MAIN_INDEX)
    ensures r.status != 201 ==> r.store == store
    ensures r.status == 201 ==> pid in store && MainIndex(store[pid], rawIndex).Some?
    ensures r.status == 201 ==> var p, i := store[pid], MainIndex(store[pid], rawIndex).value;
      && r.body.CommentsBody?
      && r.body.comments == p.mainTasks[i].comments + [Comment(author.GetOr(""), content.GetOr(""), now)]
      && r.store == store[pid := ProjectService.SetTask(p, i, p.mainTasks[i].(comments := r.body.comments))]
  {
    if pid !in store then Reject(store, 404, MSG_NOT_FOUND)
    else
      var p := store[pid];
      match MainIndex(p, rawIndex)
      case None => Reject(store, 400, MSG_BAD_MAIN_INDEX)
      case Some(i) =>
        var t := p.mainTasks[i];
        var comments := t.comments + [NewComment(Legacy, CommentFields(author, content, None), now)];
        Commit(store, pid, ProjectService.SetTask(p, i, t.(comments := comments)), 201, CommentsBody(comments))
  }

  /** POST .../subtasks/:j/comments: the same on a subtask's log. */
  function AddSubtaskComment(store: Store, pid: ProjectId, rawMain: string, rawSub: string,
                             author: Option<string>, content: Option<string>, now: int)
    : (r: Response)
    ensures pid !in store ==> r == Reject(store, 404, MSG_NOT_FOUND)
    ensures pid in store && SubIndices(store[pid], rawMain, rawSub).None? ==> r == Reject(store, 400, MSG_BAD_INDICES)
    ensures r.status != 201 ==> r.store == store
    ensures r.status == 201 ==> pid in store && SubIndices(store[pid], rawMain, rawSub).Some?
    ensures r.status == 201 ==> var p, ij := store[pid], SubIndices(store[pid], rawMain, rawSub).value;
      var t := p.mainTasks[ij.0]; var s := t.subtasks[ij.1];
      && r.body.CommentsBody?
      && r.body.comments == s.comments + [Comment(author.GetOr(""), content.GetOr(""), now)]
      && r.store == store[pid := ProjectService.SetTask(p, ij.0, ProjectService.SetSubtask(t, ij.1, s.(comments := r.body.comments)))]
  {
    if pid !in store then Reject(store, 404, MSG_NOT_FOUND)
    else
      var p := store[pid];
      match SubIndices(p, rawMain, rawSub)
      case None => Reject(store, 400, MSG_BAD_INDICES)
      case Some((i, j)) =>
        var t := p.mainTasks[i];
        var s := t.subtasks[j];
        var comments := s.comments + [NewComment(Legacy, CommentFields(author, content, None), now)];
        Commit(store, pid, ProjectService.SetTask(p, i, ProjectService.SetSubtask(t, j, s.(comments := comments))), 201, CommentsBody(comments))
  }

  /** GET .../mainTasks/:i/comments: 200 with the log, no save. */
  function GetTaskComments(store: Store, pid: ProjectId, rawIndex: string): (r: Response)
    ensures r.store == store
    ensures pid !in store ==> r == Reject(store, 404, MSG_NOT_FOUND)
    ensures pid in store && MainIndex(store[pid], rawIndex).None? ==> r == Reject(store, 400, MSG_BAD_MAIN_INDEX)
    ensures r.status == 200 <==> pid in store && MainIndex(store[pid], rawIndex).Some?
    ensures r.status == 200 ==> r.body == CommentsBody(store[pid].mainTasks[MainIndex(store[pid], rawIndex).value].comments)
  {
    if pid !in store then Reject(store, 404, MSG_NOT_FOUND)
    else
      match MainIndex(store[pid], rawIndex)
      case None => Reject(store, 400, MSG_BAD_MAIN_INDEX)
      case Some(i) => Response(store, 200, CommentsBody(store[pid].mainTasks[i].comments))
  }

  /** GET .../subtasks/:j/comments: 200 with the log, no save. */
  function GetSubtaskComments(store: Store, pid: ProjectId, rawMain: string, rawSub: string): (r: Response)
    ensures r.store == store
    ensures pid !in store ==> r == Reject(store, 404, MSG_NOT_FOUND)
    ensures pid in store && SubIndices(store[pid], rawMain, rawSub).None? ==> r == Reject(store, 400, MSG_BAD_INDICES)
    ensures r.status == 200 <==> pid in store && SubIndices(store[pid], rawMain, rawSub).Some?
    ensures r.status == 200 ==> var ij := SubIndices(store[pid], rawMain, rawSub).value;
      r.body == CommentsBody(store[pid].mainTasks[ij.0].subtasks[ij.1].comments)
  {
    if pid !in store then Reject(store, 404, MSG_NOT_FOUND)
    else
      match SubIndices(store[pid], rawMain, rawSub)
      case None => Reject(store, 400, MSG_BAD_INDICES)
      case Some((i, j)) => Response(store, 200, CommentsBody(store[pid].mainTasks[i].subtasks[j].comments))
  }

  // ------------------------------------------------------------ subtasks

  /** The route's own defaults: `description || ''`, `status || 'not-started'`,
      `priority || 'medium'`, so an empty string is replaced as well. */
  function RouteDefaults(f: TaskFields): (g: TaskFields)
    ensures g.name == f.name
    ensures g.description.Some? && g.status.Some? && g.priority.Some?
    ensures f.description.None? || f.description == Some("") ==> g.description == Some("")
    ensures f.status.None? || f.status == Some("") ==> g.status == Some(DEFAULT_TASK_STATUS)
    ensures f.priority.None? || f.priority == Some("") ==> g.priority == Some(DEFAULT_PRIORITY)
    ensures f.status.Some? && f.status != Some("") ==> g.status == f.status
    ensures f.priority.Some? && f.priority != Some("") ==> g.priority == f.priority
    ensures f.description.Some? && f.description != Some("") ==> g.description == f.description
  {
    TaskFields(
      f.name,
      Some(OrDefault(f.description, "")),
      Some(OrDefault(f.status, DEFAULT_TASK_STATUS)),
      Some(OrDefault(f.priority, DEFAULT_PRIORITY)))
  }

  /** `v || d` on an optional string. */
  function OrDefault(v: Option<string>, d: string): string {
    if v.Some? && v.value != "" then v.value else d
  }

  /** POST .../mainTasks/:i/subtasks: 201 with the task's whole subtask list. */
  function AddSubtask(store: Store, pid: ProjectId, rawIndex: string, f: TaskFields): (r: Response)
    ensures pid !in store ==> r == Reject(store, 404, MSG_NOT_FOUND)
    ensures pid in store && MainIndex(store[pid], rawIndex).None? ==> r == Reject(store, 400, MSG_BAD_MAIN_INDEX)
    ensures r.status != 201 ==> r.store == store
    ensures r.status == 201 ==> pid in store && MainIndex(store[pid], rawIndex).Some?
    ensures r.status == 201 ==> var p, i := store[pid], MainIndex(store[pid], rawIndex).value;
      && r.body.SubtasksBody?
      && r.body.subtasks == p.mainTasks[i].subtasks + [NewSubtask(Legacy, RouteDefaults(f))]
      && r.store == store[pid := ProjectService.SetTask(p, i, p.mainTasks[i].(subtasks := r.body.subtasks))]
  {
    if pid !in store then Reject(store, 404, MSG_NOT_FOUND)
    else
      var p := store[pid];
      match MainIndex(p, rawIndex)
      case None => Reject(store, 400, MSG_BAD_MAIN_INDEX)
      case Some(i) =>
        var t := p.mainTasks[i];
        var subtasks := t.subtasks + [NewSubtask(Legacy, RouteDefaults(f))];
        Commit(store, pid, ProjectService.SetTask(p, i, t.(subtasks := subtasks)), 201, SubtasksBody(subtasks))
  }

  /** PUT .../subtasks/:j: only name, description, status and priority are
      assigned, and only when defined. 200 with the subtask. */
  function UpdateSubtask(store: Store, pid: ProjectId, rawMain: string, rawSub: string, f: TaskFields): (r: Response)
    ensures pid !in store ==> r == Reject(store, 404, MSG_NOT_FOUND)
    ensures pid in store && SubIndices(store[pid], rawMain, rawSub).None? ==> r == Reject(store, 400, MSG_BAD_INDICES)
    ensures r.status != 200 ==> r.store == store
    ensures r.status == 200 ==> pid in store && SubIndices(store[pid], rawMain, rawSub).Some?
    ensures r.status == 200 ==> var p, ij := store[pid], SubIndices(store[pid], rawMain, rawSub).value;
      var t := p.mainTasks[ij.0]; var s := t.subtasks[ij.1];
      && r.body.SubtaskBody?
      && r.body.subtask == PatchSubtask(Legacy, s, SubtaskPatch(f, None))
      && r.body.subtask.comments == s.comments
      && r.store == store[pid := ProjectService.SetTask(p, ij.0, ProjectService.SetSubtask(t, ij.1, r.body.subtask))]
  {
    if pid !in store then Reject(store, 404, MSG_NOT_FOUND)
    else
      var p := store[pid];
      match SubIndices(p, rawMain, rawSub)
      case None => Reject(store, 400, MSG_BAD_INDICES)
      case Some((i, j)) =>
        var t := p.mainTasks[i];
        var s := PatchSubtask(Legacy, t.subtasks[j], SubtaskPatch(f, None));
        Commit(store, pid, ProjectService.SetTask(p, i, ProjectService.SetSubtask(t, j, s)), 200, SubtaskBody(s))
  }

  /** DELETE .../subtasks/:j: splice it out; 200 with the remaining subtasks. */
  function DeleteSubtask(store: Store, pid: ProjectId, rawMain: string, rawSub: string): (r: Response)
    ensures pid !in store ==> r == Reject(store, 404, MSG_NOT_FOUND)
    ensures pid in store && SubIndices(store[pid], rawMain, rawSub).None? ==> r == Reject(store, 400, MSG_BAD_INDICES)
    ensures r.status != 200 ==> r.store == store
    ensures r.status == 200 ==> pid in store && SubIndices(store[pid], rawMain, rawSub).Some?
    ensures r.status == 200 ==> var p, ij := store[pid], SubIndices(store[pid], rawMain, rawSub).value;
      var t := p.mainTasks[ij.0];
      && r.body.SubtasksBody?
      && r.body.subtasks == ProjectService.RemoveAt(t.subtasks, ij.1)
      && r.store == store[pid := ProjectService.SetTask(p, ij.0, t.(subtasks := r.body.subtasks))]
  {
    if pid !in store then Reject(store, 404, MSG_NOT_FOUND)
    else
      var p := store[pid];
      match SubIndices(p, rawMain, rawSub)
      case None => Reject(store, 400, MSG_BAD_INDICES)
      case Some((i, j)) =>
        var t := p.mainTasks[i];
        var subtasks := ProjectService.RemoveAt(t.subtasks, j);
        Commit(store, pid, ProjectService.SetTask(p, i, t.(subtasks := subtasks)), 200, SubtasksBody(subtasks))
  }

  // ------------------------------------------------------------ main tasks

  /** PUT .../mainTasks/:i: the four whitelisted fields, when defined; any
      other key of the body (comments, subtasks) is ignored. 200 with the task. */
  function UpdateMainTask(store: Store, pid: ProjectId, rawIndex: string, f: TaskFields): (r: Response)
    ensures pid !in store ==> r == Reject(store, 404, MSG_NOT_FOUND)
    ensures pid in store && MainIndex(store[pid], rawIndex).None? ==> r == Reject(store, 400, MSG_BAD_MAIN_INDEX)
    ensures r.status != 200 ==> r.store == store
    ensures r.status == 200 ==> pid in store && MainIndex(store[pid], rawIndex).Some?
    ensures r.status == 200 ==> var p, i := store[pid], MainIndex(store[pid], rawIndex).value;
      && r.body.TaskBody?
      && r.body.task == PatchMainTask(Legacy, p.mainTasks[i], TaskPatch(f, None, None))
      && r.body.task.comments == p.mainTasks[i].comments
      && r.body.task.subtasks == p.mainTasks[i].subtasks
      && r.store == store[pid := ProjectService.SetTask(p, i, r.body.task)]
  {
    if pid !in store then Reject(store, 404, MSG_NOT_FOUND)
    else
      var p := store[pid];
      match MainIndex(p, rawIndex)
      case None => Reject(store, 400, MSG_BAD_MAIN_INDEX)
      case Some(i) =>
        var t := PatchMainTask(Legacy, p.mainTasks[i], TaskPatch(f, None, None));
        Commit(store, pid, ProjectService.SetTask(p, i, t), 200, TaskBody(t))
  }

  /** DELETE .../mainTasks/:i: splice it out; 200 with a message. */
  function DeleteMainTask(store: Store, pid: ProjectId, rawIndex: string): (r: Response)
    ensures pid !in store ==> r == Reject(store, 404, MSG_NOT_FOUND)
    ensures pid in store && MainIndex(store[pid], rawIndex).None? ==> r == Reject(store, 400, MSG_BAD_MAIN_INDEX)
    ensures r.status != 200 ==> r.store == store
    ensures r.status == 200 ==> pid in store && MainIndex(store[pid], rawIndex).Some?
    ensures r.status == 200 ==> var p, i := store[pid], MainIndex(store[pid], rawIndex).value;
      && r.body == Message(MSG_MAIN_TASK_DELETED)
      && r.store == store[pid := p.(mainTasks := ProjectService.RemoveAt(p.mainTasks, i))]
  {
    if pid !in store then Reject(store, 404, MSG_NOT_FOUND)
    else
      var p := store[pid];
      match MainIndex(p, rawIndex)
      case None => Reject(store, 400, MSG_BAD_MAIN_INDEX)
      case Some(i) =>
        Commit(store, pid, p.(mainTasks := ProjectService.RemoveAt(p.mainTasks, i)), 200, Message(MSG_MAIN_TASK_DELETED))
  }

  /** GET /:id: lookup by id alone, no owner. */
  function GetProject(store: Store, pid: ProjectId): (r: Response)
    ensures r.store == store
    ensures r.status == 200 <==> pid in store
    ensures pid in store ==> r.body == ProjectBody(store[pid])
    ensures pid !in store ==> r == Reject(store, 404, MSG_NOT_FOUND)
  {
    if pid in store then Response(store, 200, ProjectBody(store[pid])) else Reject(store, 404, MSG_NOT_FOUND)
  }

  // ------------------------------------------------------------ the two variants

  /** A legacy save keeps a valid legacy document valid for any handler whose
      new content is valid: the whitelisted update of a valid task with valid
      values, for instance, always answers 200. */
  lemma LegacyUpdateMainTaskSaves(store: Store, pid: ProjectId, rawIndex: string, f: TaskFields)
    requires pid in store && ValidProject(Legacy, store[pid]) && MainIndex(store[pid], rawIndex).Some?
    requires ValidMainTask(PatchMainTask(Legacy, store[pid].mainTasks[MainIndex(store[pid], rawIndex).value], TaskPatch(f, None, None)))
    ensures UpdateMainTask(store, pid, rawIndex, f).status == 200
  {
    var p, i := store[pid], MainIndex(store[pid], rawIndex).value;
    var t := PatchMainTask(Legacy, p.mainTasks[i], TaskPatch(f, None, None));
    var q := ProjectService.SetTask(p, i, t);
    assert ValidProject(Legacy, q) by {
      forall k | 0 <= k < |q.mainTasks| ensures ValidMainTask(q.mainTasks[k]) {
        if k != i { assert q.mainTasks[k] == p.mainTasks[k]; }
      }
    }
  }

  /** Behind the validator both variants address the same task: when both
      delete, the remaining task lists are equal. */
  lemma DeleteMainTaskAgrees(store: Store, pid: ProjectId, uid: UserId, rawIndex: string)
    requires IsIntMin(rawIndex, 0)
    requires DeleteMainTask(store, pid, rawIndex).status == 200
    requires ProjectService.DeleteMainTask(store, pid, uid, ValidatedIndex(rawIndex)).Ok?
    ensures pid in DeleteMainTask(store, pid, rawIndex).store
    ensures DeleteMainTask(store, pid, rawIndex).store[pid].mainTasks
         == ProjectService.DeleteMainTask(store, pid, uid, ValidatedIndex(rawIndex)).value.store[pid].mainTasks
  {
  }

  /** Behind the validator the legacy route rejects an index exactly when the
      service does, and with the same meaning: past the end of the list. */
  lemma IndexRejectionAgrees(store: Store, pid: ProjectId, uid: UserId, rawIndex: string)
    requires IsIntMin(rawIndex, 0) && ProjectService.Owned(store, pid, uid)
    ensures GetTaskComments(store, pid, rawIndex).status == 400
        <==> ProjectService.GetTaskComments(store, pid, uid, ValidatedIndex(rawIndex)).Err?
  {
  }

  /** The route's `||` defaults and the schema's defaults part ways on an
      empty string: the legacy route turns status "" into not-started, while
      the service keeps "" and its save rejects it. */
  lemma EmptyStatusParts(f: TaskFields)
    requires f.status == Some("")
    ensures NewSubtask(Legacy, RouteDefaults(f)).status == DEFAULT_TASK_STATUS
    ensures !ValidSubtask(NewSubtask(Current, f))
  {
    assert "" !in Constants.TASK_STATUS;
  }

  /** Without empty strings the route's defaults are the schema's defaults. */
  lemma RouteDefaultsMatchSchema(f: TaskFields)
    requires f.description != Some("") && f.status != Some("") && f.priority != Some("")
    ensures NewSubtask(Legacy, RouteDefaults(f)) == NewSubtask(Legacy, f)
  {
  }
}

=== FILE: normalizer.dfy ===
/** The reshape applied to a project structure the AI service returns before
    it is stored: `normalizeProjectData` of the PDF service and its twin inside
    the legacy `saveProject`. Both rewrite `mainTasks` when it is an array,
    default every task and subtask field with `||`, and expand a bare-string
    subtask into a full record; the current one also gives each main task a
    comment log. The input is an untrusted JSON value. */
module Normalizer {
  import opened Wrappers
  import opened JsonValues

  /** Which normaliser: `Current` also emits `comments` on every main task. */
  datatype Variant = Current | Legacy

  const EMPTY: Json := JStr("")
  const NOT_STARTED: Json := JStr("not-started")
  const MEDIUM: Json := JStr("medium")
  const NO_COMMENTS: Json := JArr([])

  /** The keys of a normalised subtask. */
  const SUBTASK_KEYS: set<string> := {"name", "description", "status", "priority"}

  /** The keys of a normalised main task. */
  function TaskKeys(v: Variant): set<string> {
    SUBTASK_KEYS + {"subtasks"} + (if v == Current then {"comments"} else {})
  }

  /** `out` is `given || fallback`, stated as what it means: the given value
      when truthy, the fallback otherwise (so `''`, `0`, `false` and `null`
      are all replaced). */
  predicate Defaulted(out: Json, given: Json, fallback: Json) {
    (Truthy(given) ==> out == given) && (!Truthy(given) ==> out == fallback)
  }

  /** The three defaulted fields every task and subtask shares. */
  function DefaultedFields(item: Json): map<string, Json>
    requires !Nullish(item)
  {
    map["name" := Field(item, "name"),
        "description" := Or(Field(item, "description"), EMPTY),
        "status" := Or(Field(item, "status"), NOT_STARTED),
        "priority" := Or(Field(item, "priority"), MEDIUM)]
  }

  /** The four shared fields of a normalised task or subtask carry the input's
      name and the input's other fields defaulted. */
  predicate NormalisedFrom(out: map<string, Json>, item: Json)
    requires !Nullish(item)
  {
    && "name" in out && "description" in out && "status" in out && "priority" in out
    && out["name"] == Field(item, "name")
    && Defaulted(out["description"], Field(item, "description"), EMPTY)
    && Defaulted(out["status"], Field(item, "status"), NOT_STARTED)
    && Defaulted(out["priority"], Field(item, "priority"), MEDIUM)
  }

  /** `xs.map(f)` where `f` may throw: the first throw ends the map. */
  function MapAll(f: Json -> Result<Json, JsError>, xs: seq<Json>): (r: Result<seq<Json>, JsError>)
    ensures r.Ok? <==> forall k :: 0 <= k < |xs| ==> f(xs[k]).Ok?
    ensures r.Ok? ==> |r.value| == |xs|
    ensures r.Ok? ==> forall k :: 0 <= k < |xs| ==> f(xs[k]) == Ok(r.value[k])
  {
    if |xs| == 0 then Ok([])
    else
      var head :- f(xs[0]);
      var tail :- MapAll(f, xs[1..]);
      assert forall k :: 1 <= k < |xs| ==> xs[k] == xs[1..][k - 1];
      Ok([head] + tail)
  }

  /** A map whose every element is a fixed point of `f` returns its input. */
  lemma MapAllFixed(f: Json -> Result<Json, JsError>, xs: seq<Json>)
    requires forall k :: 0 <= k < |xs| ==> f(xs[k]) == Ok(xs[k])
    ensures MapAll(f, xs) == Ok(xs)
  {
    var r := MapAll(f, xs);
    assert r.Ok?;
    assert forall k :: 0 <= k < |xs| ==> r.value[k] == xs[k] by {
      forall k | 0 <= k < |xs| ensures r.value[k] == xs[k] {
        assert f(xs[k]) == Ok(r.value[k]);
      }
    }
    assert r.value == xs;
  }

  /** One subtask: a string becomes a full record with that name, anything
      else keeps exactly the four fields, defaulted; `null` or `undefined`
      throws. */
  function NormSubtask(sub: Json): (r: Result<Json, JsError>)
    ensures r.Err? <==> Nullish(sub)
    ensures r.Ok? ==> r.value.JObj? && r.value.fields.Keys == SUBTASK_KEYS
    ensures sub.JStr? ==> r == Ok(JObj(map["name" := sub, "description" := EMPTY,
                                           "status" := NOT_STARTED, "priority" := MEDIUM]))
    ensures r.Ok? && !sub.JStr? ==> NormalisedFrom(r.value.fields, sub)
  {
    if Nullish(sub) then Err(TypeError)
    else if sub.JStr? then
      Ok(JObj(map["name" := sub, "description" := EMPTY, "status" := NOT_STARTED, "priority" := MEDIUM]))
    else
      Ok(JObj(DefaultedFields(sub)))
  }

  /** The `subtasks` value of a normalised task: the mapped array, or `[]`
      when the input's `subtasks` is not an array. */
  function NormSubtasks(given: Json): (r: Result<Json, JsError>)
    ensures !given.JArr? ==> r == Ok(JArr([]))
    ensures given.JArr? ==> (r.Ok? <==> forall k :: 0 <= k < |given.items| ==> !Nullish(given.items[k]))
    ensures given.JArr? && r.Ok? ==> r.value.JArr? && |r.value.items| == |given.items|
    ensures given.JArr? && r.Ok? ==>
      forall k :: 0 <= k < |given.items| ==> NormSubtask(given.items[k]) == Ok(r.value.items[k])
  {
    if given.JArr? then
      var subs :- MapAll(NormSubtask, given.items);
      Ok(JArr(subs))
    else
      Ok(JArr([]))
  }

  /** One main task. */
  function NormTask(task: Json, v: Variant): (r: Result<Json, JsError>)
    ensures r.Err? <==> Nullish(task) || NormSubtasks(Field(task, "subtasks")).Err?
    ensures r.Ok? ==> r.value.JObj? && r.value.fields.Keys == TaskKeys(v)
    ensures r.Ok? ==> NormalisedFrom(r.value.fields, task)
    ensures r.Ok? ==> Ok(r.value.fields["subtasks"]) == NormSubtasks(Field(task, "subtasks"))
    ensures r.Ok? && v == Current ==> Defaulted(r.value.fields["comments"], Field(task, "comments"), NO_COMMENTS)
  {
    if Nullish(task) then Err(TypeError)
    else
      var subs :- NormSubtasks(Field(task, "subtasks"));
      var base := DefaultedFields(task)["subtasks" := subs];
      Ok(JObj(if v == Current then base["comments" := Or(Field(task, "comments"), NO_COMMENTS)] else base))
  }

  function TaskMapper(v: Variant): Json -> Result<Json, JsError> {
    t => NormTask(t, v)
  }

  /** The whole structure: `mainTasks` is rewritten when it is an array and
      every other key passes through; anything else is returned as given.
      Reading `mainTasks` off `null` or `undefined` throws. */
  function Normalize(pd: Json, v: Variant): (r: Result<Json, JsError>)
    ensures Nullish(pd) ==> r.Err?
    ensures !Nullish(pd) && !Field(pd, "mainTasks").JArr? ==> r == Ok(pd)
    ensures !Nullish(pd) && Field(pd, "mainTasks").JArr? ==> pd.JObj? && "mainTasks" in pd.fields
  {
    if Nullish(pd) then Err(TypeError)
    else
      var mt := Field(pd, "mainTasks");
      if !mt.JArr? then Ok(pd)
      else
        var tasks :- MapAll(TaskMapper(v), mt.items);
        Ok(JObj(pd.fields["mainTasks" := JArr(tasks)]))
  }

  /** When `mainTasks` is an array, the result has the same keys, every key
      but `mainTasks` keeps its value, and the tasks keep their number and
      order, each normalised on its own. The rewrite fails exactly when some
      task or some subtask of an array `subtasks` is `null` or `undefined`. */
  lemma NormalizeRewritesOnlyTasks(pd: Json, v: Variant)
    requires !Nullish(pd) && Field(pd, "mainTasks").JArr?
    ensures Normalize(pd, v).Ok? <==>
      forall k :: 0 <= k < |pd.fields["mainTasks"].items| ==> NormTask(pd.fields["mainTasks"].items[k], v).Ok?
    ensures Normalize(pd, v).Ok? ==>
      var out := Normalize(pd, v).value;
      var given := pd.fields["mainTasks"].items;
      && out.JObj? && out.fields.Keys == pd.fields.Keys
      && (forall key :: key in pd.fields && key != "mainTasks" ==> out.fields[key] == pd.fields[key])
      && out.fields["mainTasks"].JArr?
      && |out.fields["mainTasks"].items| == |given|
      && (forall k :: 0 <= k < |given| ==> NormTask(given[k], v) == Ok(out.fields["mainTasks"].items[k]))
  {
    var given := pd.fields["mainTasks"].items;
    var m := MapAll(TaskMapper(v), given);
    assert forall k :: 0 <= k < |given| ==> TaskMapper(v)(given[k]) == NormTask(given[k], v);
  }

  /** A task or subtask that is `null` or `undefined` makes the whole rewrite
      throw. */
  lemma NullTaskThrows(pd: Json, v: Variant, k: int)
    requires !Nullish(pd) && Field(pd, "mainTasks").JArr?
    requires 0 <= k < |pd.fields["mainTasks"].items| && Nullish(pd.fields["mainTasks"].items[k])
    ensures Normalize(pd, v).Err?
  {
    NormalizeRewritesOnlyTasks(pd, v);
  }

  // ---- Idempotence --------------------------------------------------------

  lemma NormSubtaskIdempotent(sub: Json)
    requires NormSubtask(sub).Ok?
    ensures NormSubtask(NormSubtask(sub).value) == NormSubtask(sub)
  {
  }

  lemma NormSubtasksIdempotent(given: Json)
    requires NormSubtasks(given).Ok?
    ensures NormSubtasks(NormSubtasks(given).value) == NormSubtasks(given)
  {
    var out := NormSubtasks(given).value;
    if given.JArr? {
      forall k | 0 <= k < |out.items|
        ensures NormSubtask(out.items[k]) == Ok(out.items[k])
      {
        NormSubtaskIdempotent(given.items[k]);
      }
      MapAllFixed(NormSubtask, out.items);
    }
  }

  lemma NormTaskIdempotent(task: Json, v: Variant)
    requires NormTask(task, v).Ok?
    ensures NormTask(NormTask(task, v).value, v) == NormTask(task, v)
  {
    var out := NormTask(task, v).value;
    NormSubtasksIdempotent(Field(task, "subtasks"));
    assert Field(out, "subtasks") == NormSubtasks(Field(task, "subtasks")).value;
    var again := NormTask(out, v);
    assert again.Ok?;
    assert again.value.fields == out.fields;
  }

  /** Normalising a normalised structure changes nothing. */
  lemma NormalizeIdempotent(pd: Json, v: Variant)
    requires Normalize(pd, v).Ok?
    ensures Normalize(Normalize(pd, v).value, v) == Normalize(pd, v)
  {
    if Field(pd, "mainTasks").JArr? {
      NormalizeRewritesOnlyTasks(pd, v);
      var out := Normalize(pd, v).value;
      var tasks := out.fields["mainTasks"].items;
      var given := pd.fields["mainTasks"].items;
      forall k | 0 <= k < |tasks|
        ensures TaskMapper(v)(tasks[k]) == Ok(tasks[k])
      {
        NormTaskIdempotent(given[k], v);
      }
      MapAllFixed(TaskMapper(v), tasks);
      assert out.fields["mainTasks" := JArr(tasks)] == out.fields;
    }
  }

  // ---- The two normalisers agree ----------------------------------------

  /** The legacy normaliser produces the current one's task with the
      `comments` key taken out, and fails on the same inputs. */
  lemma LegacyTaskDropsOnlyComments(task: Json)
    ensures NormTask(task, Legacy).Ok? <==> NormTask(task, Current).Ok?
    ensures NormTask(task, Legacy).Ok? ==>
      NormTask(task, Legacy).value.fields == NormTask(task, Current).value.fields - {"comments"}
  {
    if NormTask(task, Legacy).Ok? {
      var a := NormTask(task, Legacy).value.fields;
      var b := NormTask(task, Current).value.fields - {"comments"};
      assert a.Keys == b.Keys;
    }
  }

  /** Lifted to the whole structure: both normalisers fail on the same
      inputs and lay out the same tasks, which differ only in `comments`. */
  lemma LegacyNormalizeDropsOnlyComments(pd: Json)
    ensures Normalize(pd, Legacy).Ok? <==> Normalize(pd, Current).Ok?
    ensures Normalize(pd, Legacy).Ok? && Field(pd, "mainTasks").JArr? ==>
      var a := Normalize(pd, Legacy).value.fields["mainTasks"].items;
      var b := Normalize(pd, Current).value.fields["mainTasks"].items;
      && |a| == |b|
      && forall k :: 0 <= k < |a| ==> a[k].JObj? && b[k].JObj? && a[k].fields == b[k].fields - {"comments"}
  {
    if !Nullish(pd) && Field(pd, "mainTasks").JArr? {
      NormalizeRewritesOnlyTasks(pd, Legacy);
      NormalizeRewritesOnlyTasks(pd, Current);
      var given := pd.fields["mainTasks"].items;
      forall k | 0 <= k < |given|
        ensures NormTask(given[k], Legacy).Ok? <==> NormTask(given[k], Current).Ok?
        ensures NormTask(given[k], Legacy).Ok? ==>
          NormTask(given[k], Legacy).value.fields == NormTask(given[k], Current).value.fields - {"comments"}
      {
        LegacyTaskDropsOnlyComments(given[k]);
      }
    }
  }

  // ---- Worked cases ------------------------------------------------------

  /** The shape the legacy prompt asks for — subtasks as bare strings — comes
      out as full records, and an empty description is replaced like a
      missing one. */
  lemma BareStringSubtaskExpands(v: Variant)
    ensures
      var task := JObj(map["name" := JStr("Plan"), "description" := EMPTY, "subtasks" := JArr([JStr("Draft")])]);
      var out := NormTask(task, v);
      && out.Ok?
      && out.value.fields["description"] == EMPTY
      && out.value.fields["status"] == NOT_STARTED
      && out.value.fields["subtasks"] == JArr([JObj(map["name" := JStr("Draft"), "description" := EMPTY,
                                                        "status" := NOT_STARTED, "priority" := MEDIUM])])
  {
    var task := JObj(map["name" := JStr("Plan"), "description" := EMPTY, "subtasks" := JArr([JStr("Draft")])]);
    var given := JArr([JStr("Draft")]);
    assert Field(task, "subtasks") == given;
    assert !Nullish(given.items[0]);
    var subs := NormSubtasks(given);
    var expanded := JObj(map["name" := JStr("Draft"), "description" := EMPTY,
                             "status" := NOT_STARTED, "priority" := MEDIUM]);
    assert NormSubtask(JStr("Draft")) == Ok(expanded);
    assert subs.Ok? && subs.value.items == [expanded];
    assert !Truthy(Field(task, "description")) && !Truthy(Field(task, "status"));
  }

  /** Comments carried by an object subtask are dropped. */
  lemma SubtaskCommentsDropped(sub: Json)
    requires sub.JObj? && "comments" in sub.fields
    ensures NormSubtask(sub).Ok? && "comments" !in NormSubtask(sub).value.fields
  {
  }
}

=== FILE: pdf.dfy ===
/** The string and error logic around an uploaded PDF, in both generations:
    the text check after parsing, the candidate-text guard on the AI answer,
    the code-fence strip and trim, the required-field check, and how each
    generation turns a failure into the error it throws. The PDF parser, the
    HTTP call and `JSON.parse` are not modelled: their outcomes are inputs. */
module PdfPipeline {
  import opened Wrappers
  import opened Constants
  import opened Text
  import opened JsonValues
  import Normalizer

  // ------------------------------------------------------------ the PDF text

  /** What reading and parsing the file produced: the parser's `text`
      property (absent as `None`), or a failure with its message. */
  datatype PdfRead = Parsed(text: Option<string>) | ReadFailed(message: string)

  const INVALID_STRUCTURE: string := "Invalid PDF structure"
  const UNKNOWN_COMPRESSION: string := "Unknown compression method"

  /** A parser message that marks the file as not a PDF at all. */
  predicate NamesBadPdf(message: string) {
    Contains(message, INVALID_STRUCTURE) || Contains(message, UNKNOWN_COMPRESSION)
  }

  /** `!text || text.trim().length === 0`. */
  predicate NoText(text: Option<string>) {
    text.None? || Trim(text.value) == ""
  }

  const MSG_NOT_A_PDF: string := "The uploaded file is not a valid PDF or uses an unsupported format"

  /** `processPDF` of the PDF service: the text when it holds anything but
      white space; otherwise a 400 whose message tells an image-only PDF, a
      file that is not a PDF, and any other parser failure apart. */
  function ProcessPdf(read: PdfRead): (r: Result<string, ApiError>)
    ensures r.Ok? <==> read.Parsed? && read.text.Some? && !AllSpace(read.text.value)
    ensures r.Ok? ==> r.value == read.text.value
    ensures r.Err? ==> r.error.statusCode == BAD_REQUEST
    ensures read.Parsed? && r.Err? ==> r.error.message == MSG_PDF_NO_TEXT
    ensures read.ReadFailed? && NamesBadPdf(read.message) ==> r.error.message == MSG_NOT_A_PDF
    ensures read.ReadFailed? && !NamesBadPdf(read.message) ==> r.error.message == MSG_PDF_PARSING_FAILED
  {
    match read
    case ReadFailed(m) =>
      Err(ApiError(BAD_REQUEST, if NamesBadPdf(m) then MSG_NOT_A_PDF else MSG_PDF_PARSING_FAILED))
    case Parsed(t) =>
      if t.Some? then TrimEmptyIff(t.value); NoTextResult(t)
      else NoTextResult(t)
  }

  function NoTextResult(t: Option<string>): Result<string, ApiError> {
    if NoText(t) then Err(ApiError(BAD_REQUEST, MSG_PDF_NO_TEXT)) else Ok(t.value)
  }

  // ------------------------------------------------------------- the answer

  /** What the AI call produced: a rejection with its message, or the
      response body. */
  datatype AiCall = CallFailed(message: string) | Answered(data: Json)

  /** `v[0]` on a value that is neither `null` nor `undefined`: the first
      element of an array, the first character of a string, the `"0"` key of
      an object, `undefined` otherwise. */
  function Index0(v: Json): Json
    requires !Nullish(v)
  {
    match v
    case JArr(xs) => if |xs| > 0 then xs[0] else JUndefined
    case JStr(s) => if |s| > 0 then JStr([s[0]]) else JUndefined
    case JObj(m) => if "0" in m then m["0"] else JUndefined
    case _ => JUndefined
  }

  /** `v?.key` and `v?.[0]`. */
  function OptGet(v: Json, key: string): Json {
    if Nullish(v) then JUndefined else Field(v, key)
  }

  function OptIndex0(v: Json): Json {
    if Nullish(v) then JUndefined else Index0(v)
  }

  /** Why extracting the structure stopped, before each generation turns it
      into its own error. */
  datatype Failure =
    | CallError(message: string)    // the HTTP call rejected
    | NoCandidateText               // the guard on the candidate's text failed
    | ScriptError                   // a TypeError: a property read on null or undefined, or `replace` on a non-string
    | SyntaxError(message: string)  // `JSON.parse` rejected the cleaned text
    | MissingFields                 // `title` or `mainTasks` is falsy

  /** `data.candidates?.[0]?.content?.parts?.[0]?.text`: the candidate text,
      `undefined` wherever the path breaks. */
  function CandidatePath(data: Json): Json
    requires !Nullish(data)
  {
    OptGet(OptIndex0(OptGet(OptGet(OptIndex0(Field(data, "candidates")), "content"), "parts")), "text")
  }

  /** The current guard, with optional chaining throughout: anything missing
      along `candidates[0].content.parts[0].text` reads as no text. */
  function CurrentCandidateText(data: Json): (r: Result<Json, Failure>)
    ensures r.Ok? <==> !Nullish(data) && Truthy(CandidatePath(data))
    ensures r.Ok? ==> r.value == CandidatePath(data)
    ensures Nullish(data) ==> r == Err(ScriptError)
    ensures !Nullish(data) && !Truthy(CandidatePath(data)) ==> r == Err(NoCandidateText)
  {
    if Nullish(data) then Err(ScriptError)
    else
      var candidate := OptIndex0(Field(data, "candidates"));
      var text := OptGet(OptIndex0(OptGet(OptGet(candidate, "content"), "parts")), "text");
      if Truthy(text) then Ok(text) else Err(NoCandidateText)
  }

  /** The legacy guard, with plain property reads: a missing `candidates` or
      an empty-but-truthy `parts` throws instead. */
  function LegacyCandidateText(data: Json): (r: Result<Json, Failure>)
    ensures r.Ok? <==> !Nullish(data) && Truthy(CandidatePath(data))
    ensures r.Ok? ==> r.value == CandidatePath(data)
    ensures (Nullish(data) || Nullish(Field(data, "candidates"))) ==> r == Err(ScriptError)
  {
    if Nullish(data) then Err(ScriptError)
    else
      var candidates := Field(data, "candidates");
      if Nullish(candidates) then Err(ScriptError)
      else
        var candidate := Index0(candidates);
        if !Truthy(candidate) then Err(NoCandidateText)
        else
          var content := Field(candidate, "content");
          if !Truthy(content) then Err(NoCandidateText)
          else
            var parts := Field(content, "parts");
            if !Truthy(parts) then Err(NoCandidateText)
            else
              var first := Index0(parts);
              if Nullish(first) then Err(ScriptError)
              else
                var text := Field(first, "text");
                if Truthy(text) then Ok(text) else Err(NoCandidateText)
  }

  /** Where the two guards agree: on every answer that passes one, the other
      passes too and reads the same text. */
  lemma CandidateGuardsAgree(data: Json)
    ensures CurrentCandidateText(data).Ok? <==> LegacyCandidateText(data).Ok?
    ensures CurrentCandidateText(data).Ok? ==> CurrentCandidateText(data) == LegacyCandidateText(data)
  {
    if !Nullish(data) {
      var candidates := Field(data, "candidates");
      var candidate := OptIndex0(candidates);
      var content := OptGet(candidate, "content");
      var parts := OptGet(content, "parts");
      var first := OptIndex0(parts);
      if Truthy(OptGet(first, "text")) {
        assert !Nullish(first) && !Nullish(parts) && !Nullish(content) && !Nullish(candidate);
        assert Truthy(parts) && Truthy(content) && Truthy(candidate);
      }
    }
  }

  /** Where they differ: an answer with no `candidates` is an invalid
      response to the current guard but a TypeError to the legacy one. */
  lemma MissingCandidatesDiffer()
    ensures CurrentCandidateText(JObj(map[])) == Err(NoCandidateText)
    ensures LegacyCandidateText(JObj(map[])) == Err(ScriptError)
  {
  }

  /** `rawText.replace(/```json|```/g, '').trim()`. */
  function CleanReply(raw: string): (r: string)
    ensures !Contains(r, FENCE)
    ensures |r| > 0 ==> !IsSpace(r[0]) && !IsSpace(r[|r| - 1])
    ensures |r| <= |raw|
  {
    StripFencesLeavesNoFence(raw);
    TrimmedKeepsNoFence(StripFences(raw));
    Trim(StripFences(raw))
  }

  /** Trimming a text that holds no fence leaves none. */
  lemma TrimmedKeepsNoFence(s: string)
    requires !Contains(s, FENCE)
    ensures !Contains(Trim(s), FENCE)
  {
    NotContainsSlice(s, FENCE, TrimOffset(s), TrimOffset(s) + |Trim(s)|);
  }

  /** An answer wrapped the way a model usually wraps JSON reaches the parser
      as the bare body, trimmed. */
  lemma CleanReplyUnwrapsBlock(body: string)
    requires !Contains(body, FENCE)
    ensures CleanReply(FENCE_JSON + body + FENCE) == Trim(body)
  {
    StripFencesUnwrapsBlock(body);
  }

  /** Cleaning is idempotent: a cleaned text has no fences and no outer
      white space left. */
  lemma CleanReplyIdempotent(raw: string)
    ensures CleanReply(CleanReply(raw)) == CleanReply(raw)
  {
    var c := CleanReply(raw);
    var s := StripFences(raw);
    StripFencesLeavesNoFence(raw);
    NotContainsSlice(s, FENCE, TrimOffset(s), TrimOffset(s) + |c|);
    StripFencesFixpoint(c);
    TrimIdempotent(StripFences(raw));
  }

  /** `!structure.title || !structure.mainTasks` fails on a parsed value. */
  predicate HasRequiredFields(v: Json) {
    !Nullish(v) && Truthy(Field(v, "title")) && Truthy(Field(v, "mainTasks"))
  }

  /** From the candidate text to the structure: clean, parse, and require a
      truthy `title` and `mainTasks`. `JSON.parse` is the parameter `parse`. */
  function StructureFrom(text: Json, parse: string -> Result<Json, string>): (r: Result<Json, Failure>)
    ensures r.Ok? <==> text.JStr? && parse(CleanReply(text.s)).Ok? && HasRequiredFields(parse(CleanReply(text.s)).value)
    ensures r.Ok? ==> parse(CleanReply(text.s)) == Ok(r.value)
    ensures text.JStr? && parse(CleanReply(text.s)).Err? ==> r == Err(SyntaxError(parse(CleanReply(text.s)).error))
  {
    if !text.JStr? then Err(ScriptError)
    else
      match parse(CleanReply(text.s))
      case Err(m) => Err(SyntaxError(m))
      case Ok(v) =>
        if Nullish(v) then Err(ScriptError)
        else if !Truthy(Field(v, "title")) || !Truthy(Field(v, "mainTasks")) then Err(MissingFields)
        else Ok(v)
  }

  /** The extraction shared by both generations, differing only in the
      candidate-text guard. */
  function Extract(reply: AiCall, parse: string -> Result<Json, string>, v: Normalizer.Variant): (r: Result<Json, Failure>)
    ensures reply.CallFailed? ==> r == Err(CallError(reply.message))
    ensures r.Ok? ==> HasRequiredFields(r.value)
    ensures r.Ok? <==>
      && reply.Answered? && !Nullish(reply.data) && Truthy(CandidatePath(reply.data))
      && StructureFrom(CandidatePath(reply.data), parse).Ok?
    ensures reply.Answered? && !Nullish(reply.data) && Truthy(CandidatePath(reply.data)) ==>
      r == StructureFrom(CandidatePath(reply.data), parse)
    ensures (v == Normalizer.Current && reply.Answered? && !Nullish(reply.data)
             && !Truthy(CandidatePath(reply.data))) ==> r == Err(NoCandidateText)
  {
    match reply
    case CallFailed(m) => Err(CallError(m))
    case Answered(data) =>
      var text :- if v == Normalizer.Current then CurrentCandidateText(data) else LegacyCandidateText(data);
      StructureFrom(text, parse)
  }

  /** Both generations accept the same answers and return the same
      structure. */
  lemma ExtractionsAgree(reply: AiCall, parse: string -> Result<Json, string>)
    ensures Extract(reply, parse, Normalizer.Current).Ok? <==> Extract(reply, parse, Normalizer.Legacy).Ok?
    ensures Extract(reply, parse, Normalizer.Current).Ok? ==>
      Extract(reply, parse, Normalizer.Current) == Extract(reply, parse, Normalizer.Legacy)
  {
    if reply.Answered? {
      CandidateGuardsAgree(reply.data);
    }
  }

  // ---------------------------------------------------- current generation

  const MSG_MISSING_FIELDS: string := "The parsed project structure is missing required fields"

  /** How `extractProjectStructure` reports each failure: every one is a 500. */
  function CurrentError(f: Failure): (e: ApiError)
    ensures e.statusCode == INTERNAL_SERVER_ERROR
    ensures e.message == MSG_AI_INVALID_RESPONSE <==> f == NoCandidateText
    ensures e.message == MSG_MISSING_FIELDS <==> f == MissingFields
  {
    match f
    case NoCandidateText => ApiError(INTERNAL_SERVER_ERROR, MSG_AI_INVALID_RESPONSE)
    case MissingFields => ApiError(INTERNAL_SERVER_ERROR, MSG_MISSING_FIELDS)
    case _ => ApiError(INTERNAL_SERVER_ERROR, MSG_AI_SERVICE_ERROR)
  }

  /** The answer's candidate text when it is a non-empty string: the only
      kind of candidate `replace` can clean. */
  function AnswerText(reply: AiCall): Option<string> {
    if reply.Answered? && !Nullish(reply.data) && CandidatePath(reply.data).JStr?
       && CandidatePath(reply.data).s != ""
    then Some(CandidatePath(reply.data).s)
    else None
  }

  /** `extractProjectStructure`: the cleaned candidate text parsed, when the
      parse succeeds and the result has a title and tasks; a 500 otherwise,
      with the message that tells the failures apart. */
  function ExtractProjectStructure(reply: AiCall, parse: string -> Result<Json, string>): (r: Result<Json, ApiError>)
    ensures r.Ok? <==>
      && AnswerText(reply).Some?
      && parse(CleanReply(AnswerText(reply).value)).Ok?
      && HasRequiredFields(parse(CleanReply(AnswerText(reply).value)).value)
    ensures r.Ok? ==> parse(CleanReply(AnswerText(reply).value)) == Ok(r.value)
    ensures reply.CallFailed? ==> r == Err(ApiError(INTERNAL_SERVER_ERROR, MSG_AI_SERVICE_ERROR))
    ensures reply.Answered? && !Nullish(reply.data) && !Truthy(CandidatePath(reply.data)) ==>
      r == Err(ApiError(INTERNAL_SERVER_ERROR, MSG_AI_INVALID_RESPONSE))
    ensures AnswerText(reply).Some? && parse(CleanReply(AnswerText(reply).value)).Err? ==>
      r == Err(ApiError(INTERNAL_SERVER_ERROR, MSG_AI_SERVICE_ERROR))
    ensures
      (&& AnswerText(reply).Some? && parse(CleanReply(AnswerText(reply).value)).Ok?
       && !Nullish(parse(CleanReply(AnswerText(reply).value)).value)
       && !HasRequiredFields(parse(CleanReply(AnswerText(reply).value)).value)) ==>
      r == Err(ApiError(INTERNAL_SERVER_ERROR, MSG_MISSING_FIELDS))
    ensures r.Err? ==> r.error.statusCode == INTERNAL_SERVER_ERROR
    ensures r.Ok? ==> HasRequiredFields(r.value)
    ensures r.Ok? ==>
      && reply.Answered?
      && CurrentCandidateText(reply.data).Ok?
      && CurrentCandidateText(reply.data).value.JStr?
      && parse(CleanReply(CurrentCandidateText(reply.data).value.s)) == Ok(r.value)
  {
    match Extract(reply, parse, Normalizer.Current)
    case Ok(v) => Ok(v)
    case Err(f) => Err(CurrentError(f))
  }

  /** A failure anywhere in `processAndExtract`: an `ApiError` from the first
      two steps or a TypeError from the normaliser. */
  datatype PipelineError = Api(error: ApiError) | Script(jsError: JsError)

  /** `processAndExtract`: text, then structure, then the normaliser. The
      text only feeds the prompt, so the answer is an input of its own. */
  function ProcessAndExtract(read: PdfRead, reply: AiCall, parse: string -> Result<Json, string>): (r: Result<Json, PipelineError>)
    ensures ProcessPdf(read).Err? ==> r == Err(Api(ProcessPdf(read).error))
    ensures ProcessPdf(read).Ok? && ExtractProjectStructure(reply, parse).Err? ==>
      r == Err(Api(ExtractProjectStructure(reply, parse).error))
    ensures r.Ok? ==>
      && ExtractProjectStructure(reply, parse).Ok?
      && Normalizer.Normalize(ExtractProjectStructure(reply, parse).value, Normalizer.Current) == Ok(r.value)
    ensures ProcessPdf(read).Ok? && ExtractProjectStructure(reply, parse).Ok? ==>
      match Normalizer.Normalize(ExtractProjectStructure(reply, parse).value, Normalizer.Current)
      case Ok(n) => r == Ok(n)
      case Err(e) => r == Err(Script(e))
  {
    match ProcessPdf(read)
    case Err(e) => Err(Api(e))
    case Ok(_) =>
      match ExtractProjectStructure(reply, parse)
      case Err(e) => Err(Api(e))
      case Ok(structure) =>
        match Normalizer.Normalize(structure, Normalizer.Current)
        case Err(e) => Err(Script(e))
        case Ok(n) => Ok(n)
  }

  /** What comes out of the pipeline still has its title and a truthy
      `mainTasks`, and normalising it again changes nothing. */
  lemma PipelineOutputIsNormal(read: PdfRead, reply: AiCall, parse: string -> Result<Json, string>)
    requires ProcessAndExtract(read, reply, parse).Ok?
    ensures HasRequiredFields(ProcessAndExtract(read, reply, parse).value)
    ensures Normalizer.Normalize(ProcessAndExtract(read, reply, parse).value, Normalizer.Current)
      == Ok(ProcessAndExtract(read, reply, parse).value)
  {
    var s := ExtractProjectStructure(reply, parse).value;
    assert HasRequiredFields(s);
    assert Normalizer.Normalize(s, Normalizer.Current) == Ok(ProcessAndExtract(read, reply, parse).value);
    Normalizer.NormalizeIdempotent(s, Normalizer.Current);
    NormalizeKeepsRequiredFields(s);
  }

  /** The normaliser keeps a structure's `title` and leaves `mainTasks`
      truthy. */
  lemma NormalizeKeepsRequiredFields(s: Json)
    requires HasRequiredFields(s) && Normalizer.Normalize(s, Normalizer.Current).Ok?
    ensures HasRequiredFields(Normalizer.Normalize(s, Normalizer.Current).value)
  {
    if Field(s, "mainTasks").JArr? {
      Normalizer.NormalizeRewritesOnlyTasks(s, Normalizer.Current);
    }
  }

  // ----------------------------------------------------- legacy generation

  /** What the legacy `processPDF` throws: an `Error` with a message, or a
      TypeError (whose engine message never names a PDF problem). */
  datatype LegacyError = Thrown(message: string) | ThrownTypeError

  const LEGACY_NO_TEXT: string :=
    "The PDF appears to be image-based or contains no extractable text. Please upload a text-based PDF."
  const LEGACY_NO_CANDIDATE: string := "The response from Gemini API does not include a valid project structure."
  const LEGACY_MISSING_FIELDS: string := "The parsed project structure is missing required fields."
  const LEGACY_NOT_A_PDF: string :=
    "The uploaded file is not a valid PDF or uses an unsupported format. Please try a different PDF file."

  function LegacyThrown(f: Failure): LegacyError {
    match f
    case CallError(m) => Thrown(m)
    case NoCandidateText => Thrown(LEGACY_NO_CANDIDATE)
    case ScriptError => ThrownTypeError
    case SyntaxError(m) => Thrown(m)
    case MissingFields => Thrown(LEGACY_MISSING_FIELDS)
  }

  /** The legacy catch block: a message naming a PDF problem is replaced,
      everything else is rethrown as it was. */
  function LegacyRemap(e: LegacyError): (r: LegacyError)
    ensures e.Thrown? && NamesBadPdf(e.message) ==> r == Thrown(LEGACY_NOT_A_PDF)
    ensures !(e.Thrown? && NamesBadPdf(e.message)) ==> r == e
  {
    if e.Thrown? && NamesBadPdf(e.message) then Thrown(LEGACY_NOT_A_PDF) else e
  }

  /** The legacy `processPDF`, text check and extraction in one `try`. */
  function LegacyProcessPdf(read: PdfRead, reply: AiCall, parse: string -> Result<Json, string>): (r: Result<Json, LegacyError>)
    ensures r.Ok? <==> ProcessPdf(read).Ok? && Extract(reply, parse, Normalizer.Legacy).Ok?
    ensures r.Ok? ==> Extract(reply, parse, Normalizer.Legacy) == Ok(r.value) && HasRequiredFields(r.value)
    ensures read.Parsed? && NoText(read.text) ==> r == Err(LegacyRemap(Thrown(LEGACY_NO_TEXT)))
    ensures read.ReadFailed? ==> r == Err(LegacyRemap(Thrown(read.message)))
    ensures ProcessPdf(read).Ok? && Extract(reply, parse, Normalizer.Legacy).Err? ==>
      r == Err(LegacyRemap(LegacyThrown(Extract(reply, parse, Normalizer.Legacy).error)))
  {
    match read
    case ReadFailed(m) => Err(LegacyRemap(Thrown(m)))
    case Parsed(t) =>
      if t.Some? then TrimEmptyIff(t.value); LegacyAfterText(t, reply, parse)
      else LegacyAfterText(t, reply, parse)
  }

  function LegacyAfterText(t: Option<string>, reply: AiCall, parse: string -> Result<Json, string>): Result<Json, LegacyError> {
    if NoText(t) then Err(LegacyRemap(Thrown(LEGACY_NO_TEXT)))
    else
      match Extract(reply, parse, Normalizer.Legacy)
      case Ok(v) => Ok(v)
      case Err(f) => Err(LegacyRemap(LegacyThrown(f)))
  }

  /** The two generations accept the same uploads and extract the same
      structure from them. */
  lemma GenerationsAcceptAlike(read: PdfRead, reply: AiCall, parse: string -> Result<Json, string>)
    ensures LegacyProcessPdf(read, reply, parse).Ok? <==>
      ProcessPdf(read).Ok? && ExtractProjectStructure(reply, parse).Ok?
    ensures LegacyProcessPdf(read, reply, parse).Ok? ==>
      LegacyProcessPdf(read, reply, parse).value == ExtractProjectStructure(reply, parse).value
  {
    ExtractionsAgree(reply, parse);
  }

  /** The legacy `saveProject` before the document is built: the legacy
      normaliser. */
  function LegacySaveShape(structure: Json): (r: Result<Json, JsError>)
    ensures r.Ok? && HasRequiredFields(structure) ==> HasRequiredFields(r.value)
    ensures r.Ok? ==> Normalizer.Normalize(r.value, Normalizer.Legacy) == r
  {
    var r := Normalizer.Normalize(structure, Normalizer.Legacy);
    if r.Ok? then
      Normalizer.NormalizeIdempotent(structure, Normalizer.Legacy);
      if !Nullish(structure) && Field(structure, "mainTasks").JArr? then
        Normalizer.NormalizeRewritesOnlyTasks(structure, Normalizer.Legacy); r
      else r
    else r
  }
}

=== FILE: project.dfy ===
/** The project / main task / subtask / comment tree shared by the current
    schema (src/models/Project.js) and the legacy one (entities/Project.js),
    with schema defaults, string setters, the schema validation run on save,
    the pre-save completion rule and the completion percentage. */
module ProjectModel {
  import opened Wrappers
  import opened Constants
  import Text
  import Arith

  type UserId = string

  /** Which of the two Mongoose schemas governs a project document. */
  datatype Schema = Current | Legacy

  /** A required string that is absent is modelled as "", which the schema's
      `required` rule rejects exactly as it rejects a missing value. */
  datatype Comment = Comment(author: string, content: string, timestamp: int)

  datatype Subtask = Subtask(
    name: string,
    description: string,
    status: string,
    priority: string,
    comments: seq<Comment>)

  datatype MainTask = MainTask(
    name: string,
    description: string,
    status: string,
    priority: string,
    comments: seq<Comment>,
    subtasks: seq<Subtask>)

  /** `createdBy` and `dueDate` exist only in the current schema; legacy
      documents carry `None` there. */
  datatype Project = Project(
    title: string,
    description: string,
    status: string,
    dueDate: Option<int>,
    createdBy: Option<UserId>,
    mainTasks: seq<MainTask>)

  const DEFAULT_TASK_STATUS: string := "not-started"
  const DEFAULT_PRIORITY: string := "medium"
  const COMPLETED: string := "completed"

  /** The legacy project status enumeration: it has `finished`, not `completed`. */
  const LEGACY_PROJECT_STATUS: set<string> := {"pending", "in-progress", "finished"}

  function ProjectStatusValues(schema: Schema): set<string> {
    match schema
    case Current => PROJECT_STATUS
    case Legacy => LEGACY_PROJECT_STATUS
  }

  function DefaultProjectStatus(schema: Schema): (r: string)
    ensures r in ProjectStatusValues(schema)
  {
    match schema
    case Current => "in-progress"
    case Legacy => "pending"
  }

  /** The two schemas disagree on the project status vocabulary: the legacy one
      cannot hold `completed`, the current one cannot hold `finished`. */
  lemma ProjectStatusVocabularies()
    ensures COMPLETED in ProjectStatusValues(Current) && COMPLETED !in ProjectStatusValues(Legacy)
    ensures "finished" in ProjectStatusValues(Legacy) && "finished" !in ProjectStatusValues(Current)
    ensures DefaultProjectStatus(Current) == "in-progress" && DefaultProjectStatus(Legacy) == "pending"
    ensures DEFAULT_TASK_STATUS in TASK_STATUS && DEFAULT_PRIORITY in PRIORITY
  {
  }

  /** The string setter of name, title, description, author and content: the
      current schema declares `trim: true`, the legacy one does not. */
  function SetString(schema: Schema, s: string): (r: string)
    ensures schema == Legacy ==> r == s
    ensures schema == Current ==> r == Text.Trim(s)
  {
    if schema == Current then Text.Trim(s) else s
  }

  /** Request fields for a task or subtask; `None` is `undefined`. */
  datatype TaskFields = TaskFields(
    name: Option<string>,
    description: Option<string>,
    status: Option<string>,
    priority: Option<string>)

  datatype CommentFields = CommentFields(
    author: Option<string>,
    content: Option<string>,
    timestamp: Option<int>)

  /** A comment cast from request fields: the timestamp defaults to the clock
      reading `now` when the request gives none. */
  function NewComment(schema: Schema, f: CommentFields, now: int): (c: Comment)
    ensures f.timestamp.None? ==> c.timestamp == now
    ensures f.timestamp.Some? ==> c.timestamp == f.timestamp.value
  {
    Comment(SetString(schema, f.author.GetOr("")), SetString(schema, f.content.GetOr("")), f.timestamp.GetOr(now))
  }

  /** Mongoose defaults apply only to `undefined` fields: an explicit "" is kept. */
  function DefaultIfUndefined(v: Option<string>, default: string): (r: string)
    ensures v.None? ==> r == default
    ensures v.Some? ==> r == v.value
  {
    v.GetOr(default)
  }

  /** A subtask cast from request fields with the schema defaults. */
  function NewSubtask(schema: Schema, f: TaskFields): (s: Subtask)
    ensures f.description.None? ==> s.description == ""
    ensures f.status.None? ==> s.status == DEFAULT_TASK_STATUS
    ensures f.priority.None? ==> s.priority == DEFAULT_PRIORITY
    ensures s.comments == []
  {
    Subtask(
      SetString(schema, f.name.GetOr("")),
      SetString(schema, DefaultIfUndefined(f.description, "")),
      DefaultIfUndefined(f.status, DEFAULT_TASK_STATUS),
      DefaultIfUndefined(f.priority, DEFAULT_PRIORITY),
      [])
  }

  /** A main task cast from request fields with the schema defaults. */
  function NewMainTask(schema: Schema, f: TaskFields): (t: MainTask)
    ensures f.description.None? ==> t.description == ""
    ensures f.status.None? ==> t.status == DEFAULT_TASK_STATUS
    ensures f.priority.None? ==> t.priority == DEFAULT_PRIORITY
    ensures t.comments == [] && t.subtasks == []
  {
    var s := NewSubtask(schema, f);
    MainTask(s.name, s.description, s.status, s.priority, [], [])
  }

  /** Fields a client may give when creating a project. */
  datatype ProjectFields = ProjectFields(
    title: Option<string>,
    description: Option<string>,
    status: Option<string>,
    dueDate: Option<int>)

  /** A new project document: status defaults per schema, description to "". */
  function NewProject(schema: Schema, f: ProjectFields, owner: Option<UserId>, tasks: seq<MainTask>): (p: Project)
    ensures f.status.None? ==> p.status == DefaultProjectStatus(schema)
    ensures f.description.None? ==> p.description == ""
    ensures p.createdBy == owner && p.mainTasks == tasks
  {
    Project(
      SetString(schema, f.title.GetOr("")),
      SetString(schema, DefaultIfUndefined(f.description, "")),
      DefaultIfUndefined(f.status, DefaultProjectStatus(schema)),
      f.dueDate,
      owner,
      tasks)
  }

  // ------------------------------------------------------------ partial updates

  /** Assign a field only when the request defines it. */
  function Assign<T>(current: T, v: Option<T>): (r: T)
    ensures v.None? ==> r == current
    ensures v.Some? ==> r == v.value
  {
    if v.Some? then v.value else current
  }

  function AssignString(schema: Schema, current: string, v: Option<string>): (r: string)
    ensures v.None? ==> r == current
    ensures v.Some? ==> r == SetString(schema, v.value)
  {
    if v.Some? then SetString(schema, v.value) else current
  }

  /** What an update body may set on a subtask: the four editable fields and,
      in the current service, the comment log itself. */
  datatype SubtaskPatch = SubtaskPatch(fields: TaskFields, comments: Option<seq<Comment>>)

  /** What an update body may set on a main task. */
  datatype TaskPatch = TaskPatch(fields: TaskFields, comments: Option<seq<Comment>>, subtasks: Option<seq<Subtask>>)

  function PatchSubtask(schema: Schema, s: Subtask, p: SubtaskPatch): (r: Subtask)
    ensures p.fields.name.None? ==> r.name == s.name
    ensures p.fields.description.None? ==> r.description == s.description
    ensures p.fields.status.None? ==> r.status == s.status
    ensures p.fields.priority.None? ==> r.priority == s.priority
    ensures p.comments.None? ==> r.comments == s.comments
    ensures p.fields.name.Some? ==> r.name == SetString(schema, p.fields.name.value)
    ensures p.fields.description.Some? ==> r.description == SetString(schema, p.fields.description.value)
    ensures p.fields.status.Some? ==> r.status == p.fields.status.value
    ensures p.fields.priority.Some? ==> r.priority == p.fields.priority.value
    ensures p.comments.Some? ==> r.comments == p.comments.value
  {
    Subtask(
      AssignString(schema, s.name, p.fields.name),
      AssignString(schema, s.description, p.fields.description),
      Assign(s.status, p.fields.status),
      Assign(s.priority, p.fields.priority),
      Assign(s.comments, p.comments))
  }

  function PatchMainTask(schema: Schema, t: MainTask, p: TaskPatch): (r: MainTask)
    ensures p.fields.name.None? ==> r.name == t.name
    ensures p.fields.description.None? ==> r.description == t.description
    ensures p.fields.status.None? ==> r.status == t.status
    ensures p.fields.priority.None? ==> r.priority == t.priority
    ensures p.comments.None? ==> r.comments == t.comments
    ensures p.subtasks.None? ==> r.subtasks == t.subtasks
    ensures p.fields.name.Some? ==> r.name == SetString(schema, p.fields.name.value)
    ensures p.fields.description.Some? ==> r.description == SetString(schema, p.fields.description.value)
    ensures p.fields.status.Some? ==> r.status == p.fields.status.value
    ensures p.fields.priority.Some? ==> r.priority == p.fields.priority.value
    ensures p.comments.Some? ==> r.comments == p.comments.value
    ensures p.subtasks.Some? ==> r.subtasks == p.subtasks.value
  {
    MainTask(
      AssignString(schema, t.name, p.fields.name),
      AssignString(schema, t.description, p.fields.description),
      Assign(t.status, p.fields.status),
      Assign(t.priority, p.fields.priority),
      Assign(t.comments, p.comments),
      Assign(t.subtasks, p.subtasks))
  }

  // ------------------------------------------------------------ create bodies

  /** A subtask cast from a whole create body. `push(subtaskData)` stores the
      body as it is, so a `comments` array in it is kept; its elements are
      taken as already-cast comments. */
  function SubtaskFromBody(schema: Schema, b: SubtaskPatch): (s: Subtask)
    ensures s.(comments := []) == NewSubtask(schema, b.fields)
    ensures b.comments.None? ==> s.comments == []
    ensures b.comments.Some? ==> s.comments == b.comments.value
  {
    NewSubtask(schema, b.fields).(comments := b.comments.GetOr([]))
  }

  /** A main task cast from a whole create body, its own `comments` and
      `subtasks` arrays included. */
  function MainTaskFromBody(schema: Schema, b: TaskPatch): (t: MainTask)
    ensures t.(comments := [], subtasks := []) == NewMainTask(schema, b.fields)
    ensures b.comments.None? ==> t.comments == []
    ensures b.comments.Some? ==> t.comments == b.comments.value
    ensures b.subtasks.None? ==> t.subtasks == []
    ensures b.subtasks.Some? ==> t.subtasks == b.subtasks.value
  {
    NewMainTask(schema, b.fields).(comments := b.comments.GetOr([]), subtasks := b.subtasks.GetOr([]))
  }

  /** Every element of the arrays a subtask body carries passes validation. */
  predicate ValidSubtaskArrays(b: SubtaskPatch) {
    b.comments.Some? ==> ValidComments(b.comments.value)
  }

  /** Every element of the arrays a task body carries passes validation. */
  predicate ValidTaskArrays(b: TaskPatch) {
    && (b.comments.Some? ==> ValidComments(b.comments.value))
    && (b.subtasks.Some? ==> forall j :: 0 <= j < |b.subtasks.value| ==> ValidSubtask(b.subtasks.value[j]))
  }

  /** A subtask body passes validation exactly when its name is present, its
      enumerated fields are in range and every comment it carries is valid. */
  lemma SubtaskFromBodyValidIff(schema: Schema, b: SubtaskPatch)
    ensures ValidSubtask(SubtaskFromBody(schema, b)) <==>
      && Present(schema, b.fields.name) && InEnum(b.fields.status, TASK_STATUS) && InEnum(b.fields.priority, PRIORITY)
      && ValidSubtaskArrays(b)
  {
    SetStringPresent(schema, b.fields.name);
  }

  /** The same for a main-task body, whose subtasks must be valid as well. */
  lemma MainTaskFromBodyValidIff(schema: Schema, b: TaskPatch)
    ensures ValidMainTask(MainTaskFromBody(schema, b)) <==>
      && Present(schema, b.fields.name) && InEnum(b.fields.status, TASK_STATUS) && InEnum(b.fields.priority, PRIORITY)
      && ValidTaskArrays(b)
  {
    SetStringPresent(schema, b.fields.name);
  }

  /** What an update body may set on a project. `createdBy` is listed because
      the current service copies every key of the body. */
  datatype ProjectPatch = ProjectPatch(
    title: Option<string>,
    description: Option<string>,
    status: Option<string>,
    dueDate: Option<Option<int>>,
    createdBy: Option<UserId>,
    mainTasks: Option<seq<MainTask>>)

  /** `Object.assign`-style update of a project: every key the body defines
      is written (strings through the schema's setter), every other key kept. */
  function PatchProject(schema: Schema, p: Project, patch: ProjectPatch): (q: Project)
    ensures patch.title.None? ==> q.title == p.title
    ensures patch.description.None? ==> q.description == p.description
    ensures patch.status.None? ==> q.status == p.status
    ensures patch.dueDate.None? ==> q.dueDate == p.dueDate
    ensures patch.createdBy.None? ==> q.createdBy == p.createdBy
    ensures patch.mainTasks.None? ==> q.mainTasks == p.mainTasks
    ensures patch.title.Some? ==> q.title == SetString(schema, patch.title.value)
    ensures patch.description.Some? ==> q.description == SetString(schema, patch.description.value)
    ensures patch.status.Some? ==> q.status == patch.status.value
    ensures patch.dueDate.Some? ==> q.dueDate == patch.dueDate.value
    ensures patch.createdBy.Some? ==> q.createdBy == patch.createdBy
    ensures patch.mainTasks.Some? ==> q.mainTasks == patch.mainTasks.value
  {
    Project(
      AssignString(schema, p.title, patch.title),
      AssignString(schema, p.description, patch.description),
      Assign(p.status, patch.status),
      Assign(p.dueDate, patch.dueDate),
      if patch.createdBy.Some? then patch.createdBy else p.createdBy,
      Assign(p.mainTasks, patch.mainTasks))
  }

  // ------------------------------------------------------------ validation

  predicate ValidComment(c: Comment) {
    c.author != "" && c.content != ""
  }

  predicate ValidComments(cs: seq<Comment>) {
    forall i :: 0 <= i < |cs| ==> ValidComment(cs[i])
  }

  /** Name required, status and priority within their enumerations, every
      comment valid (both schemas share these rules). */
  predicate ValidSubtask(s: Subtask) {
    s.name != "" && s.status in TASK_STATUS && s.priority in PRIORITY && ValidComments(s.comments)
  }

  predicate ValidMainTask(t: MainTask) {
    && t.name != "" && t.status in TASK_STATUS && t.priority in PRIORITY
    && ValidComments(t.comments)
    && forall j :: 0 <= j < |t.subtasks| ==> ValidSubtask(t.subtasks[j])
  }

  /** The validation Mongoose runs before every save. */
  predicate ValidProject(schema: Schema, p: Project) {
    && p.title != ""
    && p.status in ProjectStatusValues(schema)
    && (schema == Current ==> p.createdBy.Some?)
    && forall i :: 0 <= i < |p.mainTasks| ==> ValidMainTask(p.mainTasks[i])
  }

  /** What the schema's `required` rule accepts once the setter has run: the
      current schema trims first, so white space alone counts as missing; the
      legacy schema refuses only a missing value or "". */
  predicate Present(schema: Schema, v: Option<string>) {
    v.Some? && if schema == Current then !Text.AllSpace(v.value) else v.value != ""
  }

  /** An `enum` rule on a field that may be left to its default. */
  predicate InEnum(v: Option<string>, values: set<string>) {
    v.None? || v.value in values
  }

  lemma SetStringPresent(schema: Schema, v: Option<string>)
    ensures SetString(schema, v.GetOr("")) != "" <==> Present(schema, v)
  {
    if schema == Current {
      Text.TrimEmptyIff(v.GetOr(""));
    }
  }

  /** A cast comment passes validation exactly when both author and content
      are present. */
  lemma NewCommentValidIff(schema: Schema, f: CommentFields, now: int)
    ensures ValidComment(NewComment(schema, f, now)) <==> Present(schema, f.author) && Present(schema, f.content)
  {
    SetStringPresent(schema, f.author);
    SetStringPresent(schema, f.content);
  }

  /** A cast subtask passes validation exactly when its name is present and
      any status or priority given is in its enumeration: the defaults always
      pass. */
  lemma NewSubtaskValidIff(schema: Schema, f: TaskFields)
    ensures ValidSubtask(NewSubtask(schema, f)) <==>
      Present(schema, f.name) && InEnum(f.status, TASK_STATUS) && InEnum(f.priority, PRIORITY)
  {
    SetStringPresent(schema, f.name);
  }

  lemma NewMainTaskValidIff(schema: Schema, f: TaskFields)
    ensures ValidMainTask(NewMainTask(schema, f)) <==>
      Present(schema, f.name) && InEnum(f.status, TASK_STATUS) && InEnum(f.priority, PRIORITY)
  {
    SetStringPresent(schema, f.name);
  }

  /** A new project passes validation exactly when its title is present, any
      status given is one of its schema's, the current schema has an owner,
      and every task passes. */
  lemma NewProjectValidIff(schema: Schema, f: ProjectFields, owner: Option<UserId>, tasks: seq<MainTask>)
    ensures ValidProject(schema, NewProject(schema, f, owner, tasks)) <==>
      && Present(schema, f.title)
      && InEnum(f.status, ProjectStatusValues(schema))
      && (schema == Current ==> owner.Some?)
      && forall i :: 0 <= i < |tasks| ==> ValidMainTask(tasks[i])
  {
    SetStringPresent(schema, f.title);
  }

  /** A name of white space only: refused by the current schema, stored by
      the legacy one. */
  lemma BlankNameDiffers(f: TaskFields)
    requires f.name == Some(" ") && f.status.None? && f.priority.None?
    ensures !ValidSubtask(NewSubtask(Current, f)) && ValidSubtask(NewSubtask(Legacy, f))
  {
    NewSubtaskValidIff(Current, f);
    NewSubtaskValidIff(Legacy, f);
    assert Text.AllSpace(f.name.value) by { assert Text.IsSpace(f.name.value[0]); }
  }

  // ------------------------------------------------------------ derived state

  /** A reference definition: every main task is completed. */
  predicate AllCompleted(ts: seq<MainTask>) {
    forall i :: 0 <= i < |ts| ==> ts[i].status == COMPLETED
  }

  /** `tasks.every(task => task.status === 'completed')`, element by element. */
  function EveryCompleted(ts: seq<MainTask>): (r: bool)
    ensures r <==> AllCompleted(ts)
  {
    if |ts| == 0 then true
    else ts[0].status == COMPLETED && EveryCompleted(ts[1..])
  }

  /** `tasks.filter(task => task.status === 'completed').length`. */
  function CompletedCount(ts: seq<MainTask>): (c: nat)
    ensures c <= |ts|
  {
    if |ts| == 0 then 0
    else (if ts[0].status == COMPLETED then 1 else 0) + CompletedCount(ts[1..])
  }

  /** The count reaches the length exactly when every task is completed. */
  lemma {:induction false} CompletedCountFull(ts: seq<MainTask>)
    ensures CompletedCount(ts) == |ts| <==> AllCompleted(ts)
  {
    if |ts| > 0 {
      CompletedCountFull(ts[1..]);
      assert forall i :: 1 <= i < |ts| ==> ts[i] == ts[1..][i - 1];
    }
  }

  /** The pre-save hook: a non-empty task list that is entirely completed marks
      the project completed; nothing else is ever changed. */
  function PreSave(p: Project): (r: Project)
    ensures r.(status := p.status) == p
    ensures |p.mainTasks| > 0 && AllCompleted(p.mainTasks) ==> r.status == COMPLETED
    ensures !(|p.mainTasks| > 0 && AllCompleted(p.mainTasks)) ==> r.status == p.status
  {
    if |p.mainTasks| > 0 && EveryCompleted(p.mainTasks) && p.status != COMPLETED then
      p.(status := COMPLETED)
    else
      p
  }

  /** The rule only moves one way: a completed project stays completed on
      every save, whatever its tasks say, and any change is to completed. */
  lemma PreSaveMonotone(p: Project)
    ensures p.status == COMPLETED ==> PreSave(p).status == COMPLETED
    ensures PreSave(p).status != p.status ==> PreSave(p).status == COMPLETED
    ensures PreSave(PreSave(p)) == PreSave(p)
  {
  }

  /** The pre-save rule keeps a valid current-schema project valid. */
  lemma PreSavePreservesValidity(p: Project)
    requires ValidProject(Current, p)
    ensures ValidProject(Current, PreSave(p))
  {
  }

  /** `Math.round((completed / total) * 100)`, with 0 for no tasks, computed
      exactly over the integers: within [0, 100], and otherwise the completed
      share rounded to the nearest percent. */
  function CompletionPercentage(ts: seq<MainTask>): (r: nat)
    ensures r <= 100
    ensures |ts| == 0 ==> r == 0
    ensures |ts| > 0 ==> var n, c := |ts|, CompletedCount(ts);
      2 * r * n - n <= 200 * c < 2 * r * n + n
  {
    if |ts| == 0 then 0 else RoundPercent(CompletedCount(ts), |ts|)
  }

  /** round(100·c/n) = ⌊100·c/n + ½⌋ = ⌊(200·c + n) / 2n⌋: round-half-up to
      the nearest integer, so 100·c/n lies within [r − ½, r + ½); for a share
      (c ≤ n) r never exceeds 100, and r is 100 exactly when the open share
      n − c is at most half a percent of n. */
  function RoundPercent(c: nat, n: nat): (r: nat)
    requires n > 0
    ensures 2 * r * n - n <= 200 * c < 2 * r * n + n
    ensures c <= n ==> r <= 100 && (r == 100 <==> 200 * (n - c) <= n)
  {
    RoundsToNearest(c, n);
    RoundsToHundred(c, n);
    (200 * c + n) / (2 * n)
  }

  lemma RoundsToNearest(c: nat, n: nat)
    requires n > 0
    ensures var r := (200 * c + n) / (2 * n); 2 * r * n - n <= 200 * c < 2 * r * n + n
  {
    var a, b := 200 * c + n, 2 * n;
    var r := a / b;
    assert a == r * b + a % b && 0 <= a % b < b;
    assert r * b == 2 * r * n;
  }

  lemma RoundsToHundred(c: nat, n: nat)
    requires n > 0
    ensures var r := (200 * c + n) / (2 * n); c <= n ==> r <= 100 && (r == 100 <==> 200 * (n - c) <= n)
  {
    var a, b := 200 * c + n, 2 * n;
    if c <= n {
      Arith.DivBelow(a, b, 101);
      if 200 * c + n >= 200 * n {
        Arith.DivAtLeast(a, b, 100);
      } else {
        Arith.DivBelow(a, b, 100);
      }
    }
  }

  /** The percentage lies in [0, 100], is 0 without tasks, is the rounded share
      of completed tasks otherwise, and is 100 with every task completed. */
  lemma CompletionPercentageSpec(ts: seq<MainTask>)
    ensures 0 <= CompletionPercentage(ts) <= 100
    ensures |ts| == 0 ==> CompletionPercentage(ts) == 0
    ensures |ts| > 0 ==> var n, c, r := |ts|, CompletedCount(ts), CompletionPercentage(ts);
      2 * r * n - n <= 200 * c < 2 * r * n + n
    ensures |ts| > 0 && AllCompleted(ts) ==> CompletionPercentage(ts) == 100
    ensures |ts| > 0 ==> (CompletionPercentage(ts) == 100 <==> 200 * (|ts| - CompletedCount(ts)) <= |ts|)
    ensures |ts| < 200 ==> (CompletionPercentage(ts) == 100 <==> |ts| > 0 && AllCompleted(ts))
  {
    CompletedCountFull(ts);
  }

  /** 199 completed tasks out of 200 already show 100 percent. */
  lemma CompletionPercentageNotAll(ts: seq<MainTask>)
    requires |ts| == 200 && CompletedCount(ts) == 199
    ensures CompletionPercentage(ts) == 100 && !AllCompleted(ts)
  {
    CompletedCountFull(ts);
  }
}

=== FILE: project_service.dfy ===
/** The current project service (src/services/project.service.js): every
    operation looks the project up by id and owner, checks the positional
    indices, edits the tree, and saves it through schema validation and the
    pre-save completion rule. A store maps project ids to documents; an `Err`
    result carries no store, so a failed operation changes nothing. */
module ProjectService {
  import opened Wrappers
  import opened Constants
  import opened ProjectModel
  import Text
  import Arith

  type ProjectId = string

  /** The project collection. */
  type Store = map<ProjectId, Project>

  /** A successful operation: the store after the save and what it returns. */
  datatype Outcome<T> = Outcome(store: Store, value: T)

  /** Every document satisfies the current schema (each one got there by a save). */
  predicate StoreValid(store: Store) {
    forall pid :: pid in store ==> ValidProject(Current, store[pid])
  }

  /** `Project.findOne({_id, createdBy: userId})` finds a document. */
  predicate Owned(store: Store, pid: ProjectId, uid: UserId) {
    pid in store && store[pid].createdBy == Some(uid)
  }

  // ------------------------------------------------------------ building blocks

  /** The lookup every operation starts with; no match is "Project not found". */
  function FindOwned(store: Store, pid: ProjectId, uid: UserId): (r: Result<Project, ApiError>)
    ensures r.Ok? <==> Owned(store, pid, uid)
    ensures r.Ok? ==> r.value == store[pid]
    ensures r.Err? ==> r.error == ERR_PROJECT_NOT_FOUND
  {
    if Owned(store, pid, uid) then Ok(store[pid]) else Err(ERR_PROJECT_NOT_FOUND)
  }

  /** The bounds guard `i < 0 || i >= n`, failing with `e`. */
  function CheckIndex(i: int, n: int, e: ApiError): (r: Result<nat, ApiError>)
    ensures r.Ok? <==> 0 <= i < n
    ensures r.Ok? ==> r.value == i
    ensures r.Err? ==> r.error == e
  {
    if i < 0 || i >= n then Err(e) else Ok(i)
  }

  /** `project.save()`: schema validation first (a failure surfaces as the
      operation's own error `failure`), then the pre-save hook. */
  function Save(p: Project, failure: ApiError): (r: Result<Project, ApiError>)
    ensures r.Ok? <==> ValidProject(Current, p)
    ensures r.Ok? ==> r.value == PreSave(p) && ValidProject(Current, r.value)
    ensures r.Err? ==> r.error == failure
  {
    if ValidProject(Current, p) then PreSavePreservesValidity(p); Ok(PreSave(p)) else Err(failure)
  }

  /** Replace main task `i`, leaving every other task and field alone. */
  function SetTask(p: Project, i: nat, t: MainTask): (q: Project)
    requires i < |p.mainTasks|
    ensures |q.mainTasks| == |p.mainTasks| && q.mainTasks[i] == t
    ensures forall k :: 0 <= k < |p.mainTasks| && k != i ==> q.mainTasks[k] == p.mainTasks[k]
    ensures q.(mainTasks := p.mainTasks) == p
  {
    p.(mainTasks := p.mainTasks[i := t])
  }

  /** Replace subtask `j` of a main task, leaving its siblings and the task's
      own fields alone. */
  function SetSubtask(t: MainTask, j: nat, s: Subtask): (u: MainTask)
    requires j < |t.subtasks|
    ensures |u.subtasks| == |t.subtasks| && u.subtasks[j] == s
    ensures forall k :: 0 <= k < |t.subtasks| && k != j ==> u.subtasks[k] == t.subtasks[k]
    ensures u.(subtasks := t.subtasks) == t
  {
    t.(subtasks := t.subtasks[j := s])
  }

  /** `array.splice(k, 1)`: the element at `k` goes, later ones move down one
      place and keep their order. */
  function RemoveAt<T>(s: seq<T>, k: nat): (r: seq<T>)
    requires k < |s|
    ensures |r| == |s| - 1
    ensures forall j :: 0 <= j < k ==> r[j] == s[j]
    ensures forall j :: k <= j < |r| ==> r[j] == s[j + 1]
  {
    s[..k] + s[k + 1..]
  }

  /** Putting the removed element back restores the sequence. */
  lemma RemoveAtReinsert<T>(s: seq<T>, k: nat)
    requires k < |s|
    ensures RemoveAt(s, k)[..k] + [s[k]] + RemoveAt(s, k)[k..] == s
  {
    assert RemoveAt(s, k)[..k] == s[..k];
    assert RemoveAt(s, k)[k..] == s[k + 1..];
    assert s == s[..k] + [s[k]] + s[k + 1..];
  }

  // ------------------------------------------------------------ whole projects

  /** `getProjectById`: the owner's document or "Project not found". */
  function GetProjectById(store: Store, pid: ProjectId, uid: UserId): (r: Result<Project, ApiError>)
    ensures r.Ok? <==> Owned(store, pid, uid)
    ensures r.Ok? ==> r.value == store[pid] && r.value.createdBy == Some(uid)
    ensures r.Err? ==> r == Err(ERR_PROJECT_NOT_FOUND)
  {
    FindOwned(store, pid, uid)
  }

  /** `createProject`: the body's fields with `createdBy` forced to the caller;
      any failure is 400 "Failed to create project". `pid` is the fresh id and
      `tasks` the body's own `mainTasks` array (`[]` when the body has none),
      which the create validator does not look at. */
  function CreateProject(store: Store, pid: ProjectId, uid: UserId, f: ProjectFields, tasks: seq<MainTask>)
    : (r: Result<Outcome<Project>, ApiError>)
    requires pid !in store
    ensures r.Ok? <==> ValidProject(Current, NewProject(Current, f, Some(uid), tasks))
    ensures r.Err? ==> r.error == ApiError(BAD_REQUEST, MSG_PROJECT_CREATION_FAILED)
    ensures r.Ok? ==> && r.value.store == store[pid := r.value.value]
                      && r.value.value.createdBy == Some(uid)
                      && r.value.value.mainTasks == tasks
                      && Owned(r.value.store, pid, uid)
    ensures r.Ok? && StoreValid(store) ==> StoreValid(r.value.store)
  {
    var saved :- Save(NewProject(Current, f, Some(uid), tasks), ApiError(BAD_REQUEST, MSG_PROJECT_CREATION_FAILED));
    var after := store[pid := saved];
    assert StoreValid(store) ==> StoreValid(after) by {
      if StoreValid(store) { WriteKeepsStoreValid(store, after, pid); }
    }
    Ok(Outcome(after, saved))
  }

  /** `updateProject`: every defined key of the body is assigned, `createdBy`
      included; a failed save is 400 "Failed to update project". */
  function UpdateProject(store: Store, pid: ProjectId, uid: UserId, patch: ProjectPatch)
    : (r: Result<Outcome<Project>, ApiError>)
    ensures !Owned(store, pid, uid) ==> r == Err(ERR_PROJECT_NOT_FOUND)
    ensures r.Err? && Owned(store, pid, uid) ==> r.error == ApiError(BAD_REQUEST, MSG_PROJECT_UPDATE_FAILED)
    ensures r.Ok? ==> var p, q := store[pid], r.value.value;
      && Owned(store, pid, uid)
      && r.value.store == store[pid := q]
      && (patch.title.None? ==> q.title == p.title)
      && (patch.description.None? ==> q.description == p.description)
      && (patch.dueDate.None? ==> q.dueDate == p.dueDate)
      && (patch.createdBy.None? ==> q.createdBy == p.createdBy)
      && (patch.mainTasks.None? ==> q.mainTasks == p.mainTasks)
      && (patch.status.Some? ==> q.status == patch.status.value || q.status == COMPLETED)
      && (patch.status.None? ==> q.status == p.status || q.status == COMPLETED)
      && ValidProject(Current, q)
    ensures Owned(store, pid, uid) ==>
      (r.Ok? <==> ValidProject(Current, PatchProject(Current, store[pid], patch)))
    ensures r.Ok? ==> r.value.value == PreSave(PatchProject(Current, store[pid], patch))
  {
    var p :- FindOwned(store, pid, uid);
    var saved :- Save(PatchProject(Current, p, patch), ApiError(BAD_REQUEST, MSG_PROJECT_UPDATE_FAILED));
    Ok(Outcome(store[pid := saved], saved))
  }

  /** Because the body may carry `createdBy`, an update can hand the project to
      another user, after which its former owner gets "Project not found". */
  lemma UpdateProjectCanTransferOwnership(store: Store, pid: ProjectId, uid: UserId, other: UserId)
    requires Owned(store, pid, uid) && ValidProject(Current, store[pid]) && other != uid
    ensures var r := UpdateProject(store, pid, uid, ProjectPatch(None, None, None, None, Some(other), None));
      && r.Ok?
      && Owned(r.value.store, pid, other)
      && GetProjectById(r.value.store, pid, uid) == Err(ERR_PROJECT_NOT_FOUND)
  {
  }

  /** `deleteProject`: `findOneAndDelete` by id and owner. */
  function DeleteProject(store: Store, pid: ProjectId, uid: UserId): (r: Result<Outcome<string>, ApiError>)
    ensures r.Ok? <==> Owned(store, pid, uid)
    ensures r.Err? ==> r.error == ERR_PROJECT_NOT_FOUND
    ensures r.Ok? ==> pid !in r.value.store && r.value.value == MSG_PROJECT_DELETED
    ensures r.Ok? ==> forall q :: q in store && q != pid ==> q in r.value.store && r.value.store[q] == store[q]
    ensures r.Ok? ==> forall q :: q in r.value.store ==> q in store
  {
    var _ :- FindOwned(store, pid, uid);
    Ok(Outcome(map q | q in store && q != pid :: store[q], MSG_PROJECT_DELETED))
  }

  // ------------------------------------------------------------ main tasks

  /** `addMainTask`: append a task cast from the whole body, its own arrays
      included, and return it. */
  function AddMainTask(store: Store, pid: ProjectId, uid: UserId, b: TaskPatch)
    : (r: Result<Outcome<MainTask>, ApiError>)
    ensures !Owned(store, pid, uid) ==> r == Err(ERR_PROJECT_NOT_FOUND)
    ensures r.Err? && Owned(store, pid, uid) ==> r.error == ApiError(BAD_REQUEST, "Failed to add task")
    ensures Owned(store, pid, uid) ==>
      (r.Ok? <==> ValidProject(Current, store[pid].(mainTasks := store[pid].mainTasks + [MainTaskFromBody(Current, b)])))
    ensures r.Ok? ==> Owned(store, pid, uid) && pid in r.value.store
    ensures r.Ok? ==> ValidProject(Current, r.value.store[pid])
    ensures r.Ok? ==> var p, q := store[pid], r.value.store[pid];
      && r.value.store == store[pid := q]
      && q == PreSave(p.(mainTasks := q.mainTasks))
      && |q.mainTasks| == |p.mainTasks| + 1
      && q.mainTasks[..|p.mainTasks|] == p.mainTasks
      && r.value.value == q.mainTasks[|p.mainTasks|] == MainTaskFromBody(Current, b)
  {
    var p :- FindOwned(store, pid, uid);
    var saved :- Save(p.(mainTasks := p.mainTasks + [MainTaskFromBody(Current, b)]), ApiError(BAD_REQUEST, "Failed to add task"));
    Ok(Outcome(store[pid := saved], saved.mainTasks[|saved.mainTasks| - 1]))
  }

  /** `updateMainTask`: assign the defined keys of the body to task `i` and
      return the task. */
  function UpdateMainTask(store: Store, pid: ProjectId, uid: UserId, i: int, patch: TaskPatch)
    : (r: Result<Outcome<MainTask>, ApiError>)
    ensures !Owned(store, pid, uid) ==> r == Err(ERR_PROJECT_NOT_FOUND)
    ensures Owned(store, pid, uid) && !(0 <= i < |store[pid].mainTasks|) ==> r == Err(ERR_INVALID_TASK_INDEX)
    ensures r.Err? && Owned(store, pid, uid) && 0 <= i < |store[pid].mainTasks|
      ==> r.error == ApiError(BAD_REQUEST, "Failed to update task")
    ensures r.Ok? ==> Owned(store, pid, uid) && 0 <= i < |store[pid].mainTasks| && pid in r.value.store
    ensures r.Ok? ==> ValidProject(Current, r.value.store[pid])
    ensures r.Ok? ==> var p, q := store[pid], r.value.store[pid];
      && r.value.store == store[pid := q]
      && q == PreSave(p.(mainTasks := q.mainTasks))
      && |q.mainTasks| == |p.mainTasks|
      && r.value.value == q.mainTasks[i] == PatchMainTask(Current, p.mainTasks[i], patch)
      && (forall k :: 0 <= k < |p.mainTasks| && k != i ==> q.mainTasks[k] == p.mainTasks[k])
  {
    var p :- FindOwned(store, pid, uid);
    var k :- CheckIndex(i, |p.mainTasks|, ERR_INVALID_TASK_INDEX);
    var saved :- Save(SetTask(p, k, PatchMainTask(Current, p.mainTasks[k], patch)), ApiError(BAD_REQUEST, "Failed to update task"));
    Ok(Outcome(store[pid := saved], saved.mainTasks[k]))
  }

  /** `deleteMainTask`: splice task `i` out, its subtasks and comments with it. */
  function DeleteMainTask(store: Store, pid: ProjectId, uid: UserId, i: int)
    : (r: Result<Outcome<string>, ApiError>)
    ensures !Owned(store, pid, uid) ==> r == Err(ERR_PROJECT_NOT_FOUND)
    ensures Owned(store, pid, uid) && !(0 <= i < |store[pid].mainTasks|) ==> r == Err(ERR_INVALID_TASK_INDEX)
    ensures r.Err? && Owned(store, pid, uid) && 0 <= i < |store[pid].mainTasks|
      ==> r.error == ApiError(INTERNAL_SERVER_ERROR, "Failed to delete task")
    ensures r.Ok? ==> Owned(store, pid, uid) && 0 <= i < |store[pid].mainTasks| && pid in r.value.store
    ensures r.Ok? ==> ValidProject(Current, r.value.store[pid])
    ensures r.Ok? ==> var p, q := store[pid], r.value.store[pid];
      && r.value.store == store[pid := q]
      && q == PreSave(p.(mainTasks := q.mainTasks))
      && |q.mainTasks| == |p.mainTasks| - 1
      && (forall k :: 0 <= k < i ==> q.mainTasks[k] == p.mainTasks[k])
      && (forall k :: i <= k < |q.mainTasks| ==> q.mainTasks[k] == p.mainTasks[k + 1])
      && r.value.value == MSG_TASK_DELETED
  {
    var p :- FindOwned(store, pid, uid);
    var k :- CheckIndex(i, |p.mainTasks|, ERR_INVALID_TASK_INDEX);
    var saved :- Save(p.(mainTasks := RemoveAt(p.mainTasks, k)), ApiError(INTERNAL_SERVER_ERROR, "Failed to delete task"));
    Ok(Outcome(store[pid := saved], MSG_TASK_DELETED))
  }

  // ------------------------------------------------------------ subtasks

  /** `addSubtask`: append a subtask cast from the whole body, its own
      comment array included, to task `i` and return that task's whole
      subtask list. */
  function AddSubtask(store: Store, pid: ProjectId, uid: UserId, i: int, b: SubtaskPatch)
    : (r: Result<Outcome<seq<Subtask>>, ApiError>)
    ensures !Owned(store, pid, uid) ==> r == Err(ERR_PROJECT_NOT_FOUND)
    ensures Owned(store, pid, uid) && !(0 <= i < |store[pid].mainTasks|) ==> r == Err(ERR_INVALID_TASK_INDEX)
    ensures r.Err? && Owned(store, pid, uid) && 0 <= i < |store[pid].mainTasks|
      ==> r.error == ApiError(BAD_REQUEST, "Failed to add subtask")
    ensures Owned(store, pid, uid) && 0 <= i < |store[pid].mainTasks| ==>
      var t := store[pid].mainTasks[i];
      (r.Ok? <==> ValidProject(Current, SetTask(store[pid], i, t.(subtasks := t.subtasks + [SubtaskFromBody(Current, b)]))))
    ensures r.Ok? ==> Owned(store, pid, uid) && 0 <= i < |store[pid].mainTasks| && pid in r.value.store
    ensures r.Ok? ==> ValidProject(Current, r.value.store[pid])
    ensures r.Ok? ==> var p, q := store[pid], r.value.store[pid];
      && r.value.store == store[pid := q]
      && q == PreSave(p.(mainTasks := q.mainTasks))
      && |q.mainTasks| == |p.mainTasks|
      && (forall k :: 0 <= k < |p.mainTasks| && k != i ==> q.mainTasks[k] == p.mainTasks[k])
      && q.mainTasks[i] == p.mainTasks[i].(subtasks := r.value.value)
      && r.value.value == p.mainTasks[i].subtasks + [SubtaskFromBody(Current, b)]
  {
    var p :- FindOwned(store, pid, uid);
    var k :- CheckIndex(i, |p.mainTasks|, ERR_INVALID_TASK_INDEX);
    var t := p.mainTasks[k];
    var saved :- Save(SetTask(p, k, t.(subtasks := t.subtasks + [SubtaskFromBody(Current, b)])), ApiError(BAD_REQUEST, "Failed to add subtask"));
    Ok(Outcome(store[pid := saved], saved.mainTasks[k].subtasks))
  }

  /** `updateSubtask`: assign the defined keys of the body to subtask `j` of
      task `i` and return the subtask. */
  function UpdateSubtask(store: Store, pid: ProjectId, uid: UserId, i: int, j: int, patch: SubtaskPatch)
    : (r: Result<Outcome<Subtask>, ApiError>)
    ensures !Owned(store, pid, uid) ==> r == Err(ERR_PROJECT_NOT_FOUND)
    ensures Owned(store, pid, uid) && !(0 <= i < |store[pid].mainTasks|) ==> r == Err(ERR_INVALID_TASK_INDEX)
    ensures Owned(store, pid, uid) && 0 <= i < |store[pid].mainTasks| && !(0 <= j < |store[pid].mainTasks[i].subtasks|)
      ==> r == Err(ERR_INVALID_SUBTASK_INDEX)
    ensures r.Err? && InRange(store, pid, uid, i, j) ==> r.error == ApiError(BAD_REQUEST, "Failed to update subtask")
    ensures r.Ok? ==> InRange(store, pid, uid, i, j) && pid in r.value.store
    ensures r.Ok? ==> ValidProject(Current, r.value.store[pid])
    ensures r.Ok? ==> var p, q := store[pid], r.value.store[pid];
      && r.value.store == store[pid := q]
      && q == PreSave(p.(mainTasks := q.mainTasks))
      && |q.mainTasks| == |p.mainTasks|
      && (forall k :: 0 <= k < |p.mainTasks| && k != i ==> q.mainTasks[k] == p.mainTasks[k])
      && q.mainTasks[i] == SetSubtask(p.mainTasks[i], j, r.value.value)
      && r.value.value == PatchSubtask(Current, p.mainTasks[i].subtasks[j], patch)
  {
    var p :- FindOwned(store, pid, uid);
    var k :- CheckIndex(i, |p.mainTasks|, ERR_INVALID_TASK_INDEX);
    var t := p.mainTasks[k];
    var m :- CheckIndex(j, |t.subtasks|, ERR_INVALID_SUBTASK_INDEX);
    var s := PatchSubtask(Current, t.subtasks[m], patch);
    var saved :- Save(SetTask(p, k, SetSubtask(t, m, s)), ApiError(BAD_REQUEST, "Failed to update subtask"));
    Ok(Outcome(store[pid := saved], saved.mainTasks[k].subtasks[m]))
  }

  /** `deleteSubtask`: splice subtask `j` out of task `i` and return the
      remaining subtasks of that task. */
  function DeleteSubtask(store: Store, pid: ProjectId, uid: UserId, i: int, j: int)
    : (r: Result<Outcome<seq<Subtask>>, ApiError>)
    ensures !Owned(store, pid, uid) ==> r == Err(ERR_PROJECT_NOT_FOUND)
    ensures Owned(store, pid, uid) && !(0 <= i < |store[pid].mainTasks|) ==> r == Err(ERR_INVALID_TASK_INDEX)
    ensures Owned(store, pid, uid) && 0 <= i < |store[pid].mainTasks| && !(0 <= j < |store[pid].mainTasks[i].subtasks|)
      ==> r == Err(ERR_INVALID_SUBTASK_INDEX)
    ensures r.Err? && InRange(store, pid, uid, i, j) ==> r.error == ApiError(INTERNAL_SERVER_ERROR, "Failed to delete subtask")
    ensures r.Ok? ==> InRange(store, pid, uid, i, j) && pid in r.value.store
    ensures r.Ok? ==> ValidProject(Current, r.value.store[pid])
    ensures r.Ok? ==> var p, q := store[pid], r.value.store[pid];
      && r.value.store == store[pid := q]
      && q == PreSave(p.(mainTasks := q.mainTasks))
      && |q.mainTasks| == |p.mainTasks|
      && (forall k :: 0 <= k < |p.mainTasks| && k != i ==> q.mainTasks[k] == p.mainTasks[k])
      && q.mainTasks[i] == p.mainTasks[i].(subtasks := r.value.value)
    ensures r.Ok? ==> var before, after := store[pid].mainTasks[i].subtasks, r.value.value;
      && |after| == |before| - 1
      && (forall k :: 0 <= k < j ==> after[k] == before[k])
      && (forall k :: j <= k < |after| ==> after[k] == before[k + 1])
  {
    var p :- FindOwned(store, pid, uid);
    var k :- CheckIndex(i, |p.mainTasks|, ERR_INVALID_TASK_INDEX);
    var t := p.mainTasks[k];
    var m :- CheckIndex(j, |t.subtasks|, ERR_INVALID_SUBTASK_INDEX);
    var saved :- Save(SetTask(p, k, t.(subtasks := RemoveAt(t.subtasks, m))), ApiError(INTERNAL_SERVER_ERROR, "Failed to delete subtask"));
    Ok(Outcome(store[pid := saved], saved.mainTasks[k].subtasks))
  }

  /** The project is the caller's and both indices address an existing subtask. */
  predicate InRange(store: Store, pid: ProjectId, uid: UserId, i: int, j: int) {
    Owned(store, pid, uid) && 0 <= i < |store[pid].mainTasks| && 0 <= j < |store[pid].mainTasks[i].subtasks|
  }

  // ------------------------------------------------------------ comments

  /** `addCommentToTask`: append a comment cast from the body (timestamp
      defaulting to `now`) to task `i`'s log and return the whole log. */
  function AddCommentToTask(store: Store, pid: ProjectId, uid: UserId, i: int, f: CommentFields, now: int)
    : (r: Result<Outcome<seq<Comment>>, ApiError>)
    ensures !Owned(store, pid, uid) ==> r == Err(ERR_PROJECT_NOT_FOUND)
    ensures Owned(store, pid, uid) && !(0 <= i < |store[pid].mainTasks|) ==> r == Err(ERR_INVALID_TASK_INDEX)
    ensures r.Err? && Owned(store, pid, uid) && 0 <= i < |store[pid].mainTasks|
      ==> r.error == ApiError(BAD_REQUEST, MSG_COMMENT_CREATION_FAILED)
    ensures r.Ok? ==> Owned(store, pid, uid) && 0 <= i < |store[pid].mainTasks| && pid in r.value.store
    ensures r.Ok? ==> ValidProject(Current, r.value.store[pid])
    ensures r.Ok? ==> var p, q := store[pid], r.value.store[pid];
      && r.value.store == store[pid := q]
      && q == PreSave(p.(mainTasks := q.mainTasks))
      && |q.mainTasks| == |p.mainTasks|
      && (forall k :: 0 <= k < |p.mainTasks| && k != i ==> q.mainTasks[k] == p.mainTasks[k])
      && q.mainTasks[i] == p.mainTasks[i].(comments := r.value.value)
      && r.value.value == p.mainTasks[i].comments + [NewComment(Current, f, now)]
  {
    var p :- FindOwned(store, pid, uid);
    var k :- CheckIndex(i, |p.mainTasks|, ERR_INVALID_TASK_INDEX);
    var t := p.mainTasks[k];
    var saved :- Save(SetTask(p, k, t.(comments := t.comments + [NewComment(Current, f, now)])), ApiError(BAD_REQUEST, MSG_COMMENT_CREATION_FAILED));
    Ok(Outcome(store[pid := saved], saved.mainTasks[k].comments))
  }

  /** `addCommentToSubtask`: the same, on subtask `j` of task `i`. */
  function AddCommentToSubtask(store: Store, pid: ProjectId, uid: UserId, i: int, j: int, f: CommentFields, now: int)
    : (r: Result<Outcome<seq<Comment>>, ApiError>)
    ensures !Owned(store, pid, uid) ==> r == Err(ERR_PROJECT_NOT_FOUND)
    ensures Owned(store, pid, uid) && !(0 <= i < |store[pid].mainTasks|) ==> r == Err(ERR_INVALID_TASK_INDEX)
    ensures Owned(store, pid, uid) && 0 <= i < |store[pid].mainTasks| && !(0 <= j < |store[pid].mainTasks[i].subtasks|)
      ==> r == Err(ERR_INVALID_SUBTASK_INDEX)
    ensures r.Err? && InRange(store, pid, uid, i, j) ==> r.error == ApiError(BAD_REQUEST, MSG_COMMENT_CREATION_FAILED)
    ensures r.Ok? ==> InRange(store, pid, uid, i, j) && pid in r.value.store
    ensures r.Ok? ==> ValidProject(Current, r.value.store[pid])
    ensures r.Ok? ==> var p, q := store[pid], r.value.store[pid];
      && r.value.store == store[pid := q]
      && q == PreSave(p.(mainTasks := q.mainTasks))
      && |q.mainTasks| == |p.mainTasks|
      && (forall k :: 0 <= k < |p.mainTasks| && k != i ==> q.mainTasks[k] == p.mainTasks[k])
      && var s := p.mainTasks[i].subtasks[j];
      && q.mainTasks[i] == SetSubtask(p.mainTasks[i], j, s.(comments := r.value.value))
      && r.value.value == s.comments + [NewComment(Current, f, now)]
  {
    var p :- FindOwned(store, pid, uid);
    var k :- CheckIndex(i, |p.mainTasks|, ERR_INVALID_TASK_INDEX);
    var t := p.mainTasks[k];
    var m :- CheckIndex(j, |t.subtasks|, ERR_INVALID_SUBTASK_INDEX);
    var s := t.subtasks[m];
    var saved :- Save(SetTask(p, k, SetSubtask(t, m, s.(comments := s.comments + [NewComment(Current, f, now)]))),
                      ApiError(BAD_REQUEST, MSG_COMMENT_CREATION_FAILED));
    Ok(Outcome(store[pid := saved], saved.mainTasks[k].subtasks[m].comments))
  }

  /** `getTaskComments`: task `i`'s log, read without a save. */
  function GetTaskComments(store: Store, pid: ProjectId, uid: UserId, i: int): (r: Result<seq<Comment>, ApiError>)
    ensures !Owned(store, pid, uid) ==> r == Err(ERR_PROJECT_NOT_FOUND)
    ensures Owned(store, pid, uid) && !(0 <= i < |store[pid].mainTasks|) ==> r == Err(ERR_INVALID_TASK_INDEX)
    ensures r.Ok? <==> Owned(store, pid, uid) && 0 <= i < |store[pid].mainTasks|
    ensures r.Ok? ==> r.value == store[pid].mainTasks[i].comments
  {
    var p :- FindOwned(store, pid, uid);
    var k :- CheckIndex(i, |p.mainTasks|, ERR_INVALID_TASK_INDEX);
    Ok(p.mainTasks[k].comments)
  }

  /** `getSubtaskComments`: subtask `j`'s log, read without a save. */
  function GetSubtaskComments(store: Store, pid: ProjectId, uid: UserId, i: int, j: int): (r: Result<seq<Comment>, ApiError>)
    ensures !Owned(store, pid, uid) ==> r == Err(ERR_PROJECT_NOT_FOUND)
    ensures Owned(store, pid, uid) && !(0 <= i < |store[pid].mainTasks|) ==> r == Err(ERR_INVALID_TASK_INDEX)
    ensures Owned(store, pid, uid) && 0 <= i < |store[pid].mainTasks| && !(0 <= j < |store[pid].mainTasks[i].subtasks|)
      ==> r == Err(ERR_INVALID_SUBTASK_INDEX)
    ensures r.Ok? <==> InRange(store, pid, uid, i, j)
    ensures r.Ok? ==> r.value == store[pid].mainTasks[i].subtasks[j].comments
  {
    var p :- FindOwned(store, pid, uid);
    var k :- CheckIndex(i, |p.mainTasks|, ERR_INVALID_TASK_INDEX);
    var t := p.mainTasks[k];
    var m :- CheckIndex(j, |t.subtasks|, ERR_INVALID_SUBTASK_INDEX);
    Ok(t.subtasks[m].comments)
  }

  /** Read after write: the log a comment POST returns is the log the GET
      then reads, its last entry is the new comment, and the rest is the log
      the GET read before. */
  lemma CommentRoundTrip(store: Store, pid: ProjectId, uid: UserId, i: int, f: CommentFields, now: int)
    requires AddCommentToTask(store, pid, uid, i, f, now).Ok?
    ensures var out := AddCommentToTask(store, pid, uid, i, f, now).value;
      && GetTaskComments(out.store, pid, uid, i) == Ok(out.value)
      && |out.value| > 0 && out.value[|out.value| - 1] == NewComment(Current, f, now)
      && GetTaskComments(store, pid, uid, i) == Ok(out.value[..|out.value| - 1])
  {
    var out := AddCommentToTask(store, pid, uid, i, f, now).value;
    assert out.value[..|out.value| - 1] == store[pid].mainTasks[i].comments;
  }

  // ------------------------------------------------------------ validity

  lemma ValidAppendTask(p: Project, t: MainTask)
    requires ValidProject(Current, p) && ValidMainTask(t)
    ensures ValidProject(Current, p.(mainTasks := p.mainTasks + [t]))
  {
    var q := p.(mainTasks := p.mainTasks + [t]);
    forall k | 0 <= k < |q.mainTasks| ensures ValidMainTask(q.mainTasks[k]) {
      if k < |p.mainTasks| { assert q.mainTasks[k] == p.mainTasks[k]; }
    }
  }

  lemma ValidSetTask(p: Project, i: nat, t: MainTask)
    requires ValidProject(Current, p) && ValidMainTask(t) && i < |p.mainTasks|
    ensures ValidProject(Current, SetTask(p, i, t))
  {
  }

  lemma ValidRemoveTask(p: Project, i: nat)
    requires ValidProject(Current, p) && i < |p.mainTasks|
    ensures ValidProject(Current, p.(mainTasks := RemoveAt(p.mainTasks, i)))
  {
    var q := p.(mainTasks := RemoveAt(p.mainTasks, i));
    forall k | 0 <= k < |q.mainTasks| ensures ValidMainTask(q.mainTasks[k]) {
      if k < i { assert q.mainTasks[k] == p.mainTasks[k]; } else { assert q.mainTasks[k] == p.mainTasks[k + 1]; }
    }
  }

  /** Subtask edits keep a valid task valid. */
  lemma ValidSubtaskEdits(t: MainTask, j: nat, s: Subtask)
    requires ValidMainTask(t)
    ensures ValidSubtask(s) ==> ValidMainTask(t.(subtasks := t.subtasks + [s]))
    ensures ValidSubtask(s) && j < |t.subtasks| ==> ValidMainTask(SetSubtask(t, j, s))
    ensures j < |t.subtasks| ==> ValidMainTask(t.(subtasks := RemoveAt(t.subtasks, j)))
  {
    if ValidSubtask(s) {
      var u := t.subtasks + [s];
      forall k | 0 <= k < |u| ensures ValidSubtask(u[k]) {
        if k < |t.subtasks| { assert u[k] == t.subtasks[k]; }
      }
    }
    if j < |t.subtasks| {
      var u := RemoveAt(t.subtasks, j);
      forall k | 0 <= k < |u| ensures ValidSubtask(u[k]) {
        if k < j { assert u[k] == t.subtasks[k]; } else { assert u[k] == t.subtasks[k + 1]; }
      }
    }
  }

  lemma ValidAppendComment(cs: seq<Comment>, c: Comment)
    requires ValidComments(cs) && ValidComment(c)
    ensures ValidComments(cs + [c])
  {
    forall k | 0 <= k < |cs| + 1 ensures ValidComment((cs + [c])[k]) {
      if k < |cs| { assert (cs + [c])[k] == cs[k]; }
    }
  }

  /** On a valid document every in-range request whose new content is itself
      valid saves: the failure branches are reached only through content the
      schema rejects. Deleting a task always saves. */
  lemma TaskRequestsSave(store: Store, pid: ProjectId, uid: UserId, i: int, tb: TaskPatch, tp: TaskPatch)
    requires Owned(store, pid, uid) && ValidProject(Current, store[pid])
    ensures ValidMainTask(MainTaskFromBody(Current, tb)) <==> AddMainTask(store, pid, uid, tb).Ok?
    ensures 0 <= i < |store[pid].mainTasks| ==> DeleteMainTask(store, pid, uid, i).Ok?
    ensures 0 <= i < |store[pid].mainTasks| && ValidMainTask(PatchMainTask(Current, store[pid].mainTasks[i], tp))
      ==> UpdateMainTask(store, pid, uid, i, tp).Ok?
  {
    var p := store[pid];
    var t := MainTaskFromBody(Current, tb);
    if ValidMainTask(t) {
      ValidAppendTask(p, t);
    } else {
      assert (p.mainTasks + [t])[|p.mainTasks|] == t;
    }
    if 0 <= i < |p.mainTasks| {
      ValidRemoveTask(p, i);
      if ValidMainTask(PatchMainTask(Current, p.mainTasks[i], tp)) {
        ValidSetTask(p, i, PatchMainTask(Current, p.mainTasks[i], tp));
      }
    }
  }

  /** The same for appending a subtask to main task `i`. */
  lemma TaskAppendsSave(store: Store, pid: ProjectId, uid: UserId, i: int, sb: SubtaskPatch)
    requires Owned(store, pid, uid) && ValidProject(Current, store[pid]) && 0 <= i < |store[pid].mainTasks|
    ensures ValidSubtask(SubtaskFromBody(Current, sb)) <==> AddSubtask(store, pid, uid, i, sb).Ok?
  {
    var p := store[pid];
    var t := p.mainTasks[i];
    var s := SubtaskFromBody(Current, sb);
    if !ValidSubtask(s) {
      var q := SetTask(p, i, t.(subtasks := t.subtasks + [s]));
      assert q.mainTasks[i].subtasks[|t.subtasks|] == s;
    }
    if ValidSubtask(s) {
      ValidSubtaskEdits(t, 0, s);
      var u := t.(subtasks := t.subtasks + [s]);
      ValidSetTask(p, i, u);
      assert Save(SetTask(p, i, u), ApiError(BAD_REQUEST, "Failed to add subtask")).Ok?;
    }
  }

  /** The same for appending a comment to main task `i`. */
  lemma TaskCommentAppendSaves(store: Store, pid: ProjectId, uid: UserId, i: int, cf: CommentFields, now: int)
    requires Owned(store, pid, uid) && ValidProject(Current, store[pid]) && 0 <= i < |store[pid].mainTasks|
    ensures ValidComment(NewComment(Current, cf, now)) ==> AddCommentToTask(store, pid, uid, i, cf, now).Ok?
  {
    var p := store[pid];
    var t := p.mainTasks[i];
    var c := NewComment(Current, cf, now);
    if ValidComment(c) {
      ValidAppendComment(t.comments, c);
      var u := t.(comments := t.comments + [c]);
      ValidSetTask(p, i, u);
      assert Save(SetTask(p, i, u), ApiError(BAD_REQUEST, MSG_COMMENT_CREATION_FAILED)).Ok?;
    }
  }

  /** The same for requests addressing subtask `j` of task `i`. */
  lemma SubtaskRequestsSave(store: Store, pid: ProjectId, uid: UserId, i: int, j: int, sp: SubtaskPatch, cf: CommentFields, now: int)
    requires InRange(store, pid, uid, i, j) && ValidProject(Current, store[pid])
    ensures DeleteSubtask(store, pid, uid, i, j).Ok?
    ensures ValidSubtask(PatchSubtask(Current, store[pid].mainTasks[i].subtasks[j], sp))
      ==> UpdateSubtask(store, pid, uid, i, j, sp).Ok?
    ensures ValidComment(NewComment(Current, cf, now)) ==> AddCommentToSubtask(store, pid, uid, i, j, cf, now).Ok?
  {
    var p := store[pid];
    var t := p.mainTasks[i];
    var s := t.subtasks[j];
    ValidSubtaskEdits(t, j, s);
    ValidSetTask(p, i, t.(subtasks := RemoveAt(t.subtasks, j)));
    if ValidSubtask(PatchSubtask(Current, s, sp)) {
      ValidSubtaskEdits(t, j, PatchSubtask(Current, s, sp));
      ValidSetTask(p, i, SetSubtask(t, j, PatchSubtask(Current, s, sp)));
    }
    if ValidComment(NewComment(Current, cf, now)) {
      ValidAppendComment(s.comments, NewComment(Current, cf, now));
      var s2 := s.(comments := s.comments + [NewComment(Current, cf, now)]);
      ValidSubtaskEdits(t, j, s2);
      ValidSetTask(p, i, SetSubtask(t, j, s2));
    }
  }

  /** Writing one valid document into a valid store keeps it valid. */
  lemma WriteKeepsStoreValid(store: Store, after: Store, pid: ProjectId)
    requires StoreValid(store) && pid in after && after == store[pid := after[pid]]
    requires ValidProject(Current, after[pid])
    ensures StoreValid(after)
  {
  }

  /** Every successful project or main-task write leaves a store of valid
      documents valid. */
  lemma TaskWritesPreserveStoreValidity(store: Store, pid: ProjectId, uid: UserId, i: int,
                                        tb: TaskPatch, tp: TaskPatch, pp: ProjectPatch)
    requires StoreValid(store)
    ensures var r := AddMainTask(store, pid, uid, tb); r.Ok? ==> StoreValid(r.value.store)
    ensures var r := UpdateMainTask(store, pid, uid, i, tp); r.Ok? ==> StoreValid(r.value.store)
    ensures var r := DeleteMainTask(store, pid, uid, i); r.Ok? ==> StoreValid(r.value.store)
    ensures var r := UpdateProject(store, pid, uid, pp); r.Ok? ==> StoreValid(r.value.store)
    ensures var r := DeleteProject(store, pid, uid); r.Ok? ==> StoreValid(r.value.store)
  {
    var r1 := AddMainTask(store, pid, uid, tb);
    if r1.Ok? { WriteKeepsStoreValid(store, r1.value.store, pid); }
    var r2 := UpdateMainTask(store, pid, uid, i, tp);
    if r2.Ok? { WriteKeepsStoreValid(store, r2.value.store, pid); }
    var r3 := DeleteMainTask(store, pid, uid, i);
    if r3.Ok? { WriteKeepsStoreValid(store, r3.value.store, pid); }
    var r4 := UpdateProject(store, pid, uid, pp);
    if r4.Ok? { WriteKeepsStoreValid(store, r4.value.store, pid); }
  }

  /** Every successful subtask write leaves a store of valid documents valid. */
  lemma SubtaskWritesPreserveStoreValidity(store: Store, pid: ProjectId, uid: UserId, i: int, j: int,
                                           sb: SubtaskPatch, sp: SubtaskPatch)
    requires StoreValid(store)
    ensures var r := AddSubtask(store, pid, uid, i, sb); r.Ok? ==> StoreValid(r.value.store)
    ensures var r := UpdateSubtask(store, pid, uid, i, j, sp); r.Ok? ==> StoreValid(r.value.store)
    ensures var r := DeleteSubtask(store, pid, uid, i, j); r.Ok? ==> StoreValid(r.value.store)
  {
    var r1 := AddSubtask(store, pid, uid, i, sb);
    if r1.Ok? { WriteKeepsStoreValid(store, r1.value.store, pid); }
    var r2 := UpdateSubtask(store, pid, uid, i, j, sp);
    if r2.Ok? { WriteKeepsStoreValid(store, r2.value.store, pid); }
    var r3 := DeleteSubtask(store, pid, uid, i, j);
    if r3.Ok? { WriteKeepsStoreValid(store, r3.value.store, pid); }
  }

  /** Every successful comment write leaves a store of valid documents valid. */
  lemma CommentWritesPreserveStoreValidity(store: Store, pid: ProjectId, uid: UserId, i: int, j: int,
                                           cf: CommentFields, now: int)
    requires StoreValid(store)
    ensures var r := AddCommentToTask(store, pid, uid, i, cf, now); r.Ok? ==> StoreValid(r.value.store)
    ensures var r := AddCommentToSubtask(store, pid, uid, i, j, cf, now); r.Ok? ==> StoreValid(r.value.store)
  {
    var r1 := AddCommentToTask(store, pid, uid, i, cf, now);
    if r1.Ok? { WriteKeepsStoreValid(store, r1.value.store, pid); }
    var r2 := AddCommentToSubtask(store, pid, uid, i, j, cf, now);
    if r2.Ok? { WriteKeepsStoreValid(store, r2.value.store, pid); }
  }

  // ------------------------------------------------------------ listing

  /** The query string of `getAllProjects`; every field may be absent. */
  datatype PageRequest = PageRequest(
    page: Option<string>,
    limit: Option<string>,
    status: Option<string>,
    sortBy: Option<string>,
    sortOrder: Option<string>)

  /** The pagination validator: page an integer >= 1, limit one in 1..100. */
  predicate ValidPaging(q: PageRequest) {
    && (q.page.Some? ==> Text.IsIntMin(q.page.value, 1))
    && (q.limit.Some? ==> Text.IsIntRange(q.limit.value, 1, 100))
  }

  /** What the service asks the database for. */
  datatype PagePlan = PagePlan(
    owner: UserId,
    status: Option<string>,
    sortField: string,
    descending: bool,
    page: int,
    limit: int,
    skip: int)

  const DEFAULT_PAGE: int := 1
  const DEFAULT_LIMIT: int := 10
  const DEFAULT_SORT_FIELD: string := "createdAt"

  /** The options with their defaults, the owner filter, a status filter only
      when the status is truthy, and the skip count. The query-string numbers
      enter the arithmetic through JavaScript's string-to-number coercion,
      which on a validated string gives its integer value. */
  function PlanPage(uid: UserId, q: PageRequest): (r: PagePlan)
    requires ValidPaging(q)
    ensures r.owner == uid
    ensures r.page >= 1 && 1 <= r.limit <= 100 && r.skip == (r.page - 1) * r.limit && r.skip >= 0
    ensures q.page.None? ==> r.page == 1
    ensures q.page.Some? ==> r.page == Text.IntValue(q.page.value)
    ensures q.limit.None? ==> r.limit == 10
    ensures q.limit.Some? ==> r.limit == Text.IntValue(q.limit.value)
    ensures q.sortBy.None? ==> r.sortField == "createdAt"
    ensures q.sortBy.Some? ==> r.sortField == q.sortBy.value
    ensures r.descending <==> q.sortOrder.None? || q.sortOrder == Some("desc")
    ensures r.status.Some? <==> q.status.Some? && q.status.value != ""
    ensures r.status.Some? ==> r.status == q.status
  {
    var page := if q.page.Some? then Text.IntValue(q.page.value) else DEFAULT_PAGE;
    var limit := if q.limit.Some? then Text.IntValue(q.limit.value) else DEFAULT_LIMIT;
    Arith.MulNonNegative(page - 1, limit);
    PagePlan(
      uid,
      if q.status.Some? && q.status.value != "" then q.status else None,
      q.sortBy.GetOr(DEFAULT_SORT_FIELD),
      q.sortOrder.GetOr("desc") == "desc",
      page,
      limit,
      (page - 1) * limit)
  }

  /** The query `{createdBy: userId, status?}`. */
  predicate Matches(plan: PagePlan, p: Project) {
    p.createdBy == Some(plan.owner) && (plan.status.Some? ==> p.status == plan.status.value)
  }

  /** `countDocuments(query)`. */
  function Total(store: Store, plan: PagePlan): nat {
    |set pid | pid in store && Matches(plan, store[pid])|
  }

  /** `Math.ceil(total / limit)`. */
  function PageCount(total: nat, limit: int): (pages: nat)
    requires limit > 0
    ensures total == 0 <==> pages == 0
    ensures total > 0 ==> (pages - 1) * limit < total <= pages * limit
  {
    PageCountBounds(total, limit);
    (total + limit - 1) / limit
  }

  lemma PageCountBounds(total: nat, limit: int)
    requires limit > 0
    ensures var pages := (total + limit - 1) / limit;
      && pages >= 0
      && (total == 0 <==> pages == 0)
      && (total > 0 ==> (pages - 1) * limit < total <= pages * limit)
  {
    var a := total + limit - 1;
    var pages := a / limit;
    assert a == pages * limit + a % limit && 0 <= a % limit < limit;
    if total > 0 {
      Arith.DivAtLeast(a, limit, 1);
    } else {
      Arith.DivBelow(a, limit, 1);
    }
  }

  datatype Pagination = Pagination(page: int, limit: int, total: nat, pages: nat)

  /** The `pagination` block of `getAllProjects`. */
  function GetPagination(store: Store, uid: UserId, q: PageRequest): (r: Pagination)
    requires ValidPaging(q)
    ensures r.page == PlanPage(uid, q).page && r.limit == PlanPage(uid, q).limit
    ensures r.total == Total(store, PlanPage(uid, q))
    ensures r.total == 0 <==> r.pages == 0
    ensures r.total > 0 ==> (r.pages - 1) * r.limit < r.total <= r.pages * r.limit
  {
    var plan := PlanPage(uid, q);
    var total := Total(store, plan);
    Pagination(plan.page, plan.limit, total, PageCount(total, plan.limit))
  }

  /** Pages tile the result: position `x` of the sorted result lies on page
      `x / limit + 1`, inside that page's window, and that page is at most the
      page count. */
  lemma PagesTileResult(total: nat, limit: int, x: nat)
    requires limit > 0 && x < total
    ensures var k := x / limit + 1; var skip := (k - 1) * limit;
      && 1 <= k <= PageCount(total, limit)
      && skip <= x < skip + limit
  {
    var k := x / limit + 1;
    var pages := PageCount(total, limit);
    assert x == (x / limit) * limit + x % limit;
    assert (k - 1) * limit <= x;
    assert x < k * limit;
    assert k <= pages by {
      assert x < pages * limit;
      Arith.DivBelow(x, limit, pages);
    }
  }

  /** Only the caller's projects are counted. */
  lemma TotalCountsOwnProjectsOnly(store: Store, plan: PagePlan)
    ensures Total(store, plan) <= |set pid | pid in store && store[pid].createdBy == Some(plan.owner)|
  {
    var matched := set pid | pid in store && Matches(plan, store[pid]);
    var owned := set pid | pid in store && store[pid].createdBy == Some(plan.owner);
    assert matched <= owned;
    SubsetCardinality(matched, owned);
  }

  lemma SubsetCardinality<T>(a: set<T>, b: set<T>)
    requires a <= b
    ensures |a| <= |b|
  {
    assert b == a + (b - a);
  }
}

=== FILE: text.dfy ===
/** The JavaScript string operations the core relies on: `trim`, `startsWith`,
    `includes`, the code-fence `replace`, `parseInt(…, 10)`, validator.js
    `isInt` and ASCII lower-casing. */
module Text {
  import opened Wrappers

  /** ECMAScript WhiteSpace and LineTerminator code points: the set `trim`
      removes and the set `\s` matches. */
  predicate IsSpace(c: char) {
    c == ' ' || c == '\t' || c == '\n' || c == '\r' || c == '\U{B}' || c == '\U{C}'
    || c == '\U{A0}' || c == '\U{1680}' || ('\U{2000}' <= c <= '\U{200A}')
    || c == '\U{2028}' || c == '\U{2029}' || c == '\U{202F}' || c == '\U{205F}'
    || c == '\U{3000}' || c == '\U{FEFF}'
  }

  predicate AllSpace(s: string) {
    forall i :: 0 <= i < |s| ==> IsSpace(s[i])
  }

  /** The first position at or after `i` that is not white space (or the
      end of `s`). */
  function SkipSpaces(s: string, i: nat): (k: nat)
    requires i <= |s|
    ensures i <= k <= |s|
    ensures forall j :: i <= j < k ==> IsSpace(s[j])
    ensures k < |s| ==> !IsSpace(s[k])
    decreases |s| - i
  {
    if i < |s| && IsSpace(s[i]) then SkipSpaces(s, i + 1) else i
  }

  /** The position just past the last character before `j` that is not
      white space, going no lower than `lo`. */
  function SkipSpacesBack(s: string, lo: nat, j: nat): (k: nat)
    requires lo <= j <= |s|
    ensures lo <= k <= j
    ensures forall m :: k <= m < j ==> IsSpace(s[m])
    ensures k > lo ==> !IsSpace(s[k - 1])
    decreases j
  {
    if j > lo && IsSpace(s[j - 1]) then SkipSpacesBack(s, lo, j - 1) else j
  }

  /** How many leading white-space characters `trim` drops. */
  function TrimOffset(s: string): nat {
    SkipSpaces(s, 0)
  }

  /** `String.prototype.trimStart`. */
  function TrimStart(s: string): (r: string)
    ensures |r| <= |s| && r == s[|s| - |r|..]
    ensures AllSpace(s[..|s| - |r|])
    ensures |r| > 0 ==> !IsSpace(r[0])
  {
    var o := TrimOffset(s);
    assert forall i :: 0 <= i < o ==> s[..o][i] == s[i];
    s[o..]
  }

  /** `String.prototype.trim`: the slice of `s` left after dropping white space
      at both ends. */
  function Trim(s: string): (r: string)
    ensures TrimOffset(s) + |r| <= |s| && r == s[TrimOffset(s)..TrimOffset(s) + |r|]
    ensures AllSpace(s[..TrimOffset(s)]) && AllSpace(s[TrimOffset(s) + |r|..])
    ensures |r| > 0 ==> !IsSpace(r[0]) && !IsSpace(r[|r| - 1])
  {
    var o := TrimOffset(s);
    var e := SkipSpacesBack(s, o, |s|);
    assert forall i :: 0 <= i < o ==> s[..o][i] == s[i];
    assert forall i :: 0 <= i < |s| - e ==> s[e..][i] == s[e + i];
    s[o..e]
  }

  /** A trimmed string is empty exactly when the input is all white space. */
  lemma TrimEmptyIff(s: string)
    ensures Trim(s) == "" <==> AllSpace(s)
  {
    var o, r := TrimOffset(s), Trim(s);
    if r == "" {
      forall i | 0 <= i < |s| ensures IsSpace(s[i]) {
        assert s[..o][i] == s[i];
      }
    } else {
      assert r[0] == s[o] && !IsSpace(s[o]);
    }
  }

  /** Trimming a string with no white space at either end changes nothing, so
      `trim` is idempotent. */
  lemma TrimFixpoint(s: string)
    requires |s| > 0 ==> !IsSpace(s[0]) && !IsSpace(s[|s| - 1])
    ensures Trim(s) == s
  {
  }

  lemma TrimIdempotent(s: string)
    ensures Trim(Trim(s)) == Trim(s)
  {
    TrimFixpoint(Trim(s));
  }

  predicate StartsWith(s: string, prefix: string) {
    |prefix| <= |s| && s[..|prefix|] == prefix
  }

  /** `p` occurs in `s` starting at position `i`. */
  predicate OccursAt(s: string, p: string, i: int) {
    0 <= i && i + |p| <= |s| && s[i..i + |p|] == p
  }

  /** `String.prototype.includes`. */
  function Contains(s: string, p: string): (r: bool)
    ensures r <==> exists i :: OccursAt(s, p, i)
    decreases |s|
  {
    if StartsWith(s, p) then
      assert OccursAt(s, p, 0);
      true
    else if |s| == 0 then
      assert forall i :: !OccursAt(s, p, i);
      false
    else
      var rest := Contains(s[1..], p);
      assert forall i :: 1 <= i ==> (OccursAt(s, p, i) <==> OccursAt(s[1..], p, i - 1)) by {
        forall i | 1 <= i
          ensures OccursAt(s, p, i) <==> OccursAt(s[1..], p, i - 1)
        {
          if i + |p| <= |s| {
            var a, b := s[i..i + |p|], s[1..][i - 1..i - 1 + |p|];
            assert |a| == |b| && forall t :: 0 <= t < |a| ==> a[t] == s[i + t] == b[t];
            assert a == b;
          }
        }
      }
      if rest then
        var k :| OccursAt(s[1..], p, k);
        assert OccursAt(s, p, k + 1);
        true
      else
        assert !OccursAt(s, p, 0);
        false
  }

  /** An occurrence inside a slice is an occurrence in the whole string, so a
      slice of a string without `p` has no `p` either. */
  lemma NotContainsSlice(s: string, p: string, lo: int, hi: int)
    requires 0 <= lo <= hi <= |s| && !Contains(s, p)
    ensures !Contains(s[lo..hi], p)
  {
    forall i | 0 <= i
      ensures !OccursAt(s[lo..hi], p, i)
    {
      assert !OccursAt(s, p, lo + i);
      var t := s[lo..hi];
      if i + |p| <= |t| {
        var a, b := t[i..i + |p|], s[lo + i..lo + i + |p|];
        assert forall k :: 0 <= k < |p| ==> a[k] == b[k];
        assert a == b;
      }
    }
  }

  const FENCE: string := "```"
  const FENCE_JSON: string := "```json"

  /** `text.replace(/```json|```/g, '')`: a left-to-right scan that removes
      every match, trying the longer alternative first. */
  function StripFences(s: string): (r: string)
    ensures |r| <= |s|
    ensures (forall k :: 0 <= k < |s| ==> s[k] != '`') ==> r == s
    decreases |s|
  {
    if |s| == 0 then ""
    else if StartsWith(s, FENCE_JSON) then
      assert s[0] == s[..7][0] == '`';
      StripFences(s[7..])
    else if StartsWith(s, FENCE) then
      assert s[0] == s[..3][0] == '`';
      StripFences(s[3..])
    else
      assert s == [s[0]] + s[1..];
      [s[0]] + StripFences(s[1..])
  }

  /** A string starts with the fence exactly when its first three characters
      are backticks. */
  lemma StartsWithFenceIff(x: string)
    ensures StartsWith(x, FENCE) <==> |x| >= 3 && x[0] == '`' && x[1] == '`' && x[2] == '`'
    ensures StartsWith(x, FENCE_JSON) ==> StartsWith(x, FENCE)
  {
    if |x| >= 3 {
      assert x[..3] == [x[0], x[1], x[2]];
    }
    if StartsWith(x, FENCE_JSON) {
      assert x[..3] == x[..7][..3];
    }
  }

  /** Dropping one backtick in front of a text that does not start with a fence
      and keeping the rest. */
  lemma StripFencesKeep(s: string)
    requires |s| > 0 && !(|s| >= 3 && s[0] == '`' && s[1] == '`' && s[2] == '`')
    ensures StripFences(s) == [s[0]] + StripFences(s[1..])
  {
    StartsWithFenceIff(s);
  }

  /** After a kept backtick the output never continues with two more: a kept
      backtick is followed in the input by a non-backtick within two places. */
  lemma StripFencesKeptTick(s: string)
    requires |s| > 0 && s[0] == '`' && !(|s| >= 3 && s[1] == '`' && s[2] == '`')
    ensures |StripFences(s[1..])| < 2 || StripFences(s[1..])[0] != '`' || StripFences(s[1..])[1] != '`'
  {
    var t := s[1..];
    if |t| > 0 {
      StripFencesKeep(t);
      if t[0] == '`' && |t| > 1 {
        var u := t[1..];
        StripFencesKeep(u);
      }
    }
  }

  /** The scan never leaves a triple backtick behind: removal cannot join kept
      backticks into a new fence. */
  lemma {:induction false} StripFencesLeavesNoFence(s: string)
    ensures !Contains(StripFences(s), FENCE)
    decreases |s|
  {
    StartsWithFenceIff(s);
    if |s| == 0 {
    } else if StartsWith(s, FENCE_JSON) {
      StripFencesLeavesNoFence(s[7..]);
    } else if StartsWith(s, FENCE) {
      StripFencesLeavesNoFence(s[3..]);
    } else {
      var rest := StripFences(s[1..]);
      StripFencesLeavesNoFence(s[1..]);
      var out := [s[0]] + rest;
      assert out[1..] == rest;
      StartsWithFenceIff(out);
      if s[0] == '`' {
        StripFencesKeptTick(s);
      }
      assert !StartsWith(out, FENCE);
    }
  }

  /** Text without a fence passes the scan unchanged. */
  lemma {:induction false} StripFencesFixpoint(s: string)
    requires !Contains(s, FENCE)
    ensures StripFences(s) == s
    decreases |s|
  {
    if |s| > 0 {
      StartsWithFenceIff(s);
      StripFencesFixpoint(s[1..]);
      assert s == [s[0]] + s[1..];
    }
  }

  /** Stripping twice is the same as stripping once. */
  lemma StripFencesIdempotent(s: string)
    ensures StripFences(StripFences(s)) == StripFences(s)
  {
    StripFencesLeavesNoFence(s);
    StripFencesFixpoint(StripFences(s));
  }

  /** The two inputs where a closing fence follows one or two backticks. */
  lemma StripShortTicks()
    ensures StripFences("````") == "`"
    ensures StripFences("`````") == "``"
  {
    StartsWithFenceIff("````");
    StartsWithFenceIff("`````");
    assert "````"[3..] == "`";
    assert "`````"[3..] == "``";
    StripFencesKeep("`");
    StripFencesKeep("``");
    StripFencesKeep("`");
    assert "``"[1..] == "`";
    assert "`"[1..] == "";
  }

  /** A closing fence after fence-free text is removed and nothing else. */
  lemma {:induction false} StripTrailingFence(body: string)
    requires !Contains(body, FENCE)
    ensures StripFences(body + FENCE) == body
    decreases |body|
  {
    var s := body + FENCE;
    if |body| == 0 {
      StartsWithFenceIff(s);
      assert s[3..] == "";
    } else if |body| <= 2 && body[0] == '`' && body[|body| - 1] == '`' {
      // one or two backticks: the fence match starts inside the body
      StripShortTicks();
      if |body| == 1 {
        assert body == "`";
        assert s == "````";
      } else {
        assert body == "``";
        assert s == "`````";
      }
    } else {
      KeptBeforeFence(body);
      StripTrailingFence(body[1..]);
      assert body == [body[0]] + body[1..];
    }
  }

  /** The first character of fence-free text followed by a fence is kept by
      the scan, unless the text is one or two backticks. */
  lemma KeptBeforeFence(body: string)
    requires |body| > 0 && !Contains(body, FENCE)
    requires !(|body| <= 2 && body[0] == '`' && body[|body| - 1] == '`')
    ensures !Contains(body[1..], FENCE)
    ensures StripFences(body + FENCE) == [body[0]] + StripFences(body[1..] + FENCE)
  {
    var s := body + FENCE;
    assert !StartsWith(body, FENCE) && !Contains(body[1..], FENCE);
    StartsWithFenceIff(body);
    assert s[0] == body[0] && (|body| >= 2 ==> s[1] == body[1]) && (|body| >= 3 ==> s[2] == body[2]);
    StripFencesKeep(s);
    TailOfAppend(body, FENCE);
  }

  /** Dropping the first element of a concatenation drops it from the left part. */
  lemma TailOfAppend<T>(a: seq<T>, b: seq<T>)
    requires |a| > 0
    ensures (a + b)[1..] == a[1..] + b
  {
  }

  /** Round trip with the way a model wraps its JSON answer: a body without
      fences survives being put between "```json" and "```" and stripped. */
  lemma StripFencesUnwrapsBlock(body: string)
    requires !Contains(body, FENCE)
    ensures StripFences(FENCE_JSON + body + FENCE) == body
  {
    var s := FENCE_JSON + body + FENCE;
    assert StartsWith(s, FENCE_JSON);
    assert s[7..] == body + FENCE;
    StripTrailingFence(body);
  }

  // ---------------------------------------------------------------- integers

  predicate IsDigit(c: char) {
    '0' <= c <= '9'
  }

  predicate AllDigits(s: string) {
    forall i :: 0 <= i < |s| ==> IsDigit(s[i])
  }

  /** The decimal value of a digit string, read left to right. */
  function DigitsValue(d: string): nat
    requires AllDigits(d)
    decreases |d|
  {
    if |d| == 0 then 0
    else DigitsValue(d[..|d| - 1]) * 10 + ((d[|d| - 1] as int) - ('0' as int))
  }

  /** The length of the longest all-digit prefix of `s`. */
  function DigitPrefixLength(s: string): (n: nat)
    ensures n <= |s| && AllDigits(s[..n])
    ensures n < |s| ==> !IsDigit(s[n])
    decreases |s|
  {
    if |s| > 0 && IsDigit(s[0]) then
      var k := DigitPrefixLength(s[1..]);
      assert s[..k + 1] == [s[0]] + s[1..][..k];
      k + 1
    else 0
  }

  /** The result of `parseInt`: a number or NaN. */
  datatype ParsedInt = NaN | Num(n: int)

  function SignOf(s: string): int {
    if |s| > 0 && s[0] == '-' then -1 else 1
  }

  function DropSign(s: string): string {
    if |s| > 0 && (s[0] == '+' || s[0] == '-') then s[1..] else s
  }

  /** `parseInt(s, 10)`: skip leading white space, read an optional sign and
      the longest run of decimal digits; no digits gives NaN. A negative zero
      is the integer 0 here. */
  function ParseInt(s: string): (r: ParsedInt)
    ensures r.Num? <==> DigitPrefixLength(DropSign(TrimStart(s))) > 0
  {
    var t := TrimStart(s);
    var u := DropSign(t);
    var k := DigitPrefixLength(u);
    if k == 0 then NaN else Num(SignOf(t) * DigitsValue(u[..k]))
  }

  /** validator.js `isInt` with leading zeros allowed: `^[-+]?[0-9]+$`. */
  predicate IsIntString(s: string) {
    var u := DropSign(s);
    |u| > 0 && AllDigits(u)
  }

  /** The number `Number(s)` gives for a string that passes `IsIntString`. */
  function IntValue(s: string): int
    requires IsIntString(s)
  {
    SignOf(s) * DigitsValue(DropSign(s))
  }

  /** `isInt(s, {min})`. */
  predicate IsIntMin(s: string, min: int) {
    IsIntString(s) && IntValue(s) >= min
  }

  /** `isInt(s, {min, max})`. */
  predicate IsIntRange(s: string, min: int, max: int) {
    IsIntString(s) && min <= IntValue(s) <= max
  }

  /** A string the `isInt` validator admits is read by `parseInt` as the same
      integer: no NaN and no truncation reaches the code behind the validator. */
  lemma ParseIntAgreesWithIsInt(s: string)
    requires IsIntString(s)
    ensures ParseInt(s) == Num(IntValue(s))
  {
    var u := DropSign(s);
    assert !IsSpace(s[0]) by {
      if |s| > 0 && s[0] != '+' && s[0] != '-' { assert s[0] == u[0]; }
    }
    assert TrimStart(s) == s;
    var k := DigitPrefixLength(u);
    assert k == |u|;
    assert u[..k] == u;
  }

  /** `isInt(s, {min: 0})` guarantees that `parseInt` yields a non-negative
      integer. */
  lemma IsIntMinZeroParses(s: string)
    requires IsIntMin(s, 0)
    ensures ParseInt(s).Num? && ParseInt(s).n >= 0
  {
    ParseIntAgreesWithIsInt(s);
  }

  /** Canonical decimal form of a natural number (the inverse of reading). */
  function ShowNat(n: nat): (r: string)
    ensures |r| > 0 && AllDigits(r)
    ensures DigitsValue(r) == n
    decreases n
  {
    var d := ['0' + ((n % 10) as char)];
    if n < 10 then d
    else
      var h := ShowNat(n / 10);
      var r := h + d;
      assert r[..|r| - 1] == h;
      r
  }

  /** `parseInt` reads back the decimal form of any natural number. */
  lemma ParseIntShowNat(n: nat)
    ensures ParseInt(ShowNat(n)) == Num(n)
  {
    var s := ShowNat(n);
    assert IsIntString(s) by {
      assert DropSign(s) == s;
    }
    ParseIntAgreesWithIsInt(s);
    assert DropSign(s) == s;
  }

  // ------------------------------------------------------------- lower case

  function LowerChar(c: char): char {
    if 'A' <= c <= 'Z' then (c as int + 32) as char else c
  }

  /** `toLowerCase` restricted to the ASCII letters. */
  function ToLower(s: string): (r: string)
    ensures |r| == |s|
    ensures forall i :: 0 <= i < |s| ==> r[i] == LowerChar(s[i])
    ensures forall i :: 0 <= i < |r| ==> !('A' <= r[i] <= 'Z')
    ensures forall i :: 0 <= i < |s| && !('A' <= s[i] <= 'Z') ==> r[i] == s[i]
  {
    seq(|s|, i requires 0 <= i < |s| => LowerChar(s[i]))
  }

  // ------------------------------------------------------------- splitting

  /** The position of the first `c` in `s`, if any. */
  function IndexOf(s: string, c: char): (r: Option<nat>)
    ensures r.Some? ==> r.value < |s| && s[r.value] == c && forall k :: 0 <= k < r.value ==> s[k] != c
    ensures r.None? ==> forall k :: 0 <= k < |s| ==> s[k] != c
    decreases |s|
  {
    if |s| == 0 then None
    else if s[0] == c then Some(0)
    else match IndexOf(s[1..], c)
      case None => None
      case Some(k) => Some(k + 1)
  }

  /** `t` is what follows the space at `i`, up to the next space or the end. */
  predicate SegmentAfter(s: string, i: nat, t: string) {
    i + 1 + |t| <= |s| && t == s[i + 1..i + 1 + |t|]
    && (i + 1 + |t| == |s| || s[i + 1 + |t|] == ' ')
  }

  /** `s.split(' ')[1]`: the text between the first and the second space, or
      `undefined` when there is no space at all. */
  function SecondSegment(s: string): (r: Option<string>)
    ensures r.None? <==> forall k :: 0 <= k < |s| ==> s[k] != ' '
    ensures r.Some? ==> forall k :: 0 <= k < |r.value| ==> r.value[k] != ' '
    ensures r.Some? ==> IndexOf(s, ' ').Some? && SegmentAfter(s, IndexOf(s, ' ').value, r.value)
  {
    match IndexOf(s, ' ')
    case None => None
    case Some(i) =>
      var rest := s[i + 1..];
      match IndexOf(rest, ' ')
      case None =>
        assert rest == s[i + 1..i + 1 + |rest|];
        Some(rest)
      case Some(j) =>
        assert rest[..j] == s[i + 1..i + 1 + j];
        Some(rest[..j])
  }
}

=== FILE: user.dfy ===
/** The user document: its field rules, the secret-stripping JSON view, the
    password check, the two token generators and the credential lookup.
    bcrypt, SHA-256 and the random token are parameters. */
module Users {
  import opened Wrappers
  import opened Text
  import opened JsonValues

  type UserId = string

  /** A stored user. `password` holds the bcrypt hash; an `Option` is a field
      that is unset (`undefined`). Times are milliseconds since the epoch. */
  datatype User = User(
    id: UserId,
    name: string,
    email: string,
    password: Option<string>,
    role: string,
    googleId: Option<string>,
    avatar: string,
    isEmailVerified: bool,
    emailVerificationToken: Option<string>,
    emailVerificationExpires: Option<int>,
    passwordResetToken: Option<string>,
    passwordResetExpires: Option<int>,
    lastLogin: Option<int>,
    isActive: bool)

  const ROLES: set<string> := {"user", "admin"}
  const DEFAULT_ROLE: string := "user"

  /** Ten minutes and thirty minutes, in milliseconds. */
  const VERIFICATION_WINDOW: int := 10 * 60 * 1000
  const RESET_WINDOW: int := 30 * 60 * 1000

  // ------------------------------------------------------------------ email

  predicate NoSpace(s: string) {
    forall k :: 0 <= k < |s| ==> !IsSpace(s[k])
  }

  /** `@` at `i` and `.` at `j` split `s` into three non-empty runs. */
  predicate EmailSplit(s: string, i: int, j: int) {
    1 <= i && i + 2 <= j && j + 2 <= |s| && s[i] == '@' && s[j] == '.'
  }

  /** `/^\S+@\S+\.\S+$/`: no white space, and some `@` followed later by
      some `.` with at least one character before, between and after. */
  predicate EmailShape(s: string) {
    NoSpace(s) && exists i, j | 0 <= i < j < |s| :: EmailSplit(s, i, j)
  }

  /** The schema's email match, decided in one left-to-right scan that keeps
      the first usable `@`. */
  method MatchEmail(s: string) returns (b: bool)
    ensures b <==> EmailShape(s)
  {
    var firstAt := -1;
    var found := false;
    var k := 0;
    while k < |s|
      invariant 0 <= k <= |s|
      invariant forall m :: 0 <= m < k ==> !IsSpace(s[m])
      invariant firstAt == -1 ==> forall i :: 1 <= i < k ==> s[i] != '@'
      invariant firstAt != -1 ==> 1 <= firstAt < k && s[firstAt] == '@'
      invariant firstAt != -1 ==> forall i :: 1 <= i < firstAt ==> s[i] != '@'
      invariant found <==> exists i, j :: j < k && EmailSplit(s, i, j)
    {
      if IsSpace(s[k]) {
        assert !NoSpace(s);
        return false;
      }
      if s[k] == '.' && firstAt != -1 && firstAt + 2 <= k && k + 2 <= |s| {
        assert EmailSplit(s, firstAt, k);
        found := true;
      } else {
        assert forall i :: !EmailSplit(s, i, k);
      }
      if s[k] == '@' && k >= 1 && firstAt == -1 {
        firstAt := k;
      }
      k := k + 1;
    }
    return found;
  }

  /** The schema's setters for `email`: lower case, then trim. Queries on
      `email` go through the same setters. */
  function NormalizeEmail(s: string): string {
    Trim(ToLower(s))
  }

  /** A normalised email is already lower case and trimmed, and no longer
      than the input. */
  lemma NormalizedEmailIsNormal(s: string)
    ensures var r := NormalizeEmail(s); ToLower(r) == r && Trim(r) == r && |r| <= |s|
  {
    ToLowerOfTrimmed(ToLower(s));
    TrimIdempotent(ToLower(s));
  }

  lemma ToLowerIdempotent(s: string)
    ensures ToLower(ToLower(s)) == ToLower(s)
  {
  }

  lemma ToLowerOfTrimmed(s: string)
    requires ToLower(s) == s
    ensures ToLower(Trim(s)) == Trim(s)
  {
    var t, o := Trim(s), TrimOffset(s);
    LowerSlice(s, o, o + |t|);
  }

  /** A slice of a lower-case string is lower case. */
  lemma LowerSlice(s: string, i: nat, j: nat)
    requires i <= j <= |s| && ToLower(s) == s
    ensures ToLower(s[i..j]) == s[i..j]
  {
    var t := s[i..j];
    forall k | 0 <= k < |t|
      ensures !('A' <= t[k] <= 'Z')
    {
      assert t[k] == s[i + k];
    }
    ToLowerFixpoint(t);
  }

  /** Lower-casing a string without capitals changes nothing. */
  lemma ToLowerFixpoint(t: string)
    requires forall k :: 0 <= k < |t| ==> !('A' <= t[k] <= 'Z')
    ensures ToLower(t) == t
  {
    var l := ToLower(t);
    assert |l| == |t| && forall k :: 0 <= k < |t| ==> l[k] == t[k];
  }

  /** Normalising a stored email again changes nothing, so a stored email
      is found by its own value. */
  lemma NormalizeEmailIdempotent(s: string)
    ensures NormalizeEmail(NormalizeEmail(s)) == NormalizeEmail(s)
  {
    NormalizedEmailIsNormal(s);
  }

  // ------------------------------------------------------------ validation

  /** `!this.googleId`: no Google account linked. */
  predicate NoGoogle(u: User) {
    u.googleId.None? || u.googleId.value == ""
  }

  /** The password rule on the plain text being saved: required exactly
      when no Google account is linked, and at least six characters when
      given. */
  predicate PasswordOk(plain: Option<string>, noGoogle: bool) {
    && (noGoogle ==> plain.Some? && plain.value != "")
    && (plain.Some? ==> |plain.value| >= 6)
  }

  /** The other field rules: name 2..100 after trim, a well-formed email,
      a known role. */
  predicate ProfileOk(u: User) {
    && 2 <= |u.name| <= 100
    && EmailShape(u.email)
    && u.role in ROLES
  }

  /** The password rule by length: six characters or more always pass, fewer
      never do, and leaving the password out passes only for an account
      linked to Google. */
  lemma PasswordRule(plain: Option<string>, noGoogle: bool)
    ensures plain.Some? && |plain.value| >= 6 ==> PasswordOk(plain, noGoogle)
    ensures plain.Some? && |plain.value| < 6 ==> !PasswordOk(plain, noGoogle)
    ensures plain.None? ==> (PasswordOk(plain, noGoogle) <==> !noGoogle)
  {
  }

  /** The profile rules read only the name, the email and the role: a save
      that changes tokens, flags, the password or timestamps cannot newly
      fail them. */
  lemma ProfileOkFrame(u: User, v: User)
    requires u.name == v.name && u.email == v.email && u.role == v.role
    ensures ProfileOk(u) <==> ProfileOk(v)
  {
  }

  /** What a registration gives the schema. */
  datatype NewUserFields = NewUserFields(name: string, email: string, password: Option<string>)

  /** `User.create`: the setters trim the name and normalise the email,
      defaults fill the rest, validation runs on the plain password, and the
      pre-save hook stores its hash when it is non-empty. */
  function CreateUser(id: UserId, f: NewUserFields, tokenHash: string, expires: int, hashPw: string -> string)
    : (r: Option<User>)
    ensures r.Some? <==> 2 <= |Trim(f.name)| <= 100 && EmailShape(NormalizeEmail(f.email)) && PasswordOk(f.password, true)
    ensures r.Some? ==> var u := r.value;
      && u.id == id && u.name == Trim(f.name) && u.email == NormalizeEmail(f.email)
      && u.password == Some(hashPw(f.password.value))
      && u.role == DEFAULT_ROLE && !u.isEmailVerified && u.isActive && u.avatar == ""
      && u.emailVerificationToken == Some(tokenHash) && u.emailVerificationExpires == Some(expires)
      && u.passwordResetToken.None? && u.passwordResetExpires.None? && u.lastLogin.None?
      && ProfileOk(u)
  {
    var u := User(id, Trim(f.name), NormalizeEmail(f.email), f.password, DEFAULT_ROLE, None, "", false,
                  Some(tokenHash), Some(expires), None, None, None, true);
    if ProfileOk(u) && PasswordOk(f.password, NoGoogle(u)) then
      Some(u.(password := Some(hashPw(f.password.value))))
    else None
  }

  // --------------------------------------------------------------- toJSON

  function OptStr(v: Option<string>): Json {
    if v.Some? then JStr(v.value) else JUndefined
  }

  function OptNum(v: Option<int>): Json {
    if v.Some? then JNum(v.value) else JUndefined
  }

  /** The paths of a user document: `ObjectId` is `_id`, `Id` the `id`
      virtual the JSON view includes; the rest carry the schema's names. */
  datatype Path =
    | ObjectId | Id | Name | Email | Password | Role | GoogleId | Avatar | IsEmailVerified
    | EmailVerificationToken | EmailVerificationExpires | PasswordResetToken | PasswordResetExpires
    | LastLogin | IsActive

  /** The value of one path; unset paths are `undefined`. */
  function Value(u: User, p: Path): Json {
    match p
    case ObjectId => JStr(u.id)
    case Id => JStr(u.id)
    case Name => JStr(u.name)
    case Email => JStr(u.email)
    case Password => OptStr(u.password)
    case Role => JStr(u.role)
    case GoogleId => OptStr(u.googleId)
    case Avatar => JStr(u.avatar)
    case IsEmailVerified => JBool(u.isEmailVerified)
    case EmailVerificationToken => OptStr(u.emailVerificationToken)
    case EmailVerificationExpires => OptNum(u.emailVerificationExpires)
    case PasswordResetToken => OptStr(u.passwordResetToken)
    case PasswordResetExpires => OptNum(u.passwordResetExpires)
    case LastLogin => OptNum(u.lastLogin)
    case IsActive => JBool(u.isActive)
  }

  /** The paths `toJSON` deletes. */
  const SECRET_PATHS: set<Path> :=
    {Password, EmailVerificationToken, EmailVerificationExpires, PasswordResetToken, PasswordResetExpires}

  /** The paths the client sees. */
  const PUBLIC_PATHS: set<Path> :=
    {ObjectId, Id, Name, Email, Role, GoogleId, Avatar, IsEmailVerified, LastLogin, IsActive}

  /** Every path is public or secret, never both. */
  lemma PathsPartition(p: Path)
    ensures p in PUBLIC_PATHS <==> p !in SECRET_PATHS
  {
    match p
    case Password =>
    case EmailVerificationToken =>
    case EmailVerificationExpires =>
    case PasswordResetToken =>
    case PasswordResetExpires =>
    case _ =>
  }

  /** A user loaded with `select('-password')`: the hash is not read, and
      every other path is. */
  function WithoutPassword(u: User): (v: User)
    ensures v.password.None?
    ensures v.(password := u.password) == u
  {
    u.(password := None)
  }

  /** The `toJSON` transform: a path is in the view exactly when it is not
      one of the five secrets, and it keeps its value. */
  function ToJson(u: User): (r: map<Path, Json>)
    ensures forall p: Path :: p in r <==> p !in SECRET_PATHS
    ensures forall p :: p in r ==> r[p] == Value(u, p)
  {
    forall p: Path ensures p in PUBLIC_PATHS <==> p !in SECRET_PATHS {
      PathsPartition(p);
    }
    map p | p in PUBLIC_PATHS :: Value(u, p)
  }

  /** Hiding a secret never changes what the client sees: two users that
      differ only in their hash and tokens have the same view. */
  lemma ToJsonIgnoresSecrets(u: User, v: User)
    requires v == u.(password := v.password, emailVerificationToken := v.emailVerificationToken,
                     emailVerificationExpires := v.emailVerificationExpires,
                     passwordResetToken := v.passwordResetToken, passwordResetExpires := v.passwordResetExpires)
    ensures ToJson(u) == ToJson(v)
  {
  }

  // ------------------------------------------------------------- passwords

  /** `comparePassword`: false when nothing is stored, otherwise bcrypt's
      verdict (`matches(candidate, hash)`). */
  function ComparePassword(u: User, candidate: string, matches: (string, string) -> bool): (r: bool)
    ensures (u.password.None? || u.password.value == "") ==> !r
    ensures r ==> u.password.Some? && matches(candidate, u.password.value)
    ensures u.password.Some? && u.password.value != "" && matches(candidate, u.password.value) ==> r
  {
    if u.password.None? || u.password.value == "" then false else matches(candidate, u.password.value)
  }

  // ---------------------------------------------------------------- tokens

  /** `generateEmailVerificationToken`: stores the hash of `token` and an
      expiry ten minutes after `now`, and hands back `token` itself. */
  function GenerateEmailVerificationToken(u: User, token: string, now: int, sha256: string -> string)
    : (r: (User, string))
    ensures r.1 == token
    ensures r.0.emailVerificationToken == Some(sha256(r.1))
    ensures r.0.emailVerificationExpires == Some(now + 600000)
    ensures r.0.(emailVerificationToken := u.emailVerificationToken,
                 emailVerificationExpires := u.emailVerificationExpires) == u
  {
    (u.(emailVerificationToken := Some(sha256(token)), emailVerificationExpires := Some(now + VERIFICATION_WINDOW)), token)
  }

  /** `generatePasswordResetToken`: the same with a thirty-minute window.
      It returns the token as a plain string. */
  function GeneratePasswordResetToken(u: User, token: string, now: int, sha256: string -> string)
    : (r: (User, string))
    ensures r.1 == token
    ensures r.0.passwordResetToken == Some(sha256(r.1))
    ensures r.0.passwordResetExpires == Some(now + 1800000)
    ensures r.0.(passwordResetToken := u.passwordResetToken, passwordResetExpires := u.passwordResetExpires) == u
  {
    (u.(passwordResetToken := Some(sha256(token)), passwordResetExpires := Some(now + RESET_WINDOW)), token)
  }

  // ---------------------------------------------------------------- lookup

  /** `findOne({ email })`: the first user, in stored order, with that
      email after the schema's setters. */
  function FindByEmail(users: seq<User>, email: string): (r: Option<nat>)
    ensures r.None? <==> forall k :: 0 <= k < |users| ==> users[k].email != NormalizeEmail(email)
    ensures r.Some? ==> r.value < |users| && users[r.value].email == NormalizeEmail(email)
    ensures r.Some? ==> forall k :: 0 <= k < r.value ==> users[k].email != NormalizeEmail(email)
  {
    FirstWhere(users, (u: User) => u.email == NormalizeEmail(email))
  }

  /** `findById`. */
  function FindById(users: seq<User>, id: UserId): (r: Option<nat>)
    ensures r.None? <==> forall k :: 0 <= k < |users| ==> users[k].id != id
    ensures r.Some? ==> r.value < |users| && users[r.value].id == id
  {
    FirstWhere(users, (u: User) => u.id == id)
  }

  function FirstWhere(users: seq<User>, p: User -> bool): (r: Option<nat>)
    ensures r.None? <==> forall k :: 0 <= k < |users| ==> !p(users[k])
    ensures r.Some? ==> r.value < |users| && p(users[r.value])
    ensures r.Some? ==> forall k :: 0 <= k < r.value ==> !p(users[k])
  {
    if |users| == 0 then None
    else if p(users[0]) then Some(0)
    else match FirstWhere(users[1..], p)
      case None => None
      case Some(k) => Some(k + 1)
  }

  /** `findByCredentials`: the user with that email whose stored hash
      matches the password, and nothing when either check fails. */
  function FindByCredentials(users: seq<User>, email: string, password: string, matches: (string, string) -> bool)
    : (r: Option<nat>)
    ensures r.Some? <==> FindByEmail(users, email).Some? && ComparePassword(users[FindByEmail(users, email).value], password, matches)
    ensures r.Some? ==> r == FindByEmail(users, email)
  {
    match FindByEmail(users, email)
    case None => None
    case Some(k) => if ComparePassword(users[k], password, matches) then Some(k) else None
  }
}

=== FILE: validators.dfy ===
/** The request validators of the current API, one function per validator
    array: each returns the errors its chains report, in chain order, and a
    chain without `bail` reports every rule it breaks. Body fields are
    strings or absent; route parameters are always present. A trimming chain
    also writes the trimmed value back into the request (`Sanitize…`). */
module Validators {
  import opened Wrappers
  import opened Constants
  import opened Text
  import opened ProjectModel
  import ProjectService

  datatype FieldError = FieldError(field: string, message: string)

  // ------------------------------------------------------------ chain kinds

  /** `.trim().notEmpty().isLength({min, max})`: an absent value reads as the
      empty string and so breaks both rules. */
  function RequiredText(field: string, v: Option<string>, min: nat, max: nat, missing: string, length: string)
    : (r: seq<FieldError>)
    ensures r == [] <==> v.Some? && 0 < |Trim(v.value)| && min <= |Trim(v.value)| <= max
    ensures |r| <= 2
  {
    var t := Trim(v.GetOr(""));
    (if |t| == 0 then [FieldError(field, missing)] else [])
    + (if min <= |t| <= max then [] else [FieldError(field, length)])
  }

  /** `.optional().trim().isLength({min, max})`. */
  function OptionalText(field: string, v: Option<string>, min: nat, max: nat, length: string): (r: seq<FieldError>)
    ensures r == [] <==> v.None? || min <= |Trim(v.value)| <= max
  {
    if v.Some? && !(min <= |Trim(v.value)| <= max) then [FieldError(field, length)] else []
  }

  /** `.optional().isIn(values)`. */
  function OptionalIn(field: string, v: Option<string>, values: set<string>, message: string): (r: seq<FieldError>)
    ensures r == [] <==> v.None? || v.value in values
  {
    if v.Some? && v.value !in values then [FieldError(field, message)] else []
  }

  /** `.isInt({min})` on a route parameter or, with `optional`, a query one. */
  function IntAtLeast(field: string, raw: string, min: int, message: string): (r: seq<FieldError>)
    ensures r == [] <==> IsIntMin(raw, min)
  {
    if IsIntMin(raw, min) then [] else [FieldError(field, message)]
  }

  /** The value a trimming chain leaves in the request. */
  function Trimmed(v: Option<string>): (r: Option<string>)
    ensures r.None? <==> v.None?
    ensures v.Some? ==> r.value == Trim(v.value)
  {
    if v.Some? then Some(Trim(v.value)) else None
  }

  // -------------------------------------------------------------- projects

  const TITLE_REQUIRED: string := "Project title is required"
  const TITLE_LENGTH: string := "Title must be between 3 and 200 characters"
  const PROJECT_DESCRIPTION_LENGTH: string := "Description must not exceed 2000 characters"
  const PROJECT_STATUS_INVALID: string := "Invalid project status"

  /** `createProjectValidator` (the `dueDate` format rule is not modelled). */
  function CreateProjectErrors(f: ProjectFields): (r: seq<FieldError>)
    ensures r == [] <==>
      && f.title.Some? && 3 <= |Trim(f.title.value)| <= 200
      && (f.description.Some? ==> |Trim(f.description.value)| <= 2000)
      && (f.status.Some? ==> f.status.value in PROJECT_STATUS)
  {
    RequiredText("title", f.title, 3, 200, TITLE_REQUIRED, TITLE_LENGTH)
    + OptionalText("description", f.description, 0, 2000, PROJECT_DESCRIPTION_LENGTH)
    + OptionalIn("status", f.status, PROJECT_STATUS, PROJECT_STATUS_INVALID)
  }

  /** `updateProjectValidator`: the same rules with the title optional. */
  function UpdateProjectErrors(f: ProjectFields): (r: seq<FieldError>)
    ensures r == [] <==>
      && (f.title.Some? ==> 3 <= |Trim(f.title.value)| <= 200)
      && (f.description.Some? ==> |Trim(f.description.value)| <= 2000)
      && (f.status.Some? ==> f.status.value in PROJECT_STATUS)
  {
    OptionalText("title", f.title, 3, 200, TITLE_LENGTH)
    + OptionalText("description", f.description, 0, 2000, PROJECT_DESCRIPTION_LENGTH)
    + OptionalIn("status", f.status, PROJECT_STATUS, PROJECT_STATUS_INVALID)
  }

  /** A trimmed value trims to itself. */
  lemma TrimmedAgain(v: Option<string>)
    ensures v.Some? ==> Trim(Trimmed(v).value) == Trimmed(v).value == Trim(v.value)
  {
    if v.Some? {
      TrimIdempotent(v.value);
    }
  }

  /** The trim sanitisers of the project validators: what the handlers read
      afterwards. Sanitising again would change nothing, and the validators
      pass the sanitised body exactly when they pass the raw one. */
  function SanitizeProject(f: ProjectFields): (r: ProjectFields)
    ensures r.status == f.status && r.dueDate == f.dueDate
    ensures r.title.Some? <==> f.title.Some?
    ensures r.description.Some? <==> f.description.Some?
    ensures r.title.Some? ==> Trim(r.title.value) == r.title.value
    ensures r.description.Some? ==> Trim(r.description.value) == r.description.value
    ensures CreateProjectErrors(r) == [] <==> CreateProjectErrors(f) == []
    ensures UpdateProjectErrors(r) == [] <==> UpdateProjectErrors(f) == []
  {
    TrimmedAgain(f.title);
    TrimmedAgain(f.description);
    f.(title := Trimmed(f.title), description := Trimmed(f.description))
  }

  /** The fields of a body the create validator accepts always pass the
      schema, so creating the project fails exactly when the body's own
      `mainTasks` array, which the validator does not look at, holds an
      invalid task. The validator's trim and the schema's trim together are
      one trim. */
  lemma ValidatedProjectCreates(store: ProjectService.Store, pid: ProjectService.ProjectId, uid: UserId,
                                f: ProjectFields, tasks: seq<MainTask>)
    requires pid !in store && CreateProjectErrors(f) == []
    ensures NewProject(Current, SanitizeProject(f), Some(uid), tasks) == NewProject(Current, f, Some(uid), tasks)
    ensures ProjectService.CreateProject(store, pid, uid, SanitizeProject(f), tasks).Ok?
        <==> forall k :: 0 <= k < |tasks| ==> ValidMainTask(tasks[k])
  {
    SanitizedProjectCastsAlike(f, Some(uid), tasks);
    NewProjectValidIff(Current, f, Some(uid), tasks);
    TrimEmptyIff(f.title.value);
  }

  /** Trimming before the schema's own trim changes nothing in the project
      the schema builds. */
  lemma SanitizedProjectCastsAlike(f: ProjectFields, owner: Option<UserId>, tasks: seq<MainTask>)
    ensures NewProject(Current, SanitizeProject(f), owner, tasks) == NewProject(Current, f, owner, tasks)
  {
    TrimmedAgain(f.title);
    if f.description.Some? {
      TrimIdempotent(f.description.value);
    }
  }

  // ----------------------------------------------------------------- tasks

  const TASK_NAME_REQUIRED: string := "Task name is required"
  const TASK_NAME_LENGTH: string := "Task name must be between 3 and 200 characters"
  const TASK_DESCRIPTION_LENGTH: string := "Description must not exceed 1000 characters"
  const TASK_STATUS_INVALID: string := "Invalid task status"
  const PRIORITY_INVALID: string := "Invalid priority level"
  const TASK_INDEX_INVALID: string := "Invalid task index"

  /** The rules shared by every task-body validator: status and priority in
      their enumerations. */
  predicate EnumsOk(f: TaskFields) {
    && (f.status.Some? ==> f.status.value in TASK_STATUS)
    && (f.priority.Some? ==> f.priority.value in PRIORITY)
  }

  /** `createTaskValidator`. */
  function CreateTaskErrors(f: TaskFields): (r: seq<FieldError>)
    ensures r == [] <==>
      && f.name.Some? && 3 <= |Trim(f.name.value)| <= 200
      && (f.description.Some? ==> |Trim(f.description.value)| <= 1000)
      && EnumsOk(f)
  {
    RequiredText("name", f.name, 3, 200, TASK_NAME_REQUIRED, TASK_NAME_LENGTH)
    + OptionalText("description", f.description, 0, 1000, TASK_DESCRIPTION_LENGTH)
    + OptionalIn("status", f.status, TASK_STATUS, TASK_STATUS_INVALID)
    + OptionalIn("priority", f.priority, PRIORITY, PRIORITY_INVALID)
  }

  /** `taskIndexValidator`. */
  function TaskIndexErrors(mainTaskIndex: string): (r: seq<FieldError>)
    ensures r == [] <==> IsIntMin(mainTaskIndex, 0)
  {
    IntAtLeast("mainTaskIndex", mainTaskIndex, 0, TASK_INDEX_INVALID)
  }

  /** `updateTaskValidator`: the index, then the body with the name optional. */
  function UpdateTaskErrors(mainTaskIndex: string, f: TaskFields): (r: seq<FieldError>)
    ensures r == [] <==>
      && IsIntMin(mainTaskIndex, 0)
      && (f.name.Some? ==> 3 <= |Trim(f.name.value)| <= 200)
      && (f.description.Some? ==> |Trim(f.description.value)| <= 1000)
      && EnumsOk(f)
  {
    TaskIndexErrors(mainTaskIndex)
    + OptionalText("name", f.name, 3, 200, TASK_NAME_LENGTH)
    + OptionalText("description", f.description, 0, 1000, TASK_DESCRIPTION_LENGTH)
    + OptionalIn("status", f.status, TASK_STATUS, TASK_STATUS_INVALID)
    + OptionalIn("priority", f.priority, PRIORITY, PRIORITY_INVALID)
  }

  /** The trim sanitisers of the task and subtask validators. */
  function SanitizeTask(f: TaskFields): (r: TaskFields)
    ensures r.status == f.status && r.priority == f.priority
    ensures r.name.Some? <==> f.name.Some?
    ensures r.description.Some? <==> f.description.Some?
    ensures r.name.Some? ==> Trim(r.name.value) == r.name.value
    ensures r.description.Some? ==> Trim(r.description.value) == r.description.value
    ensures CreateTaskErrors(r) == [] <==> CreateTaskErrors(f) == []
    ensures forall m :: UpdateTaskErrors(m, r) == [] <==> UpdateTaskErrors(m, f) == []
    ensures forall m :: CreateSubtaskErrors(m, r) == [] <==> CreateSubtaskErrors(m, f) == []
  {
    TrimmedAgain(f.name);
    TrimmedAgain(f.description);
    var r := f.(name := Trimmed(f.name), description := Trimmed(f.description));
    SameTrimsSameVerdicts(f, r);
    r
  }

  /** The task validators read the fields only through their trims. */
  lemma SameTrimsSameVerdicts(f: TaskFields, g: TaskFields)
    requires f.status == g.status && f.priority == g.priority
    requires f.name.Some? <==> g.name.Some?
    requires f.description.Some? <==> g.description.Some?
    requires f.name.Some? ==> Trim(f.name.value) == Trim(g.name.value)
    requires f.description.Some? ==> Trim(f.description.value) == Trim(g.description.value)
    ensures CreateTaskErrors(f) == [] <==> CreateTaskErrors(g) == []
    ensures forall m :: UpdateTaskErrors(m, f) == [] <==> UpdateTaskErrors(m, g) == []
    ensures forall m :: CreateSubtaskErrors(m, f) == [] <==> CreateSubtaskErrors(m, g) == []
  {
    assert EnumsOk(f) == EnumsOk(g);
  }

  /** Trimming before the schema's own trim changes nothing in the task or
      subtask the schema builds. */
  lemma SanitizedTaskCastsAlike(f: TaskFields)
    ensures NewMainTask(Current, SanitizeTask(f)) == NewMainTask(Current, f)
    ensures NewSubtask(Current, SanitizeTask(f)) == NewSubtask(Current, f)
  {
    if f.name.Some? {
      TrimIdempotent(f.name.value);
    }
    if f.description.Some? {
      TrimIdempotent(f.description.value);
    }
  }

  /** The fields of a body the create validator accepts make a valid main
      task, so adding it to a valid project of its owner fails exactly when
      the body's own `comments` or `subtasks` array, which the validator does
      not look at, holds an invalid element. */
  lemma ValidatedTaskAdds(store: ProjectService.Store, pid: ProjectService.ProjectId, uid: UserId, b: TaskPatch)
    requires CreateTaskErrors(b.fields) == []
    requires ProjectService.Owned(store, pid, uid) && ValidProject(Current, store[pid])
    ensures ValidMainTask(NewMainTask(Current, b.fields))
    ensures ProjectService.AddMainTask(store, pid, uid, b.(fields := SanitizeTask(b.fields))).Ok? <==> ValidTaskArrays(b)
  {
    var c := b.(fields := SanitizeTask(b.fields));
    SanitizedTaskCastsAlike(b.fields);
    TrimEmptyIff(b.fields.name.value);
    NewMainTaskValidIff(Current, b.fields);
    MainTaskFromBodyValidIff(Current, c);
    ProjectService.TaskRequestsSave(store, pid, uid, 0, c, TaskPatch(b.fields, None, None));
  }

  /** The body `{name: "Plan", subtasks: [{}]}` passes the create validator,
      and the save then refuses the nameless subtask it carries. */
  lemma ValidatedTaskWithBlankSubtaskFails(store: ProjectService.Store, pid: ProjectService.ProjectId, uid: UserId)
    requires ProjectService.Owned(store, pid, uid)
    ensures var none := TaskFields(None, None, None, None);
      var b := TaskPatch(none.(name := Some("Plan")), None, Some([NewSubtask(Current, none)]));
      && CreateTaskErrors(b.fields) == []
      && ProjectService.AddMainTask(store, pid, uid, b) == Err(ApiError(BAD_REQUEST, "Failed to add task"))
  {
    var none := TaskFields(None, None, None, None);
    var b := TaskPatch(none.(name := Some("Plan")), None, Some([NewSubtask(Current, none)]));
    TrimFixpoint("Plan");
    var p := store[pid];
    var t := MainTaskFromBody(Current, b);
    assert !ValidSubtask(t.subtasks[0]);
    assert (p.mainTasks + [t])[|p.mainTasks|] == t;
  }

  /** A body the update validator accepts keeps a valid task valid, provided
      the body sets no comment log and no subtask list (keys the validator
      does not look at). */
  lemma ValidatedTaskPatchKeepsValid(mainTaskIndex: string, t: MainTask, f: TaskFields)
    requires UpdateTaskErrors(mainTaskIndex, f) == [] && ValidMainTask(t)
    ensures ValidMainTask(PatchMainTask(Current, t, TaskPatch(f, None, None)))
  {
  }

  // -------------------------------------------------------------- subtasks

  const SUBTASK_NAME_REQUIRED: string := "Subtask name is required"
  const SUBTASK_NAME_LENGTH: string := "Subtask name must be between 3 and 200 characters"
  const SUBTASK_DESCRIPTION_LENGTH: string := "Description must not exceed 500 characters"
  const SUBTASK_STATUS_INVALID: string := "Invalid subtask status"
  const SUBTASK_INDEX_INVALID: string := "Invalid subtask index"

  /** `createSubtaskValidator`. */
  function CreateSubtaskErrors(mainTaskIndex: string, f: TaskFields): (r: seq<FieldError>)
    ensures r == [] <==>
      && IsIntMin(mainTaskIndex, 0)
      && f.name.Some? && 3 <= |Trim(f.name.value)| <= 200
      && (f.description.Some? ==> |Trim(f.description.value)| <= 500)
      && EnumsOk(f)
  {
    TaskIndexErrors(mainTaskIndex)
    + RequiredText("name", f.name, 3, 200, SUBTASK_NAME_REQUIRED, SUBTASK_NAME_LENGTH)
    + OptionalText("description", f.description, 0, 500, SUBTASK_DESCRIPTION_LENGTH)
    + OptionalIn("status", f.status, TASK_STATUS, SUBTASK_STATUS_INVALID)
    + OptionalIn("priority", f.priority, PRIORITY, PRIORITY_INVALID)
  }

  /** `subtaskIndexValidator`. */
  function SubtaskIndexErrors(mainTaskIndex: string, subtaskIndex: string): (r: seq<FieldError>)
    ensures r == [] <==> IsIntMin(mainTaskIndex, 0) && IsIntMin(subtaskIndex, 0)
  {
    TaskIndexErrors(mainTaskIndex) + IntAtLeast("subtaskIndex", subtaskIndex, 0, SUBTASK_INDEX_INVALID)
  }

  /** `updateSubtaskValidator`. */
  function UpdateSubtaskErrors(mainTaskIndex: string, subtaskIndex: string, f: TaskFields): (r: seq<FieldError>)
    ensures r == [] <==>
      && IsIntMin(mainTaskIndex, 0) && IsIntMin(subtaskIndex, 0)
      && (f.name.Some? ==> 3 <= |Trim(f.name.value)| <= 200)
      && (f.description.Some? ==> |Trim(f.description.value)| <= 500)
      && EnumsOk(f)
  {
    SubtaskIndexErrors(mainTaskIndex, subtaskIndex)
    + OptionalText("name", f.name, 3, 200, SUBTASK_NAME_LENGTH)
    + OptionalText("description", f.description, 0, 500, SUBTASK_DESCRIPTION_LENGTH)
    + OptionalIn("status", f.status, TASK_STATUS, SUBTASK_STATUS_INVALID)
    + OptionalIn("priority", f.priority, PRIORITY, PRIORITY_INVALID)
  }

  /** The fields of a body the create validator accepts make a valid
      subtask; the whole body is valid exactly when the `comments` array it
      may carry, which the validator does not look at, is. */
  lemma ValidatedSubtaskIsValid(mainTaskIndex: string, f: TaskFields, comments: Option<seq<Comment>>)
    requires CreateSubtaskErrors(mainTaskIndex, f) == []
    ensures ValidSubtask(NewSubtask(Current, SanitizeTask(f)))
    ensures ValidSubtask(SubtaskFromBody(Current, SubtaskPatch(SanitizeTask(f), comments)))
        <==> ValidSubtaskArrays(SubtaskPatch(f, comments))
  {
    SanitizedTaskCastsAlike(f);
    TrimEmptyIff(f.name.value);
    NewSubtaskValidIff(Current, f);
    SubtaskFromBodyValidIff(Current, SubtaskPatch(SanitizeTask(f), comments));
  }

  /** A body the update validator accepts keeps a valid subtask valid when it
      sets no comment log. */
  lemma ValidatedSubtaskPatchKeepsValid(mainTaskIndex: string, subtaskIndex: string, s: Subtask, f: TaskFields)
    requires UpdateSubtaskErrors(mainTaskIndex, subtaskIndex, f) == [] && ValidSubtask(s)
    ensures ValidSubtask(PatchSubtask(Current, s, SubtaskPatch(f, None)))
  {
  }

  // -------------------------------------------------------------- comments

  const AUTHOR_REQUIRED: string := "Author name is required"
  const AUTHOR_LENGTH: string := "Author name must be between 2 and 100 characters"
  const CONTENT_REQUIRED: string := "Comment content is required"
  const CONTENT_LENGTH: string := "Comment must be between 1 and 1000 characters"

  /** `createCommentValidator`. */
  function CreateCommentErrors(f: CommentFields): (r: seq<FieldError>)
    ensures r == [] <==>
      && f.author.Some? && 2 <= |Trim(f.author.value)| <= 100
      && f.content.Some? && 1 <= |Trim(f.content.value)| <= 1000
  {
    RequiredText("author", f.author, 2, 100, AUTHOR_REQUIRED, AUTHOR_LENGTH)
    + RequiredText("content", f.content, 1, 1000, CONTENT_REQUIRED, CONTENT_LENGTH)
  }

  /** A comment the validator accepts passes the schema, whatever the clock. */
  lemma ValidatedCommentIsValid(f: CommentFields, now: int)
    requires CreateCommentErrors(f) == []
    ensures ValidComment(NewComment(Current, f, now))
  {
  }

  /** A present value that is not blank but shorter than `min` draws the
      length message alone. */
  lemma RequiredTextTooShort(field: string, v: Option<string>, min: nat, max: nat, missing: string, length: string)
    requires v.Some? && 0 < |Trim(v.value)| < min
    ensures RequiredText(field, v, min, max, missing, length) == [FieldError(field, length)]
  {
    assert |Trim(v.GetOr(""))| > 0;
  }

  /** A present value whose trimmed length is within bounds draws nothing. */
  lemma RequiredTextAccepts(field: string, v: Option<string>, min: nat, max: nat, missing: string, length: string)
    requires v.Some? && 0 < |Trim(v.value)| && min <= |Trim(v.value)| <= max
    ensures RequiredText(field, v, min, max, missing, length) == []
  {
  }

  /** An author of one visible character is refused by the validator: it
      asks for two characters after the trim. */
  lemma {:induction false} OneLetterAuthorRefused(a: string, c: string)
    requires |Trim(a)| == 1 && 1 <= |Trim(c)| <= 1000
    ensures CreateCommentErrors(CommentFields(Some(a), Some(c), None)) == [FieldError("author", AUTHOR_LENGTH)]
  {
    var e := FieldError("author", AUTHOR_LENGTH);
    var author := RequiredText("author", Some(a), 2, 100, AUTHOR_REQUIRED, AUTHOR_LENGTH);
    var content := RequiredText("content", Some(c), 1, 1000, CONTENT_REQUIRED, CONTENT_LENGTH);
    assert author == [e] by {
      RequiredTextTooShort("author", Some(a), 2, 100, AUTHOR_REQUIRED, AUTHOR_LENGTH);
    }
    assert content == [] by {
      RequiredTextAccepts("content", Some(c), 1, 1000, CONTENT_REQUIRED, CONTENT_LENGTH);
    }
    calc {
      CreateCommentErrors(CommentFields(Some(a), Some(c), None));
      author + content;
      [e];
    }
  }

  /** The schema alone would store that comment: it asks only for a
      non-empty author once trimmed. */
  lemma OneLetterAuthorStorable(a: string, c: string, now: int)
    requires |Trim(a)| == 1 && 1 <= |Trim(c)| <= 1000
    ensures ValidComment(NewComment(Current, CommentFields(Some(a), Some(c), None), now))
  {
    var cm := NewComment(Current, CommentFields(Some(a), Some(c), None), now);
    assert cm.author == Trim(a) && cm.content == Trim(c);
  }

  // ------------------------------------------------------------ pagination

  const PAGE_INVALID: string := "Page must be a positive integer"
  const LIMIT_INVALID: string := "Limit must be between 1 and 100"

  /** `paginationValidator`. */
  function PaginationErrors(q: ProjectService.PageRequest): (r: seq<FieldError>)
    ensures r == [] <==> ProjectService.ValidPaging(q)
  {
    (if q.page.Some? && !IsIntMin(q.page.value, 1) then [FieldError("page", PAGE_INVALID)] else [])
    + (if q.limit.Some? && !IsIntRange(q.limit.value, 1, 100) then [FieldError("limit", LIMIT_INVALID)] else [])
  }

  /** The error list names a field only when that field breaks its rule:
      a bad page never blames the limit, and the other way round. */
  lemma PaginationBlamesTheRightField(q: ProjectService.PageRequest)
    ensures (exists k :: 0 <= k < |PaginationErrors(q)| && PaginationErrors(q)[k].field == "page")
        <==> q.page.Some? && !IsIntMin(q.page.value, 1)
    ensures (exists k :: 0 <= k < |PaginationErrors(q)| && PaginationErrors(q)[k].field == "limit")
        <==> q.limit.Some? && !IsIntRange(q.limit.value, 1, 100)
  {
    var e := PaginationErrors(q);
    if q.page.Some? && !IsIntMin(q.page.value, 1) {
      assert e[0].field == "page";
    }
    if q.limit.Some? && !IsIntRange(q.limit.value, 1, 100) {
      assert e[|e| - 1].field == "limit";
    }
    assert forall k :: 0 <= k < |e| ==> e[k].field == "page" || e[k].field == "limit";
    assert "page" != "limit";
  }
}

=== FILE: wrappers.dfy ===
/** Optional values and success/failure results, usable with `:-`. */
module Wrappers {

  /** A value that may be absent; `None` stands for JavaScript's `undefined`. */
  datatype Option<+T> = None | Some(value: T) {

    predicate IsFailure() {
      None?
    }

    function PropagateFailure<U>(): Option<U>
      requires None?
    {
      None
    }

    function Extract(): T
      requires Some?
    {
      value
    }

    /** The carried value, or `default` when absent. */
    function GetOr(default: T): T {
      match this
      case Some(v) => v
      case None => default
    }
  }

  /** The outcome of an operation that either succeeds or fails with an error. */
  datatype Result<+T, +E> = Ok(value: T) | Err(error: E) {

    predicate IsFailure() {
      Err?
    }

    function PropagateFailure<U>(): Result<U, E>
      requires Err?
    {
      Err(error)
    }

    function Extract(): T
      requires Ok?
    {
      value
    }
  }
}
